=== FILE: README.md ===
# CoLab Manager core, modelled in Dafny

CoLab Manager is a SvelteKit + Prisma project-management application. This
project models the logic that sits inside its database and mail glue, and
proves properties of that model:

- **Sessions** (`Session`). These are `id.secret` tokens:
  - 24 random bytes are encoded over a 33-character alphabet;
  - only the SHA-256 digest of the secret is stored;
  - digests are compared by an XOR-accumulating loop;
  - a session is touched at most hourly;
  - it expires ten days after creation;
  - the `session` cookie has a fixed attribute policy (section 4.1.2 of RFC 6265).
- **The server-sent-events broadcaster** (`Broadcaster`):
  - a registry of connections keyed by id;
  - a fan-out to the other users of the same project;
  - frames in the `data: <json>\n\n` format of section 9.2 of the WHATWG HTML Standard;
  - removal of a connection whose enqueue fails.
- **The browser realtime store** (`ClientRealtime`). It is a state machine whose inputs are the public calls, socket callbacks and timer expiry. It covers:
  - heartbeat filtering;
  - normal closure 1000 (section 7.4.1 of RFC 6455);
  - linear back-off capped at five attempts;
  - a one-way WebSocket→SSE fallback.
- **Utilities**:
  - relative-time phrases (`Date`);
  - the 3xx redirect predicate (`Redirect`, section 15.4 of RFC 9110);
  - log-line formatting and level gating (`Logger`).
- **Request handlers**. Each is a pure function from the signed-in user, the request and a database snapshot (`Db`) to a reply and the new snapshot. The handlers are:
  - login, register, e-mail verification, resend-verification and logout;
  - the user's projects and tasks;
  - the admin user, project and statistics endpoints, with their shared pagination (`Paging`).

Foreign operations become parameters, and the model's properties hold for every choice of them:
- SHA-256, argon2 hashing and verification;
- random bytes, UUID and CUID generation;
- zod's e-mail syntax and `encodeURIComponent`;
- the storage host and bucket, object deletion, and e-mail delivery;
- the clock;
- `JSON.stringify`.

Prisma queries are modelled by their effect on the snapshot, which holds one `seq` per table in insertion order. Request bodies and thrown values are `Js.JsValue`. zod object schemas are modelled generically (`Schema`).

Some behaviours of the code that a reader might not expect, and that the model keeps:
- `deleteSession` deletes by key, so deleting an absent session fails. It is not idempotent.
- `getSession` throws `null` for an unknown id. It does not return null.
- The server registry has no heartbeat sweep. It does not close a transport when it removes it.
- `generateSecureRandomString` indexes its 33-character alphabet with `byte >> 3`, which is below 32. The last character, '9', is therefore never produced, and the 24 characters carry 120 bits (24 × 5).

## Model

| member | source | states |
|---|---|---|
| Session.GenerateSecureRandomString | src/lib/server/session.ts:22-33 | the string has one character per random byte, the i-th being the alphabet character at index `bytes[i] >> 3`; so every character is among the first 32, and '9' and the '.' separator never occur |
| Session.SymbolOnto | src/lib/server/session.ts:22-33 | each of the first 32 alphabet characters is the character of some byte, so none of them is unreachable |
| Session.RandomStringKeepsTopBits | src/lib/server/session.ts:22-33 | two 24-byte inputs give the same string exactly when every pair of bytes agrees in its top five bits: the string carries 24 × 5 = 120 bits |
| Session.ConstantTimeEqual | src/lib/server/session.ts:138-147 | digests compare equal exactly when they are the same byte sequence (false on a length mismatch) |
| Session.ConstantTimeEqualLoop | src/lib/server/session.ts:138-147 | the OR-of-XOR loop answers digest equality and visits every index when the lengths agree, none otherwise (no early exit) |
| Session.XorFoldZeroIffPrefixEqual | src/lib/server/session.ts:142-146 | the accumulated OR of XORs over the first n bytes is zero exactly when those prefixes are equal |
| Session.CreateSession | src/lib/server/session.ts:35-62 | the token is id "." secret, the stored row keeps only the secret's hash, with createdAt = lastVerifiedAt = now, and an id already present makes the create fail |
| Session.CreateSessionWellKeyed | src/lib/server/session.ts:53-61 | creating a session keeps every stored session under its own id |
| Session.TokenSegments | src/lib/server/session.ts:68 | the first two '.'-separated segments of a token; a token without '.' has no second segment |
| Session.TokenSegmentsOfComposite | src/lib/server/session.ts:68 | a token id "." secret ("." rest) splits back into id and secret, whatever follows the second separator |
| Session.ValidateSessionToken | src/lib/server/session.ts:65-92 | a session is returned exactly when both segments are non-empty, the id is stored and the secret's hash matches; lastVerifiedAt is moved to now exactly when an hour or more has passed; otherwise the store is unchanged |
| Session.CreateThenValidate | src/lib/server/session.ts:42-91 | the token a create hands out validates, at any later time, to that session and its user |
| Session.WrongSecretRejected | src/lib/server/session.ts:80-84 | a secret whose hash differs from the stored one is rejected and the store is untouched |
| Session.MalformedTokenRejected | src/lib/server/session.ts:68-71 | a token with a missing or empty id or secret segment is rejected whatever the store |
| Session.UnknownIdRejected | src/lib/server/session.ts:72-78 | an unknown id is rejected whatever the secret |
| Session.GetSession | src/lib/server/session.ts:94-110 | an unknown id throws; a session ten days old or older is deleted and null returned; otherwise the stored session is returned and nothing changes |
| Session.ExpiredSessionThenThrows | src/lib/server/session.ts:100-107 | once an expired session has been discarded, asking for it again throws |
| Session.DeleteSession | src/lib/server/session.ts:112-114 | deletes exactly that id and keeps every other session; an absent id fails |
| Session.SetSessionTokenCookie | src/lib/server/session.ts:116-124 | the jar gains the `session` cookie at path `/` holding the token, HttpOnly, SameSite=Lax, Max-Age 86400, Secure exactly in production; other cookies are kept |
| Session.DeleteSessionTokenCookie | src/lib/server/session.ts:126-130 | removes the `session` cookie at path `/` and nothing else |
| Session.DeleteUndoesSet | src/lib/server/session.ts:116-130 | deleting the cookie after setting it restores a jar that had none |
| Broadcaster.AddConnection | src/lib/server/realtime.ts:22-24 | the entry for the connection's id is inserted or overwritten and every other entry is kept |
| Broadcaster.RemoveConnection | src/lib/server/realtime.ts:26-28 | the entry is removed and every other entry kept; removing an absent id changes nothing |
| Broadcaster.GetConnectionCount | src/lib/server/realtime.ts:93-99 | with a non-empty project id, the number of that project's connections; without one, the registry size |
| Broadcaster.TotalAfterAdd | src/lib/server/realtime.ts:22-24 | adding a new id raises the total count by one |
| Broadcaster.ProjectCountAfterAdd | src/lib/server/realtime.ts:22-24 | adding a new id raises its project's count by one and leaves other projects' counts |
| Broadcaster.TotalAfterRemove | src/lib/server/realtime.ts:26-28 | removing a present id lowers the total count by one |
| Broadcaster.ProjectCountAfterRemove | src/lib/server/realtime.ts:26-28 | removing a present id lowers only its project's count, by one |
| Broadcaster.ParseFrame | src/lib/server/realtime.ts:32 | an event-stream parser reads one `data:` frame back as exactly its JSON text |
| Broadcaster.StreamRoundTrip | src/lib/server/realtime.ts:32-33 | a stream of frames whose JSON texts hold no line break (as `JSON.stringify` guarantees) parses back to those texts in order |
| Broadcaster.Broadcast | src/lib/server/realtime.ts:30-47 | every recipient gets the same frame; a connection receives it exactly when it is on the event's project, belongs to another user and its enqueue succeeds; exactly the failing recipients are removed; nothing is added or altered |
| Broadcaster.BroadcastTaskCreated | src/lib/server/realtime.ts:50-58 | sends a `task_created` event with data {task} to the project's other users, and removes from the registry exactly the recipients whose enqueue fails |
| Broadcaster.BroadcastTaskUpdated | src/lib/server/realtime.ts:61-69 | sends a `task_updated` event with data {task} to the project's other users, and removes from the registry exactly the recipients whose enqueue fails |
| Broadcaster.BroadcastTaskDeleted | src/lib/server/realtime.ts:72-80 | sends a `task_deleted` event with data {taskId} to the project's other users, and removes from the registry exactly the recipients whose enqueue fails |
| Broadcaster.BroadcastTaskMoved | src/lib/server/realtime.ts:83-91 | sends a `task_moved` event with data {task} to the project's other users, and removes from the registry exactly the recipients whose enqueue fails |
| Broadcaster.RecipientCount | src/lib/server/realtime.ts:36-37 | the number of recipients is the project's connection count less the originator's own connections to it |
| Broadcaster.ThreeConnectionScenario | src/lib/server/realtime.ts:36-37 | with c1 (p1,u1), c2 (p1,u2) and c3 (p2,u2), an event on p1 from u1 reaches c2 only |
| ClientRealtime.SessionToken | src/lib/stores/realtime.ts:52-55 | the token of the first cookie row starting `session=`, when it is non-empty; absent when no row matches |
| ClientRealtime.SessionTokenOfCookie | src/lib/stores/realtime.ts:52-55 | a cookie whose first row is `session=<token>` yields that token |
| ClientRealtime.ConnectSSE | src/lib/stores/realtime.ts:131-174 | without a project nothing happens; a throwing EventSource constructor only sets the error; otherwise an EventSource for the project becomes the connection; the WebSocket preference and attempt count are kept |
| ClientRealtime.ConnectWebSocket | src/lib/stores/realtime.ts:47-129 | without a session token or on a throwing constructor the WebSocket preference is dropped and SSE is used; otherwise a WebSocket to port 3001 with the project and token becomes the connection |
| ClientRealtime.AttemptConnection | src/lib/stores/realtime.ts:37-45 | nothing without a project; otherwise the preferred transport; the preference never turns back on |
| ClientRealtime.HandleReconnect | src/lib/stores/realtime.ts:176-190 | at five attempts only the exhausted-budget error is set; below, the count rises by one and a reconnect is scheduled after 5000 ms times the new count |
| ClientRealtime.DisconnectStep | src/lib/stores/realtime.ts:192-203 | with a connection: it is closed (WebSocket with 1000), cleared, and connected and projectId cleared; without one nothing changes |
| ClientRealtime.ConnectStep | src/lib/stores/realtime.ts:24-35 | outside a browser nothing happens; otherwise the old connection is released first, then the project is set, attempts reset to 0, the error cleared and a connection attempted |
| ClientRealtime.OnMessage | src/lib/stores/realtime.ts:79-93 | a parsed message is published unless its type is heartbeat; an unparsable one is dropped; the state never changes |
| ClientRealtime.OnOpen | src/lib/stores/realtime.ts:72-77 | opening sets connected, clears the error and resets attempts, and changes nothing else |
| ClientRealtime.OnWsClose | src/lib/stores/realtime.ts:95-110 | close code 1000 only marks the store disconnected; another code reconnects while attempts are below five and otherwise falls back to SSE for good |
| ClientRealtime.Step | src/lib/stores/realtime.ts:24-213 | any input keeps attempts at most five once they are, never turns the WebSocket preference back on, schedules only linear back-offs and publishes no heartbeat |
| ClientRealtime.Send | src/lib/stores/realtime.ts:206-213 | true exactly when the connection is a WebSocket whose ready state is OPEN |
| ClientRealtime.GetConnectionType | src/lib/stores/realtime.ts:252-256 | 'disconnected', 'websocket' or 'sse' exactly according to the connection |
| ClientRealtime.ConnectResets | src/lib/stores/realtime.ts:24-35 | in a browser, connect leaves the new project set with attempts 0 and the old connection released first |
| ClientRealtime.ConnectOpensWebSocket | src/lib/stores/realtime.ts:37-70 | with a session token and the WebSocket preference, connect opens a WebSocket for the project |
| ClientRealtime.OpenResets | src/lib/stores/realtime.ts:138-143 | an open on either transport gives connected, no error and zero attempts |
| ClientRealtime.MessagesFiltered | src/lib/stores/realtime.ts:145-155 | both transports treat a message alike: heartbeats are dropped and anything else is published unchanged |
| ClientRealtime.WsCloseCases | src/lib/stores/realtime.ts:95-110 | close code 1000 never reconnects; another code schedules a reconnect below five attempts and switches to SSE with the preference dropped at five |
| ClientRealtime.ReconnectBudgetExhausted | src/lib/stores/realtime.ts:161-180 | at five attempts a closed EventSource only reports the exhausted budget |
| ClientRealtime.DisconnectIdempotent | src/lib/stores/realtime.ts:185-203 | disconnecting twice equals disconnecting once, and a reconnect timer firing afterwards does nothing |
| ClientRealtime.RunInvariants | src/lib/stores/realtime.ts:176-190 | over any run of inputs the preference only goes true→false, attempts stay at most five, every scheduled reconnect waits 5000 ms × an attempt number from 1 to 5, and no heartbeat is published |
| ClientRealtime.ReleaseThenOpen | src/lib/stores/realtime.ts:131-136 | replacing a connection opens only the new transport and, corrected, closes the old one |
| ClientRealtime.OrphanedEventSourceAsWritten | src/lib/stores/realtime.ts:24-190 | as written, in a browser with no readable session cookie: connect, an EventSource error with state CLOSED, connect again and the reconnect timer leave two EventSources open, only one of them the connection |
| ClientRealtime.CorrectedStepKeepsOnlyCurrentLive | src/lib/stores/realtime.ts:131-136 | corrected, after any input every transport still open is the current connection |
| ClientRealtime.AtMostOneLiveTransport | src/lib/stores/realtime.ts:131-136 | corrected, after any run of inputs at most one transport is open, and it is the connection |
| Date.DiffInSeconds | src/lib/utils/date.ts:27 | the floor of the millisecond difference divided by 1000, also for negative differences |
| Date.FirstFit | src/lib/utils/date.ts:38-43 | the first unit whose floored quotient is at least 1, all earlier ones having quotient 0 |
| Date.FormatRelativeTime | src/lib/utils/date.ts:24-46 | under a minute (including the future) gives 'Just now'; otherwise `n unit ago` with n the floored quotient for the largest fitting unit, and an 's' exactly when n > 1 |
| Date.UnitFoundFromAMinute | src/lib/utils/date.ts:29-45 | some unit fits exactly when the difference is at least 60 seconds |
| Date.UnitIsLargestFitting | src/lib/utils/date.ts:29-43 | the chosen unit's quotient is at least 1 and every larger unit's is 0 |
| Date.TwoDays | src/lib/utils/date.ts:38-41 | a 172800.999-second difference reads '2 days ago' |
| Redirect.IsSvelteKitRedirect | src/lib/utils/redirect.ts:4-17 | an object with `status` and `location` is a redirect exactly when its status is a number in 300..399; without `location` only a Response with such a status is; non-objects never are |
| Redirect.FrameworkRedirectRecognised | src/lib/utils/redirect.ts:6-9 | the framework's redirect object is recognised exactly for 3xx statuses, so 2xx, 4xx and 5xx never are |
| Logger.LevelTagValues | src/lib/utils/logger.ts:18 | the tags are 'DEBUG', 'INFO ', 'WARN ' and 'ERROR' |
| Logger.FormatMessage | src/lib/utils/logger.ts:16-20 | the line is as long as its parts plus the 12 fixed characters and ends with the message verbatim |
| Logger.ParseFormatted | src/lib/utils/logger.ts:16-20 | a formatted line parses back to its timestamp, level, context and message |
| Logger.Emit | src/lib/utils/logger.ts:22-38 | debug is emitted only when NODE_ENV is 'development', the others always; warn goes to console.warn and error to console.error; the text is the formatted line |
| Mail.VerificationUrl | src/routes/api/register/+server.ts:48 | the link is ORIGIN (or the localhost default when it is unset or empty) followed by `/auth/verify?token=` and the token |
| Mail.TokenParamOfVerificationUrl | src/routes/api/register/+server.ts:48 | a query-safe token is read back from its verification link |
| LoginRoute.Credentials | src/routes/api/login/+server.ts:9-17 | credentials exist exactly when the schema accepts the body, with a valid e-mail and a password at least six UTF-16 code units long, the unit zod's `.min` counts |
| LoginRoute.EmojiPasswordAccepted | src/routes/api/login/+server.ts:9-12 | a password of three emoji (three characters, six code units) passes `.min(6)`, so the body's e-mail and password are read as credentials |
| LoginRoute.WithoutPassword | src/routes/api/login/+server.ts:35 | the returned user is the stored user less its password, and nothing else is lost |
| LoginRoute.Login | src/routes/api/login/+server.ts:14-49 | a schema failure gives 400 with the flattened messages; an unknown e-mail and a wrong password give the same 401; 403 only after a correct password for an unverified user; success (200, the user without password, a new session and its cookie) exactly when the credentials are authentic, the user is verified and the session store accepts the new session; a 500 when it refuses; nothing changes otherwise |
| LoginRoute.LoginThenValidate | src/routes/api/login/+server.ts:36-37 | the cookie set by a successful login validates to a session of the logged-in user |
| RegisterRoute.ReadForm | src/routes/api/register/+server.ts:12-22 | a form exists exactly when the schema accepts the body; its fields are the body's strings, with a valid e-mail and a password at least six UTF-16 code units long |
| RegisterRoute.NewUser | src/routes/api/register/+server.ts:35-46 | the stored user has the form's name, e-mail and contact number, the hashed password, is unverified with the fresh token, and is an Admin exactly for the first user |
| RegisterRoute.Register | src/routes/api/register/+server.ts:19-72 | a schema failure gives 400; a taken e-mail gives 409 and writes nothing; otherwise the user is appended, the verification mail for the new token is sent and success reported whatever the delivery, with the message chosen by first-user status |
| RegisterRoute.OnlyFirstUserIsAdmin | src/routes/api/register/+server.ts:30-44 | registering into a non-empty table creates a 'User' and reports isFirstUser false |
| VerifyRoute.PendingUser | src/routes/auth/verify/+server.ts:13-18 | finds an unverified user holding the token; none exactly when no unverified user holds it |
| VerifyRoute.MarkVerified | src/routes/auth/verify/+server.ts:25-31 | the user becomes verified with the token cleared and nothing else changes |
| VerifyRoute.VerifyEmail | src/routes/auth/verify/+server.ts:5-42 | 400 exactly for a missing or empty token or one no unverified user holds, with nothing changed; otherwise that user alone is marked verified and, corrected, the reply is the 302 to `/auth/login?verified=true` |
| VerifyRoute.AsWrittenSuccessIsReportedAs500 | src/routes/auth/verify/+server.ts:34-40 | as written, a successful verification marks the user verified yet answers 500 'Verification failed' |
| VerifyRoute.TokenIsSingleUse | src/routes/auth/verify/+server.ts:13-31 | a token that has verified its user is refused with 400 the second time |
| ResendRoute.ResendThenVerify | src/routes/api/resend-verification/+server.ts:28-38 | after a resend to an unverified user, the new link's token verifies: not a 400 (corrected, the redirect to login), that user alone becomes verified with the token cleared, and the replaced token, when it was non-empty and no one else holds it, is refused with 400 |
| ResendRoute.Resend | src/routes/api/resend-verification/+server.ts:8-72 | 401 without a user, 400 for a verified one, 500 when the user's row is missing, each with nothing written or sent; otherwise the user's token is replaced before the mail with the new link is sent, success exactly on delivery and the 500 'Failed to send' reply on failure with the new token kept |
| LogoutRoute.SessionIdOf | src/routes/api/logout/+server.ts:12 | the token's prefix before the first '.', or the whole token |
| LogoutRoute.Logout | src/routes/api/logout/+server.ts:6-20 | always a 302 to `/auth/login` with locals cleared; with a token the cookie is deleted and that session removed, errors swallowed; without one nothing changes |
| LogoutRoute.LogoutEndsIssuedSession | src/routes/api/logout/+server.ts:11-13 | logging out with a freshly issued token removes exactly the session it named |
| ProjectsRoute.Owned | src/routes/api/projects/+server.ts:12-15 | exactly the projects the user created |
| ProjectsRoute.ListProjects | src/routes/api/projects/+server.ts:6-35 | 401 without a user; otherwise exactly the user's projects (as a multiset), newest first, each with its counts |
| ProjectsRoute.ReadProjectForm | src/routes/api/projects/+server.ts:44-53 | a falsy or blank name gives 400; a null or unreadable body, or a name or description that is not a string, gives 500; otherwise the trimmed name and the trimmed description, or none when empty or missing |
| ProjectsRoute.CreateProject | src/routes/api/projects/+server.ts:38-72 | 401 without a user, the form's failure otherwise, each writing nothing; success is 201 with the new project (trimmed name and description, created by the user) appended |
| ProjectsRoute.CreatedProjectIsListed | src/routes/api/projects/+server.ts:50-55 | a project just created is among its creator's listed projects |
| TasksRoute.StatusLabel | src/routes/api/projects/tasks/+server.ts:44 | the lower-cased status, with its first 'inprogress' widened to 'in-progress' |
| TasksRoute.PriorityLabel | src/routes/api/projects/tasks/+server.ts:45 | 'low' exactly for 1, 'medium' exactly for 2, 'high' for every other value |
| TasksRoute.OwnedTasks | src/routes/api/projects/tasks/+server.ts:12-17 | exactly the tasks whose project the user created |
| TasksRoute.ViewOf | src/routes/api/projects/tasks/+server.ts:40-61 | a task's view carries its fields, its mapped status and priority, its project's name, its user and its files one-to-one in order |
| TasksRoute.ViewsDescribeOwnedTasks | src/routes/api/projects/tasks/+server.ts:12-61 | the views correspond one to one with the user's tasks: as many views as tasks, newest first, every owned task shown by its own view, and every view that of an owned task |
| TasksRoute.ListTasks | src/routes/api/projects/tasks/+server.ts:6-67 | 401 without a user; 500 exactly when some owned task names a missing user; otherwise a 200 whose i-th view is the view of the i-th of the user's tasks sorted newest first (a permutation of them) |
| Paging.QueryInt | src/routes/api/admin/users/+server.ts:17-18 | an absent or empty parameter reads as its default, any other through parseInt |
| Paging.TotalPages | src/routes/api/admin/users/+server.ts:58 | `Math.ceil(count / limit)` as a JavaScript number: finite and non-negative for a positive limit, NaN or Infinity for zero |
| Paging.TotalPagesIsCeiling | src/routes/api/admin/users/+server.ts:58 | for a positive limit, the least number of pages of `limit` rows holding every row |
| Paging.Paginate | src/routes/api/admin/users/+server.ts:70-77 | the pagination echoes page, limit and count and has a previous page exactly after the first |
| Paging.NextPageIffRowsRemain | src/routes/api/admin/users/+server.ts:58-75 | for a positive limit, there is a next page exactly when rows remain after this one |
| Paging.Window | src/routes/api/admin/users/+server.ts:34-35 | skip then take: the rows from position skip, at most take of them, in order |
| Paging.ReadPageQuery | src/routes/api/admin/users/+server.ts:17-20 | skip is (page − 1) × limit; a NaN, a negative limit or a page before the first with a positive limit makes the query fail |
| Paging.RowOnItsPage | src/routes/api/admin/users/+server.ts:20-35 | with a positive limit every row is shown on some page from the first on |
| Paging.PastLastPageIsEmpty | src/routes/api/admin/users/+server.ts:20-58 | the page after the last one is empty |
| AdminUsersRoute.Matching | src/routes/api/admin/users/+server.ts:22-29 | exactly the users whose name or e-mail contains the search, ignoring case; every user for an empty search |
| AdminUsersRoute.Newest | src/routes/api/admin/users/+server.ts:36 | the matching users reordered newest first, none lost or added |
| AdminUsersRoute.AvatarUrl | src/routes/api/admin/users/+server.ts:61-65 | no avatar gives the ui-avatars URL; a stored one becomes its public storage URL |
| AdminUsersRoute.Listing | src/routes/api/admin/users/+server.ts:17-77 | the page holds the rows of the newest-first matches from position skip, `limit` of them or the rest, ordered by creation time, each the row of a matching user, with the pagination of the match count |
| AdminUsersRoute.PageShows | src/routes/api/admin/users/+server.ts:17-44 | an Admin's request for page n reads skip (n − 1) × limit and answers with the rows of that window of the newest-first matches |
| AdminUsersRoute.ListedOnItsPage | src/routes/api/admin/users/+server.ts:17-58 | the k-th newest matching user is shown on the page whose window holds position k, a page from the first on |
| AdminUsersRoute.ListUsers | src/routes/api/admin/users/+server.ts:10-83 | 401 unless an Admin; 500 when the page query fails; otherwise the listing of that page |
| AdminUsersRoute.EveryMatchingUserIsListed | src/routes/api/admin/users/+server.ts:17-58 | each matching user appears on some page an Admin can request |
| AdminUsersRoute.ReadNewUser | src/routes/api/admin/users/+server.ts:85-102 | a form exists exactly when the schema accepts the body: non-empty name and contact number, valid e-mail, password of six or more UTF-16 code units, role User or Admin with default User |
| AdminUsersRoute.CreateUser | src/routes/api/admin/users/+server.ts:94-144 | 401 unless an Admin; 400 with the first schema message; 409 for a taken e-mail before anything is hashed or written; success exactly for an Admin's valid request with an unused e-mail, which appends the new row (hashed password, submitted fields) and returns it without the password |
| AdminUsersRoute.CreateTwiceConflicts | src/routes/api/admin/users/+server.ts:105-111 | creating the same user twice answers the second time with 409 |
| AdminProjectsRoute.Matching | src/routes/api/admin/projects/+server.ts:20-28 | exactly the projects whose name, description or creator's name contains the search, ignoring case; all for an empty search |
| AdminProjectsRoute.Newest | src/routes/api/admin/projects/+server.ts:35 | the matching projects reordered newest first, none lost or added |
| AdminProjectsRoute.Listing | src/routes/api/admin/projects/+server.ts:30-69 | the page holds the rows of the newest-first matches from position skip, `limit` of them or the rest, ordered by creation time, each the row of a matching project, with the pagination of the match count |
| AdminProjectsRoute.ListProjects | src/routes/api/admin/projects/+server.ts:8-74 | 401 unless an Admin; 500 when the page query fails; otherwise the listing of that page |
| AdminProjectsRoute.PageShows | src/routes/api/admin/projects/+server.ts:15-35 | an Admin's request for page n reads skip (n − 1) × limit and answers with the rows of that window of the newest-first matches |
| AdminProjectsRoute.ListedOnItsPage | src/routes/api/admin/projects/+server.ts:15-52 | the k-th newest matching project is shown on the page whose window holds position k, a page from the first on |
| AdminProjectsRoute.EveryMatchingProjectIsListed | src/routes/api/admin/projects/+server.ts:15-52 | each matching project appears on some page an Admin can request |
| AdminProjectsRoute.ReadProjectIds | src/routes/api/admin/projects/+server.ts:84-88 | a missing or non-array or empty `projectIds` gives 400, an unreadable body 500; otherwise the ids as given |
| AdminProjectsRoute.StorageDeletions | src/routes/api/admin/projects/+server.ts:91-110 | storage is asked to remove exactly the paths of files of existing projects among the ids |
| AdminProjectsRoute.Cascade | src/routes/api/admin/projects/+server.ts:113-134 | members, files, messages and tasks of the named projects and the projects themselves are removed; every other row and every user is kept |
| AdminProjectsRoute.DeleteProjects | src/routes/api/admin/projects/+server.ts:77-141 | 401 unless an Admin, 400 for missing ids, each writing nothing; otherwise the cascade and the storage deletions, with a message counting the ids given, not the projects found |
| AdminProjectsRoute.DeleteIsIdempotent | src/routes/api/admin/projects/+server.ts:113-136 | deleting the same ids again gives the same reply, changes nothing more and asks storage for nothing |
| AdminProjectsRoute.DeletedProjectsAreNotListed | src/routes/api/admin/projects/+server.ts:131-133 | after a deletion no listed project has a deleted id |
| AdminStatsRoute.Distinct | src/routes/api/admin/stats/+server.ts:55-63 | the keys present, each once |
| AdminStatsRoute.GroupBy | src/routes/api/admin/stats/+server.ts:55-63 | one row per distinct key carrying its number of occurrences |
| AdminStatsRoute.Fold | src/routes/api/admin/stats/+server.ts:149-162 | the fold's keys are the rows' keys, a later row overwriting an earlier one |
| AdminStatsRoute.FoldOfDistinctKeys | src/routes/api/admin/stats/+server.ts:149-162 | with distinct keys, every row's key maps to that row's count |
| AdminStatsRoute.DistributionCounts | src/routes/api/admin/stats/+server.ts:149-162 | the distribution maps exactly the keys present, each to its number of occurrences |
| AdminStatsRoute.GrowthRate | src/routes/api/admin/stats/+server.ts:126-128 | 0 for a zero total; otherwise part/total × 100 rounded half up |
| AdminStatsRoute.GrowthRateIsPercentage | src/routes/api/admin/stats/+server.ts:126-128 | for a part no larger than its total the rate lies in 0..100 |
| AdminStatsRoute.Recent | src/routes/api/admin/stats/+server.ts:66-97 | min(5, n) rows taken from the input without repetition (a sub-multiset), newest first, and no row left out is newer than a row kept |
| AdminStatsRoute.Feed | src/routes/api/admin/stats/+server.ts:102-123 | the first min(10, total) entries of the merged inputs, newest first, a sub-multiset of their concatenation |
| AdminStatsRoute.FeedKeepsTheNewest | src/routes/api/admin/stats/+server.ts:122-123 | an input entry left out of the feed is no newer than any entry shown |
| AdminStatsRoute.FeedEntryIsAnInput | src/routes/api/admin/stats/+server.ts:102-123 | every feed entry comes from one of the three inputs |
| AdminStatsRoute.ActivityFeed | src/routes/api/admin/stats/+server.ts:66-123 | present exactly when the recent projects have creators and the recent tasks their project and user; its length caps ≤5 users, ≤5 projects and ≤5 tasks at 10, newest first |
| AdminStatsRoute.FeedEntriesAreTagged | src/routes/api/admin/stats/+server.ts:103-120 | each feed entry is the user_created, project_created or task_created entry of an existing row: its id, its description (`New user "name" registered`, `Project "name" created by creator`, `Task "title" created in project "name"`) and its creation time |
| AdminStatsRoute.Summary | src/routes/api/admin/stats/+server.ts:126-166 | totals, admin count, new rows since the month or week start, growth rates within 0..100, distributions keyed by the values present with their counts, and the feed |
| AdminStatsRoute.StatsNaming | src/routes/api/admin/stats/+server.ts:7-171 | 401 unless an Admin; 500 when the user date column is unknown or a recent row lacks its relation; otherwise the summary |
| AdminStatsRoute.AsWrittenStatsAlwaysFail | src/routes/api/admin/stats/+server.ts:44-75 | as written, the query on `createAt` fails, so every Admin gets 500 'Failed to fetch statistics' |
| AdminStatsRoute.GetStats | src/routes/api/admin/stats/+server.ts:7-171 | corrected: 401 unless an Admin; success exactly when the feed's relations exist, with the summary; 500 otherwise |

## Left out

- Session.GenerateSecureRandomString: the random bytes are an argument. `crypto.getRandomValues` is not modelled.
- Session hashing: `hashSecret` (SHA-256) is an uninterpreted function argument, and the model proves nothing about collisions.
- `getSessionWithUser`: it is GetSession followed by a user lookup. It is not modelled separately.
- The timing behaviour of constantTimeEqual cannot be stated. Only its result and the absence of an early exit are modelled.
- Database failures are not modelled. Prisma calls other than those named in a contract (connection loss, timeouts) would make every handler take its catch branch.
- Broadcaster.Broadcast: `TextEncoder` bytes are modelled as the frame's characters, and `JSON.stringify` is a parameter.
- ClientRealtime: the following are not modelled:
  - `testBidirectional` and `isBidirectional`, which are Promise-and-timeout plumbing;
  - console logging;
  - the Svelte `writable` stores, other than published events and the `connected` and `error` fields;
  - real sockets and timers, which are input events.
- Date: `formatDateTime` and `formatCompactDateTime` are not modelled, because they are `toLocaleString` formatting. The date parse of `formatRelativeTime` is a parameter; an invalid date reads as 'Just now'.
- Logger: the timestamp (`toISOString`) is a parameter.
- Logger.FormatMessage: its length clause counts characters. JavaScript's `length` would count a character outside the Basic Multilingual Plane twice.
- Text: only `Utf16Length`, which is used for zod's `.min`, counts UTF-16 code units. The other string operations (`split`, `indexOf`, `padEnd`, `trim`) index characters. That changes no result here, because their separators and padding are ASCII.
- Paging.ReadPageQuery: a negative `limit` (Prisma's negative `take`) and a page below 1 with a positive limit are modelled as a failed query (500). Prisma's backwards paging is not modelled.
- Paging: NaN or Infinity `totalPages` appear as values of `Num`. Their JSON serialisation as null is not modelled.
- AdminUsersRoute.Matching: case-insensitive search folds ASCII letters only.
- AdminProjectsRoute.Matching: case-insensitive search folds ASCII letters only.
- AdminUsersRoute.ListUsers: the user rows' `_count` of projects, tasks, files and messages is not modelled.
- AdminUsersRoute.CreateUser: the created user's `emailVerified` is whatever the schema default gives. That default is a parameter, because the Prisma schema is not part of this model.
- AdminProjectsRoute.Listing: a project whose creator row is missing is listed with no owner. Prisma's required relation would make that case impossible.
- AdminProjectsRoute.DeleteProjects: object-storage deletion (`deleteFromS3`, which src/lib/server/minio.ts does not export) is recorded as the list of requested paths. Its failures are swallowed, so they cannot affect the outcome. Schema-level `onDelete` cascades beyond the five listed deletions are not modelled.
- AdminStatsRoute.GrowthRate: computed on exact rationals and rounded half up. Math.round's floating-point error near halves is not modelled.
- AdminStatsRoute.Summary: the month and week starts (`startOfMonth`, `startOfWeek`) are parameters, because their calendar arithmetic is not modelled. The order of Prisma's `groupBy` rows is immaterial, since the keys are distinct.
- src/hooks.server.ts and src/routes/api/auth/setup/+server.ts are not part of this model. They call session functions that src/lib/server/session.ts does not provide.
- The following are I/O or configuration with no logic of their own and are not part of this model:
  - email.ts, minio.ts, migrations.ts, prisma.ts, setup.ts;
  - the profile upload route;
  - page loaders;
  - the deprecated kanban endpoints.

## Findings

| source | as written | input that shows it | evidently intended | confidence | as-written member | corrected member |
|---|---|---|---|---|---|---|
| src/lib/stores/realtime.ts:131-190 | `connectSSE` overwrites `connection` without closing the EventSource already there, and the reconnect timer of `handleReconnect` survives a later `connect`. | in a browser where the HttpOnly `session` cookie is unreadable (so SSE is used): connect(p) opens EventSource A; A errors with state CLOSED, scheduling a reconnect; connect(p) closes A and opens B; the timer fires and opens C without closing B | the replaced transport is closed, so at most one transport is open | not executed | ClientRealtime.OrphanedEventSourceAsWritten | ClientRealtime.AtMostOneLiveTransport |
| src/routes/auth/verify/+server.ts:34-38 | the catch block re-throws only a `Response`, but `redirect()` throws a plain object with `status` and `location` | any token held by an unverified user | the redirect to `/auth/login?verified=true` is re-thrown, as `isSvelteKitRedirect` would decide | not executed | VerifyRoute.AsWrittenSuccessIsReportedAs500 | VerifyRoute.VerifyEmail |
| src/routes/api/admin/stats/+server.ts:44-106 | the user queries at lines 45, 69, 73 and 106 name the column `createAt`, while every other user query uses `createdAt` | any request by an Admin | filter and order users on `createdAt` | not executed | AdminStatsRoute.AsWrittenStatsAlwaysFail | AdminStatsRoute.GetStats |

=== FILE: admin_projects.dfy ===
/** GET and DELETE /api/admin/projects (src/routes/api/admin/projects/+server.ts):
    the paginated, searchable list of every project, and the bulk deletion of
    projects with everything that belongs to them. The object-storage
    deletions are recorded as the list of object names the handler asks
    storage to remove; their failures are swallowed, so the outcome does not
    depend on them. */
module AdminProjectsRoute {
  import opened Wrappers
  import opened Js
  import opened Db
  import opened Http
  import Seqs
  import Text
  import Paging

  /** The creator's name, when the creator's row exists. */
  function CreatorName(db: Db, p: Project): Option<string> {
    match FindUserById(db.users, p.createdBy)
    case None => None
    case Some(u) => Some(u.name)
  }

  /** `search ? { OR: [name, description, user.name contains] } : {}`, each
      comparison ignoring case; a missing description matches nothing. */
  predicate MatchesSearch(db: Db, p: Project, search: string) {
    || search == ""
    || Text.ContainsIgnoringCase(p.name, search)
    || (p.description.Some? && Text.ContainsIgnoringCase(p.description.value, search))
    || (CreatorName(db, p).Some? && Text.ContainsIgnoringCase(CreatorName(db, p).value, search))
  }

  /** The projects the `where` filter selects, in table order. */
  function Matching(db: Db, search: string): (r: seq<Project>)
    ensures forall p :: p in r <==> p in db.projects && MatchesSearch(db, p, search)
    ensures search == "" ==> r == db.projects
  {
    var keep := (p: Project) => MatchesSearch(db, p, search);
    if search == "" then
      Seqs.FilterKeepsAll(db.projects, keep);
      Seqs.Filter(db.projects, keep)
    else Seqs.Filter(db.projects, keep)
  }

  function ProjectCreatedAt(p: Project): int {
    p.createdAt
  }

  /** The matching projects, newest first. */
  function Newest(db: Db, search: string): (r: seq<Project>)
    ensures multiset(r) == multiset(Matching(db, search))
    ensures Seqs.SortedDesc(r, ProjectCreatedAt)
    ensures forall i :: 0 <= i < |r| ==> r[i] in Matching(db, search)
  {
    var sorted := Seqs.SortDesc(Matching(db, search), ProjectCreatedAt);
    assert forall i :: 0 <= i < |sorted| ==> sorted[i] in multiset(Matching(db, search));
    sorted
  }

  /** The creator as listed (`user: { select: { id, name, email } }`). */
  datatype Owner = Owner(id: string, name: string, email: string)

  /** A listed project with its creator and relation counts. */
  datatype ProjectRow = ProjectRow(project: Project, owner: Option<Owner>, counts: Counts)

  function OwnerOf(db: Db, p: Project): Option<Owner> {
    match FindUserById(db.users, p.createdBy)
    case None => None
    case Some(u) => Some(Owner(u.id, u.name, u.email))
  }

  function RowOf(db: Db, p: Project): ProjectRow {
    ProjectRow(p, OwnerOf(db, p), CountsOf(db, p.id))
  }

  function Rows(db: Db, projects: seq<Project>): (r: seq<ProjectRow>)
    ensures |r| == |projects|
    ensures forall i :: 0 <= i < |r| ==> r[i] == RowOf(db, projects[i])
  {
    seq(|projects|, i requires 0 <= i < |projects| => RowOf(db, projects[i]))
  }

  /** `row` shows one of the projects of `pool`. */
  predicate RowOfSome(db: Db, row: ProjectRow, pool: seq<Project>) {
    exists p :: p in pool && row == RowOf(db, p)
  }

  /** The rows of a window of projects listed newest first are newest first,
      and each is the row of one of the listed projects. */
  lemma WindowRows(db: Db, newest: seq<Project>, pool: seq<Project>, pq: Paging.PageQuery)
    requires forall i :: 0 <= i < |newest| ==> newest[i] in pool
    requires Seqs.SortedDesc(newest, ProjectCreatedAt)
    ensures var rows := Rows(db, Paging.Window(newest, pq.skip, pq.limit));
            && (forall i, j :: 0 <= i < j < |rows| ==> rows[i].project.createdAt >= rows[j].project.createdAt)
            && (forall i :: 0 <= i < |rows| ==> RowOfSome(db, rows[i], pool))
  {
    var shown := Paging.Window(newest, pq.skip, pq.limit);
    Paging.WindowWithin(newest, pq.skip, pq.limit);
    Paging.WindowKeepsOrder(newest, ProjectCreatedAt, pq.skip, pq.limit);
    var rows := Rows(db, shown);
    forall i | 0 <= i < |rows|
      ensures RowOfSome(db, rows[i], pool)
    {
      assert shown[i] in pool && rows[i] == RowOf(db, shown[i]);
    }
    forall i, j | 0 <= i < j < |rows|
      ensures rows[i].project.createdAt >= rows[j].project.createdAt
    {
      assert ProjectCreatedAt(shown[i]) >= ProjectCreatedAt(shown[j]);
    }
  }

  datatype ProjectPage = ProjectPage(projects: seq<ProjectRow>, pagination: Paging.Pagination)

  /** One page of the listing: at most `limit` rows of matching projects,
      newest first, starting after `skip` of them, and the pagination of the
      matching projects' count. */
  function Listing(db: Db, search: string, pq: Paging.PageQuery): (p: ProjectPage)
    ensures var matching := Matching(db, search);
            && p.pagination == Paging.Paginate(pq.page, pq.limit, |matching|)
            && |p.projects| == (if pq.skip >= |matching| then 0
                                else if |matching| - pq.skip < pq.limit then |matching| - pq.skip else pq.limit)
            && (forall i, j :: 0 <= i < j < |p.projects| ==> p.projects[i].project.createdAt >= p.projects[j].project.createdAt)
            && (forall i :: 0 <= i < |p.projects| ==> RowOfSome(db, p.projects[i], matching))
    ensures p.projects == Rows(db, Paging.Window(Newest(db, search), pq.skip, pq.limit))
  {
    WindowRows(db, Newest(db, search), Matching(db, search), pq);
    ProjectPage(Rows(db, Paging.Window(Newest(db, search), pq.skip, pq.limit)),
                Paging.Paginate(pq.page, pq.limit, |Matching(db, search)|))
  }

  /** `GET(locals, url)`. Anyone but an Admin: 401. A page or limit the
      query cannot use: 500. Otherwise the page the query asks for. */
  function ListProjects(db: Db, actor: Option<User>, q: Paging.Query): (r: Reply<ProjectPage>)
    ensures !IsAdmin(actor) ==> r == Error(401, "Unauthorized")
    ensures IsAdmin(actor) ==> (r.Success? <==> Paging.PageQueryOf(q).Some?)
    ensures IsAdmin(actor) && !r.Success? ==> r == Error(500, "Failed to fetch projects")
    ensures r.Success? ==> r.status == 200 && r.payload == Listing(db, q.search, Paging.PageQueryOf(q).value)
  {
    if !IsAdmin(actor) then Error(401, "Unauthorized")
    else match Paging.PageQueryOf(q)
      case None => Error(500, "Failed to fetch projects")
      case Some(pq) => Success(200, Listing(db, q.search, pq))
  }

  /** Paging through the list reaches every matching project: with any
      positive limit, some page shows the project's row. */
  lemma EveryMatchingProjectIsListed(db: Db, actor: Option<User>, search: string, limit: nat, p: Project)
    requires IsAdmin(actor) && limit > 0
    requires p in Matching(db, search)
    ensures exists page: nat ::
              page >= 1 &&
              var r := ListProjects(db, actor, Paging.PageLink(page, limit, search));
              r.Success? && RowOf(db, p) in r.payload.projects
  {
    var newest := Newest(db, search);
    assert p in multiset(newest);
    var k :| 0 <= k < |newest| && newest[k] == p;
    var page := ListedOnItsPage(db, actor, search, limit, k);
  }

  /** The `k`-th newest matching project is listed on the page whose window
      holds position `k`, page `k / limit + 1`. */
  lemma ListedOnItsPage(db: Db, actor: Option<User>, search: string, limit: nat, k: nat) returns (page: nat)
    requires IsAdmin(actor) && limit > 0
    requires k < |Newest(db, search)|
    ensures page >= 1
    ensures Paging.SkipFor(page, limit) <= k < Paging.SkipFor(page, limit) + limit
    ensures var r := ListProjects(db, actor, Paging.PageLink(page, limit, search));
            r.Success? && RowOf(db, Newest(db, search)[k]) in r.payload.projects
  {
    var newest := Newest(db, search);
    page := Paging.RowOnItsPage(newest, limit, k);
    PageShows(db, actor, page, limit, search);
    var skip := Paging.SkipFor(page, limit);
    var rows := Rows(db, Paging.Window(newest, skip, limit));
    assert ListProjects(db, actor, Paging.PageLink(page, limit, search)).payload.projects == rows;
    RowAt(db, Paging.Window(newest, skip, limit), k - skip);
  }

  lemma RowAt(db: Db, projects: seq<Project>, i: nat)
    requires i < |projects|
    ensures RowOf(db, projects[i]) in Rows(db, projects)
  {
    assert Rows(db, projects)[i] == RowOf(db, projects[i]);
  }

  /** Asking for a page from the first on, with any limit, shows the rows of
      the window of newest matching projects that starts after the earlier
      pages. */
  lemma PageShows(db: Db, actor: Option<User>, page: nat, limit: nat, search: string)
    requires IsAdmin(actor) && page >= 1
    ensures var pq := Paging.PageQueryOf(Paging.PageLink(page, limit, search));
            var r := ListProjects(db, actor, Paging.PageLink(page, limit, search));
            && pq.Some? && pq.value.skip == Paging.SkipFor(page, limit)
            && r.Success? && r.payload.projects == Rows(db, Paging.Window(Newest(db, search), pq.value.skip, limit))
  {
    Paging.QueryOfPage(page, limit, search);
  }

  /** The `projectIds` of a deletion request, or the status it fails with:
      500 when the body is not JSON or is null (destructuring throws), 400
      when `projectIds` is not a non-empty array, and 500 when an element is
      not a string (the database rejects the id list). */
  function ReadProjectIds(body: Option<JsValue>): (r: Result<seq<string>, nat>)
    ensures r.Err? ==> r.error == 400 || r.error == 500
    ensures r.Err? && r.error == 400 <==>
              body.Some? && !IsNullish(body.value) &&
              var v := Get(body.value, "projectIds");
              !v.Array? || |v.items| == 0
    ensures r.Ok? ==>
              body.Some? && !IsNullish(body.value) &&
              var v := Get(body.value, "projectIds");
              && v.Array? && |v.items| == |r.value| > 0
              && forall i :: 0 <= i < |r.value| ==> v.items[i] == Str(r.value[i])
  {
    if body.None? || IsNullish(body.value) then Err(500)
    else
      var v := Get(body.value, "projectIds");
      if !v.Array? || |v.items| == 0 then Err(400)
      else if exists i :: 0 <= i < |v.items| && !v.items[i].Str? then Err(500)
      else Ok(seq(|v.items|, i requires 0 <= i < |v.items| && v.items[i].Str? => v.items[i].s))
  }

  /** The files attached to the given projects (`include: { files: true }`),
      project by project. */
  function AttachedFiles(db: Db, projects: seq<Project>): (r: seq<StoredFile>)
    ensures forall f :: f in r <==> f in db.files && exists j :: 0 <= j < |projects| && f.projectId == Some(projects[j].id)
  {
    if |projects| == 0 then []
    else
      var rest := AttachedFiles(db, projects[1..]);
      assert forall j :: 1 <= j < |projects| ==> projects[j] == projects[1..][j - 1];
      Seqs.Filter(db.files, (f: StoredFile) => f.projectId == Some(projects[0].id)) + rest
  }

  function Paths(files: seq<StoredFile>): (r: seq<string>)
    ensures |r| == |files|
    ensures forall i :: 0 <= i < |r| ==> r[i] == files[i].path
  {
    seq(|files|, i requires 0 <= i < |files| => files[i].path)
  }

  /** The object names the handler asks storage to delete: the path of every
      file of every existing project among `ids`. */
  function StorageDeletions(db: Db, ids: seq<string>): (r: seq<string>)
    ensures forall path :: path in r <==>
              exists f :: f in db.files && f.path == path && f.projectId.Some? && f.projectId.value in ids &&
                          exists p :: p in db.projects && p.id == f.projectId.value
  {
    var doomed := Seqs.Filter(db.projects, (p: Project) => p.id in ids);
    DeletedPathsAreOfDoomed(db, ids, doomed);
    DoomedPathsAreDeleted(db, ids, doomed);
    Paths(AttachedFiles(db, doomed))
  }

  /** Every path deleted is that of a file of an existing project among `ids`. */
  lemma DeletedPathsAreOfDoomed(db: Db, ids: seq<string>, doomed: seq<Project>)
    requires forall p :: p in doomed <==> p in db.projects && p.id in ids
    ensures forall path :: path in Paths(AttachedFiles(db, doomed)) ==>
              exists f :: f in db.files && f.path == path && f.projectId.Some? && f.projectId.value in ids &&
                          exists p :: p in db.projects && p.id == f.projectId.value
  {
    var files := AttachedFiles(db, doomed);
    var r := Paths(files);
    forall path | path in r
      ensures exists f :: f in db.files && f.path == path && f.projectId.Some? && f.projectId.value in ids &&
                          exists p :: p in db.projects && p.id == f.projectId.value
    {
      var i :| 0 <= i < |r| && r[i] == path;
      var j :| 0 <= j < |doomed| && files[i].projectId == Some(doomed[j].id);
      assert doomed[j] in doomed;
    }
  }

  /** Every file of an existing project among `ids` has its path deleted. */
  lemma DoomedPathsAreDeleted(db: Db, ids: seq<string>, doomed: seq<Project>)
    requires forall p :: p in doomed <==> p in db.projects && p.id in ids
    ensures forall f :: f in db.files && f.projectId.Some? && f.projectId.value in ids &&
                        (exists p :: p in db.projects && p.id == f.projectId.value) ==>
              f.path in Paths(AttachedFiles(db, doomed))
  {
    var files := AttachedFiles(db, doomed);
    var r := Paths(files);
    forall f | f in db.files && f.projectId.Some? && f.projectId.value in ids && exists p :: p in db.projects && p.id == f.projectId.value
      ensures f.path in r
    {
      var p :| p in db.projects && p.id == f.projectId.value;
      assert p in doomed;
      var j :| 0 <= j < |doomed| && doomed[j] == p;
      assert f in files;
      var i :| 0 <= i < |files| && files[i] == f;
      assert r[i] == f.path;
    }
  }

  /** The transaction: the projects' members, files, messages and tasks,
      then the projects themselves, are removed; every other row stays, in
      order. */
  function Cascade(db: Db, ids: seq<string>): (r: Db)
    ensures r.users == db.users
    ensures forall p :: p in r.projects <==> p in db.projects && p.id !in ids
    ensures forall t :: t in r.tasks <==> t in db.tasks && t.projectId !in ids
    ensures forall f :: f in r.files <==> f in db.files && !(f.projectId.Some? && f.projectId.value in ids)
    ensures forall m :: m in r.members <==> m in db.members && m.projectId !in ids
    ensures forall m :: m in r.messages <==> m in db.messages && m.projectId !in ids
  {
    Db(db.users,
       Seqs.Filter(db.projects, (p: Project) => p.id !in ids),
       Seqs.Filter(db.tasks, (t: Task) => t.projectId !in ids),
       Seqs.Filter(db.files, (f: StoredFile) => !(f.projectId.Some? && f.projectId.value in ids)),
       Seqs.Filter(db.members, (m: Member) => m.projectId !in ids),
       Seqs.Filter(db.messages, (m: Message) => m.projectId !in ids))
  }

  const DeletedSuffix: string := " project(s) deleted successfully"

  datatype DeleteOutcome = DeleteOutcome(reply: Reply<string>, db: Db, storageDeletions: seq<string>)

  /** `DELETE(request, locals)`. Anyone but an Admin: 401. The request's
      failures: 400 'Project IDs are required' or 500 'Failed to delete
      projects', with nothing removed anywhere. Otherwise the attached
      objects are removed from storage, the cascade runs, and the message
      counts the ids the request named (duplicates and unknown ids
      included). */
  function DeleteProjects(db: Db, actor: Option<User>, body: Option<JsValue>): (r: DeleteOutcome)
    ensures !r.reply.Success? ==> r.db == db && r.storageDeletions == []
    ensures r.reply.Status() == 401 <==> !IsAdmin(actor)
    ensures r.reply.Status() == 401 ==> r.reply == Error(401, "Unauthorized")
    ensures IsAdmin(actor) && ReadProjectIds(body).Err? ==>
              r.reply == if ReadProjectIds(body).error == 400 then Error(400, "Project IDs are required")
                         else Error(500, "Failed to delete projects")
    ensures r.reply.Success? <==> IsAdmin(actor) && ReadProjectIds(body).Ok?
    ensures r.reply.Success? ==>
              var ids := ReadProjectIds(body).value;
              && r.reply == Success(200, Text.NatToString(|ids|) + DeletedSuffix)
              && r.db == Cascade(db, ids)
              && r.storageDeletions == StorageDeletions(db, ids)
  {
    if !IsAdmin(actor) then DeleteOutcome(Error(401, "Unauthorized"), db, [])
    else match ReadProjectIds(body)
      case Err(status) =>
        if status == 400 then DeleteOutcome(Error(400, "Project IDs are required"), db, [])
        else DeleteOutcome(Error(500, "Failed to delete projects"), db, [])
      case Ok(ids) =>
        DeleteOutcome(Success(200, Text.NatToString(|ids|) + DeletedSuffix), Cascade(db, ids), StorageDeletions(db, ids))
  }

  /** Repeating a deletion succeeds with the same message but removes nothing
      more, from the database or from storage. */
  lemma {:induction false} DeleteIsIdempotent(db: Db, actor: Option<User>, body: JsValue)
    requires DeleteProjects(db, actor, Some(body)).reply.Success?
    ensures var first := DeleteProjects(db, actor, Some(body));
            var second := DeleteProjects(first.db, actor, Some(body));
            && second.reply == first.reply
            && second.db == first.db
            && second.storageDeletions == []
  {
    var ids := ReadProjectIds(Some(body)).value;
    var once := Cascade(db, ids);
    Seqs.FilterKeepsAll(once.projects, (p: Project) => p.id !in ids);
    Seqs.FilterKeepsAll(once.tasks, (t: Task) => t.projectId !in ids);
    Seqs.FilterKeepsAll(once.files, (f: StoredFile) => !(f.projectId.Some? && f.projectId.value in ids));
    Seqs.FilterKeepsAll(once.members, (m: Member) => m.projectId !in ids);
    Seqs.FilterKeepsAll(once.messages, (m: Message) => m.projectId !in ids);
    var again := StorageDeletions(once, ids);
    assert forall path :: path !in again;
    Seqs.HeadIsMember(again);
  }

  /** After a deletion, no listing shows a deleted project. */
  lemma DeletedProjectsAreNotListed(db: Db, actor: Option<User>, body: JsValue, q: Paging.Query)
    requires DeleteProjects(db, actor, Some(body)).reply.Success?
    ensures var after := DeleteProjects(db, actor, Some(body)).db;
            var listed := ListProjects(after, actor, q);
            listed.Success? ==>
              forall i :: 0 <= i < |listed.payload.projects| ==>
                listed.payload.projects[i].project.id !in ReadProjectIds(Some(body)).value
  {
    var ids := ReadProjectIds(Some(body)).value;
    var after := Cascade(db, ids);
    var listed := ListProjects(after, actor, q);
    if listed.Success? {
      forall i | 0 <= i < |listed.payload.projects|
        ensures listed.payload.projects[i].project.id !in ids
      {
        var p :| p in Matching(after, q.search) && listed.payload.projects[i] == RowOf(after, p);
      }
    }
  }
}

=== FILE: admin_stats.dfy ===
/** GET /api/admin/stats (src/routes/api/admin/stats/+server.ts): the
    application's totals, its recent growth, the distribution of users by
    role and of tasks by status, and a feed of the ten newest creations.
    The start of the month and of the week are parameters (calendar
    arithmetic is not modelled). */
module AdminStatsRoute {
  import opened Wrappers
  import opened Db
  import opened Http
  import Seqs

  // ----- distributions ----------------------------------------------------

  /** A `groupBy` result row: a key and how many rows carry it. */
  datatype Group = Group(key: string, count: nat)

  /** How many of `keys` equal `k`. */
  function Occurrences(keys: seq<string>, k: string): nat {
    Seqs.Count(keys, (x: string) => x == k)
  }

  /** The distinct keys, each once, in order of first occurrence. */
  function Distinct(keys: seq<string>): (r: seq<string>)
    ensures forall k :: k in r <==> k in keys
    ensures forall i, j :: 0 <= i < j < |r| ==> r[i] != r[j]
  {
    if |keys| == 0 then []
    else
      var rest := Distinct(keys[1..]);
      assert keys == [keys[0]] + keys[1..];
      if keys[0] in rest then rest else [keys[0]] + rest
  }

  /** The keys of a list of rows, in order. */
  function Keys(rows: seq<Group>): (r: seq<string>)
    ensures |r| == |rows|
    ensures forall i :: 0 <= i < |r| ==> r[i] == rows[i].key
  {
    seq(|rows|, i requires 0 <= i < |rows| => rows[i].key)
  }

  /** `groupBy({ by: [key], _count: { key: true } })`: one row per distinct
      key with its number of occurrences. */
  function GroupBy(keys: seq<string>): (r: seq<Group>)
    ensures forall i, j :: 0 <= i < j < |r| ==> r[i].key != r[j].key
    ensures forall k :: k in Keys(r) <==> k in keys
    ensures forall i :: 0 <= i < |r| ==> r[i].count == Occurrences(keys, r[i].key)
  {
    var ks := Distinct(keys);
    var r := seq(|ks|, i requires 0 <= i < |ks| => Group(ks[i], Occurrences(keys, ks[i])));
    assert Keys(r) == ks;
    r
  }

  /** `rows.reduce((acc, item) => { acc[item.key] = item.count; ... }, {})`. */
  function Fold(rows: seq<Group>): (r: map<string, nat>)
    ensures forall k :: k in r <==> k in Keys(rows)
    ensures |rows| > 0 ==> r[rows[|rows| - 1].key] == rows[|rows| - 1].count
  {
    if |rows| == 0 then map[]
    else
      var init := rows[..|rows| - 1];
      var acc := Fold(init);
      assert Keys(rows) == Keys(init) + [rows[|rows| - 1].key];
      acc[rows[|rows| - 1].key := rows[|rows| - 1].count]
  }

  /** Folding rows with distinct keys maps each row's key to its count. */
  lemma {:induction false} FoldOfDistinctKeys(rows: seq<Group>)
    requires forall i, j :: 0 <= i < j < |rows| ==> rows[i].key != rows[j].key
    ensures forall i :: 0 <= i < |rows| ==> rows[i].key in Fold(rows) && Fold(rows)[rows[i].key] == rows[i].count
  {
    if |rows| > 0 {
      var init := rows[..|rows| - 1];
      assert forall i :: 0 <= i < |init| ==> init[i] == rows[i];
      FoldOfDistinctKeys(init);
      forall i | 0 <= i < |rows|
        ensures rows[i].key in Fold(rows) && Fold(rows)[rows[i].key] == rows[i].count
      {
        assert Keys(rows)[i] == rows[i].key;
        if i < |init| {
          assert rows[i].key != rows[|rows| - 1].key;
          assert Fold(init)[init[i].key] == init[i].count;
        }
      }
    }
  }

  /** A distribution: each key occurring in `keys` mapped to its number of
      occurrences. */
  function Distribution(keys: seq<string>): map<string, nat> {
    Fold(GroupBy(keys))
  }

  /** The distribution holds exactly the keys that occur, each with its
      number of occurrences. */
  lemma DistributionCounts(keys: seq<string>)
    ensures forall k :: k in Distribution(keys) <==> k in keys
    ensures forall k :: k in Distribution(keys) ==> Distribution(keys)[k] == Occurrences(keys, k)
  {
    var rows := GroupBy(keys);
    FoldOfDistinctKeys(rows);
    forall k | k in Distribution(keys)
      ensures Distribution(keys)[k] == Occurrences(keys, k)
    {
      var i :| 0 <= i < |rows| && Keys(rows)[i] == k;
    }
  }

  function RoleKeys(users: seq<User>): (r: seq<string>)
    ensures |r| == |users|
    ensures forall i :: 0 <= i < |r| ==> r[i] == RoleName(users[i].role)
  {
    seq(|users|, i requires 0 <= i < |users| => RoleName(users[i].role))
  }

  function StatusKeys(tasks: seq<Task>): (r: seq<string>)
    ensures |r| == |tasks|
    ensures forall i :: 0 <= i < |r| ==> r[i] == tasks[i].status
  {
    seq(|tasks|, i requires 0 <= i < |tasks| => tasks[i].status)
  }

  // ----- growth -----------------------------------------------------------

  /** `total > 0 ? Math.round((part / total) * 100) : 0`, on exact
      rationals: the percentage nearest to `part / total`, halves rounded
      up. */
  function GrowthRate(part: nat, total: nat): (r: int)
    ensures total == 0 ==> r == 0
    ensures total > 0 ==> 2 * total * r <= 200 * part + total < 2 * total * (r + 1)
  {
    if total == 0 then 0 else (200 * part + total) / (2 * total)
  }

  lemma MulNotNegative(a: int, b: int)
    requires a >= 0 && b >= 0
    ensures a * b >= 0
  {
  }

  /** A part of a total grows it by between 0 and 100 percent. */
  lemma GrowthRateIsPercentage(part: nat, total: nat)
    requires part <= total
    ensures 0 <= GrowthRate(part, total) <= 100
  {
    if total > 0 {
      var r := GrowthRate(part, total);
      var d := 2 * total;
      assert d * r <= 200 * part + total < d * (r + 1);
      assert d * r < d * 101;
      LessAfterScaling(d, r, 101);
      assert 0 < d * (r + 1);
      LessAfterScaling(d, -1, r + 1);
    }
  }

  /** Scaling by a positive factor keeps the order. */
  lemma LessAfterScaling(d: int, a: int, b: int)
    requires d > 0 && d * a < d * b
    ensures a < b
  {
    ScalingKeepsOrder(d, b, a);
  }

  lemma ScalingKeepsOrder(d: int, a: int, b: int)
    requires d >= 0
    ensures a <= b ==> d * a <= d * b
  {
    if a <= b {
      MulNotNegative(d, b - a);
    }
  }

  // ----- activity feed ----------------------------------------------------

  datatype ActivityKind = UserCreated | ProjectCreated | TaskCreated

  /** The `type` tag of a feed entry. */
  function KindName(k: ActivityKind): string {
    match k
    case UserCreated => "user_created"
    case ProjectCreated => "project_created"
    case TaskCreated => "task_created"
  }

  datatype Activity = Activity(kind: ActivityKind, description: string, timestamp: int, id: string)

  function Timestamp(a: Activity): int {
    a.timestamp
  }

  function UserCreatedAt(u: User): int {
    u.createdAt
  }

  function ProjectCreatedAt(p: Project): int {
    p.createdAt
  }

  function TaskCreatedAt(t: Task): int {
    t.createdAt
  }

  /** `r` holds rows of `rows`, each at most as often as there, and none of
      the rows left out is keyed above one kept. */
  ghost predicate KeepsTheNewest<T>(r: seq<T>, rows: seq<T>, key: T -> int) {
    && multiset(r) <= multiset(rows)
    && (forall x, i :: x in rows && x !in r && 0 <= i < |r| ==> key(x) <= key(r[i]))
  }

  /** The five newest rows of a table (`take: 5, orderBy: createdAt desc`):
      five of its rows, or all of them, each taken once, newest first, and
      none of the rows left out newer than one taken. */
  function Recent<T>(rows: seq<T>, key: T -> int): (r: seq<T>)
    ensures |r| == if |rows| < 5 then |rows| else 5
    ensures Seqs.SortedDesc(r, key)
    ensures forall i :: 0 <= i < |r| ==> r[i] in rows
    ensures KeepsTheNewest(r, rows, key)
  {
    TopFive(rows, key);
    Seqs.Take(Seqs.SortDesc(rows, key), 5)
  }

  lemma TopFive<T>(rows: seq<T>, key: T -> int)
    ensures var r := Seqs.Take(Seqs.SortDesc(rows, key), 5);
            && Seqs.SortedDesc(r, key)
            && (forall i :: 0 <= i < |r| ==> r[i] in rows)
            && KeepsTheNewest(r, rows, key)
  {
    var sorted := Seqs.SortDesc(rows, key);
    var r := Seqs.Take(sorted, 5);
    Seqs.PrefixSorted(sorted, |r|, key);
    PrefixMultiset(sorted, |r|);
    Seqs.TopKeepsTheHighest(rows, key, 5);
    forall i | 0 <= i < |r|
      ensures r[i] in rows
    {
      assert r[i] in multiset(rows);
    }
  }

  function UserActivity(u: User): (a: Activity)
    ensures a.kind == UserCreated && a.timestamp == u.createdAt && a.id == u.id
    ensures a.description == "New user \"" + u.name + "\" registered"
  {
    Activity(UserCreated, "New user \"" + u.name + "\" registered", u.createdAt, u.id)
  }

  function ProjectActivity(p: Project, creator: User): (a: Activity)
    ensures a.kind == ProjectCreated && a.timestamp == p.createdAt && a.id == p.id
    ensures a.description == "Project \"" + p.name + "\" created by " + creator.name
  {
    Activity(ProjectCreated, "Project \"" + p.name + "\" created by " + creator.name, p.createdAt, p.id)
  }

  function TaskActivity(t: Task, project: Project): (a: Activity)
    ensures a.kind == TaskCreated && a.timestamp == t.createdAt && a.id == t.id
    ensures a.description == "Task \"" + t.title + "\" created in project \"" + project.name + "\""
  {
    Activity(TaskCreated, "Task \"" + t.title + "\" created in project \"" + project.name + "\"", t.createdAt, t.id)
  }

  /** A project row of the recent list carries its creator; Prisma fails
      the query when the required relation is missing. */
  predicate HasCreator(db: Db, p: Project) {
    FindUserById(db.users, p.createdBy).Some?
  }

  /** A task row of the recent list carries its creator and its project. */
  predicate HasRelations(db: Db, t: Task) {
    FindUserById(db.users, t.userId).Some? && FindProjectById(db.projects, t.projectId).Some?
  }

  function UserActivities(users: seq<User>): (r: seq<Activity>)
    ensures |r| == |users|
    ensures forall i :: 0 <= i < |r| ==> r[i] == UserActivity(users[i])
  {
    seq(|users|, i requires 0 <= i < |users| => UserActivity(users[i]))
  }

  /** The entries of the recent projects, or `None` when one of them lacks
      its creator. */
  function ProjectActivities(db: Db, projects: seq<Project>): (r: Option<seq<Activity>>)
    ensures r.Some? <==> forall i :: 0 <= i < |projects| ==> HasCreator(db, projects[i])
    ensures r.Some? ==> |r.value| == |projects|
    ensures r.Some? ==> forall i :: 0 <= i < |projects| ==>
              r.value[i] == ProjectActivity(projects[i], FindUserById(db.users, projects[i].createdBy).value)
  {
    if forall i :: 0 <= i < |projects| ==> HasCreator(db, projects[i]) then
      Some(seq(|projects|, i requires 0 <= i < |projects| && HasCreator(db, projects[i]) =>
        ProjectActivity(projects[i], FindUserById(db.users, projects[i].createdBy).value)))
    else None
  }

  /** The entries of the recent tasks, or `None` when one of them lacks its
      creator or its project. */
  function TaskActivities(db: Db, tasks: seq<Task>): (r: Option<seq<Activity>>)
    ensures r.Some? <==> forall i :: 0 <= i < |tasks| ==> HasRelations(db, tasks[i])
    ensures r.Some? ==> |r.value| == |tasks|
    ensures r.Some? ==> forall i :: 0 <= i < |tasks| ==>
              r.value[i] == TaskActivity(tasks[i], FindProjectById(db.projects, tasks[i].projectId).value)
  {
    if forall i :: 0 <= i < |tasks| ==> HasRelations(db, tasks[i]) then
      Some(seq(|tasks|, i requires 0 <= i < |tasks| && HasRelations(db, tasks[i]) =>
        TaskActivity(tasks[i], FindProjectById(db.projects, tasks[i].projectId).value)))
    else None
  }

  lemma PrefixMultiset<T>(s: seq<T>, k: nat)
    requires k <= |s|
    ensures multiset(s[..k]) <= multiset(s)
  {
    assert s == s[..k] + s[k..];
  }

  /** `[...users, ...projects, ...tasks].sort(newest first).slice(0, 10)`:
      ten entries or all of them, newest first, each one of the inputs. */
  function Feed(users: seq<Activity>, projects: seq<Activity>, tasks: seq<Activity>): (r: seq<Activity>)
    ensures var all := users + projects + tasks;
            && |r| == (if |all| < 10 then |all| else 10)
            && Seqs.SortedDesc(r, Timestamp)
            && multiset(r) <= multiset(all)
  {
    var all := users + projects + tasks;
    var sorted := Seqs.SortDesc(all, Timestamp);
    var r := Seqs.Take(sorted, 10);
    PrefixMultiset(sorted, |r|);
    Seqs.PrefixSorted(sorted, |r|, Timestamp);
    r
  }

  /** Whatever the feed leaves out is no newer than anything it shows. */
  lemma {:induction false} FeedKeepsTheNewest(users: seq<Activity>, projects: seq<Activity>, tasks: seq<Activity>, a: Activity)
    requires a in users + projects + tasks
    requires a !in Feed(users, projects, tasks)
    ensures forall i :: 0 <= i < |Feed(users, projects, tasks)| ==> Feed(users, projects, tasks)[i].timestamp >= a.timestamp
  {
    var all := users + projects + tasks;
    var feed := Feed(users, projects, tasks);
    assert feed == Seqs.Take(Seqs.SortDesc(all, Timestamp), 10);
    Seqs.TopKeepsTheHighest(all, Timestamp, 10);
    forall i | 0 <= i < |feed|
      ensures feed[i].timestamp >= a.timestamp
    {
      assert Timestamp(a) <= Timestamp(feed[i]);
    }
  }

  function AtMost(n: nat, cap: nat): nat {
    if n < cap then n else cap
  }

  /** Every feed entry is one of the entries merged. */
  lemma FeedEntryIsAnInput(users: seq<Activity>, projects: seq<Activity>, tasks: seq<Activity>, i: nat)
    requires i < |Feed(users, projects, tasks)|
    ensures Feed(users, projects, tasks)[i] in users || Feed(users, projects, tasks)[i] in projects || Feed(users, projects, tasks)[i] in tasks
  {
    var feed := Feed(users, projects, tasks);
    assert feed[i] in multiset(feed);
    assert feed[i] in multiset(users + projects + tasks);
  }

  lemma RecentLength<T>(rows: seq<T>, key: T -> int)
    ensures |Recent(rows, key)| == AtMost(|rows|, 5)
  {
  }

  lemma FeedLength(users: seq<Activity>, projects: seq<Activity>, tasks: seq<Activity>)
    ensures |Feed(users, projects, tasks)| == AtMost(|users| + |projects| + |tasks|, 10)
  {
  }

  /** The feed of the five newest users, projects and tasks, or `None` when
      a recent project or task lacks a related row. */
  function ActivityFeed(db: Db): (r: Option<seq<Activity>>)
    ensures r.Some? <==>
              && (forall i :: 0 <= i < |Recent(db.projects, ProjectCreatedAt)| ==> HasCreator(db, Recent(db.projects, ProjectCreatedAt)[i]))
              && (forall i :: 0 <= i < |Recent(db.tasks, TaskCreatedAt)| ==> HasRelations(db, Recent(db.tasks, TaskCreatedAt)[i]))
    ensures r.Some? ==> |r.value| == AtMost(AtMost(|db.users|, 5) + AtMost(|db.projects|, 5) + AtMost(|db.tasks|, 5), 10)
    ensures r.Some? ==> Seqs.SortedDesc(r.value, Timestamp)
  {
    var projects := ProjectActivities(db, Recent(db.projects, ProjectCreatedAt));
    var tasks := TaskActivities(db, Recent(db.tasks, TaskCreatedAt));
    if projects.None? || tasks.None? then None
    else
      var users := UserActivities(Recent(db.users, UserCreatedAt));
      RecentLength(db.users, UserCreatedAt);
      RecentLength(db.projects, ProjectCreatedAt);
      RecentLength(db.tasks, TaskCreatedAt);
      FeedLength(users, projects.value, tasks.value);
      Some(Feed(users, projects.value, tasks.value))
  }

  lemma UserEntry(db: Db, a: Activity)
    requires a in UserActivities(Recent(db.users, UserCreatedAt))
    ensures a.kind == UserCreated && exists u :: u in db.users && a == UserActivity(u)
  {
    var users := Recent(db.users, UserCreatedAt);
    var j :| 0 <= j < |users| && UserActivities(users)[j] == a;
    assert users[j] in db.users;
  }

  lemma ProjectEntry(db: Db, a: Activity)
    requires ProjectActivities(db, Recent(db.projects, ProjectCreatedAt)).Some?
    requires a in ProjectActivities(db, Recent(db.projects, ProjectCreatedAt)).value
    ensures exists p :: p in db.projects && HasCreator(db, p) && a == ProjectActivity(p, FindUserById(db.users, p.createdBy).value)
  {
    var projects := Recent(db.projects, ProjectCreatedAt);
    var pa := ProjectActivities(db, projects).value;
    var j :| 0 <= j < |pa| && pa[j] == a;
    assert projects[j] in db.projects;
  }

  lemma TaskEntry(db: Db, a: Activity)
    requires TaskActivities(db, Recent(db.tasks, TaskCreatedAt)).Some?
    requires a in TaskActivities(db, Recent(db.tasks, TaskCreatedAt)).value
    ensures exists t :: t in db.tasks && HasRelations(db, t) && a == TaskActivity(t, FindProjectById(db.projects, t.projectId).value)
  {
    var tasks := Recent(db.tasks, TaskCreatedAt);
    var ta := TaskActivities(db, tasks).value;
    var j :| 0 <= j < |ta| && ta[j] == a;
    assert tasks[j] in db.tasks;
  }

  /** Every feed entry is the entry of a user, project or task of the
      database, with the kind, description, timestamp and id built from that
      row (and, for a project, its creator; for a task, its project). */
  lemma FeedEntriesAreTagged(db: Db, i: nat)
    requires ActivityFeed(db).Some? && i < |ActivityFeed(db).value|
    ensures var a := ActivityFeed(db).value[i];
            || (a.kind == UserCreated && exists u :: u in db.users && a == UserActivity(u))
            || (exists p :: p in db.projects && HasCreator(db, p) && a == ProjectActivity(p, FindUserById(db.users, p.createdBy).value))
            || (exists t :: t in db.tasks && HasRelations(db, t) && a == TaskActivity(t, FindProjectById(db.projects, t.projectId).value))
  {
    var ua := UserActivities(Recent(db.users, UserCreatedAt));
    var pa := ProjectActivities(db, Recent(db.projects, ProjectCreatedAt)).value;
    var ta := TaskActivities(db, Recent(db.tasks, TaskCreatedAt)).value;
    assert ActivityFeed(db).value == Feed(ua, pa, ta);
    var a := ActivityFeed(db).value[i];
    FeedEntryIsAnInput(ua, pa, ta, i);
    if a in ua {
      UserEntry(db, a);
    } else if a in pa {
      ProjectEntry(db, a);
    } else {
      TaskEntry(db, a);
    }
  }

  // ----- the handler ------------------------------------------------------

  datatype Overview = Overview(
    totalUsers: nat, totalAdmins: nat, totalProjects: nat,
    totalTasks: nat, totalFiles: nat, totalMessages: nat)

  datatype Growth = Growth(
    newUsersThisMonth: nat, newProjectsThisMonth: nat, newTasksThisWeek: nat,
    userGrowthRate: int, projectGrowthRate: int)

  datatype Distributions = Distributions(usersByRole: map<string, nat>, tasksByStatus: map<string, nat>)

  datatype Stats = Stats(overview: Overview, growth: Growth, distribution: Distributions, recentActivity: seq<Activity>)

  /** The counts, growth and distributions of the database, with the given
      feed. */
  function Summary(db: Db, startOfMonth: int, startOfWeek: int, feed: seq<Activity>): (s: Stats)
    ensures s.overview.totalUsers == |db.users| && s.overview.totalProjects == |db.projects|
    ensures s.overview.totalTasks == |db.tasks| && s.overview.totalFiles == |db.files| && s.overview.totalMessages == |db.messages|
    ensures s.overview.totalAdmins == Seqs.Count(db.users, (u: User) => u.role == AdminRole)
    ensures s.overview.totalAdmins <= s.overview.totalUsers
    ensures s.growth.newUsersThisMonth == Seqs.Count(db.users, (u: User) => u.createdAt >= startOfMonth)
    ensures s.growth.newProjectsThisMonth == Seqs.Count(db.projects, (p: Project) => p.createdAt >= startOfMonth)
    ensures s.growth.newTasksThisWeek == Seqs.Count(db.tasks, (t: Task) => t.createdAt >= startOfWeek)
    ensures s.growth.userGrowthRate == GrowthRate(s.growth.newUsersThisMonth, |db.users|)
    ensures s.growth.projectGrowthRate == GrowthRate(s.growth.newProjectsThisMonth, |db.projects|)
    ensures 0 <= s.growth.userGrowthRate <= 100 && 0 <= s.growth.projectGrowthRate <= 100
    ensures forall k :: k in s.distribution.usersByRole <==> k in RoleKeys(db.users)
    ensures forall k :: k in s.distribution.usersByRole ==> s.distribution.usersByRole[k] == Occurrences(RoleKeys(db.users), k)
    ensures forall k :: k in s.distribution.tasksByStatus <==> k in StatusKeys(db.tasks)
    ensures forall k :: k in s.distribution.tasksByStatus ==> s.distribution.tasksByStatus[k] == Occurrences(StatusKeys(db.tasks), k)
    ensures s.recentActivity == feed
  {
    var newUsers := Seqs.Count(db.users, (u: User) => u.createdAt >= startOfMonth);
    var newProjects := Seqs.Count(db.projects, (p: Project) => p.createdAt >= startOfMonth);
    GrowthRateIsPercentage(newUsers, |db.users|);
    GrowthRateIsPercentage(newProjects, |db.projects|);
    DistributionCounts(RoleKeys(db.users));
    DistributionCounts(StatusKeys(db.tasks));
    Stats(
      Overview(|db.users|, Seqs.Count(db.users, (u: User) => u.role == AdminRole), |db.projects|,
               |db.tasks|, |db.files|, |db.messages|),
      Growth(newUsers, newProjects, Seqs.Count(db.tasks, (t: Task) => t.createdAt >= startOfWeek),
             GrowthRate(newUsers, |db.users|), GrowthRate(newProjects, |db.projects|)),
      Distributions(Distribution(RoleKeys(db.users)), Distribution(StatusKeys(db.tasks))),
      feed)
  }

  /** The columns of the user table. */
  const UserColumns: set<string> :=
    {"id", "name", "email", "password", "contactNumber", "role", "emailVerified",
     "verificationToken", "avatar", "profilePictureUrl", "createdAt"}

  /** The statistics, the handler naming `userDateColumn` as the users'
      creation-time column in its month count, its ordering and its select.
      Prisma rejects a query on a column the table lacks, and the whole
      aggregation then fails. */
  function StatsNaming(db: Db, actor: Option<User>, startOfMonth: int, startOfWeek: int, userDateColumn: string): (r: Reply<Stats>)
    ensures !IsAdmin(actor) ==> r == Error(401, "Unauthorized")
    ensures IsAdmin(actor) && !r.Success? ==> r == Error(500, "Failed to fetch statistics")
    ensures r.Success? <==> IsAdmin(actor) && userDateColumn in UserColumns && ActivityFeed(db).Some?
    ensures r.Success? ==> r.status == 200 && r.payload == Summary(db, startOfMonth, startOfWeek, ActivityFeed(db).value)
  {
    if !IsAdmin(actor) then Error(401, "Unauthorized")
    else if userDateColumn !in UserColumns then Error(500, "Failed to fetch statistics")
    else match ActivityFeed(db)
      case None => Error(500, "Failed to fetch statistics")
      case Some(feed) => Success(200, Summary(db, startOfMonth, startOfWeek, feed))
  }

  /** The handler as written: it names the users' creation time `createAt`. */
  const AsWrittenUserDateColumn: string := "createAt"

  function StatsAsWritten(db: Db, actor: Option<User>, startOfMonth: int, startOfWeek: int): (r: Reply<Stats>)
    ensures !IsAdmin(actor) ==> r == Error(401, "Unauthorized")
  {
    StatsNaming(db, actor, startOfMonth, startOfWeek, AsWrittenUserDateColumn)
  }

  /** As written, no administrator ever receives statistics. */
  lemma AsWrittenStatsAlwaysFail(db: Db, actor: Option<User>, startOfMonth: int, startOfWeek: int)
    requires IsAdmin(actor)
    ensures StatsAsWritten(db, actor, startOfMonth, startOfWeek) == Error(500, "Failed to fetch statistics")
  {
    assert AsWrittenUserDateColumn !in UserColumns;
  }

  /** `GET(locals)` with the users' creation time named `createdAt`, as in
      every other query of the user table. Anyone but an Admin: 401. A
      recent project or task whose related rows are missing: 500. Otherwise
      the statistics. */
  function GetStats(db: Db, actor: Option<User>, startOfMonth: int, startOfWeek: int): (r: Reply<Stats>)
    ensures !IsAdmin(actor) ==> r == Error(401, "Unauthorized")
    ensures IsAdmin(actor) && !r.Success? ==> r == Error(500, "Failed to fetch statistics")
    ensures r.Success? <==> IsAdmin(actor) && ActivityFeed(db).Some?
    ensures r.Success? ==> r.status == 200 && r.payload == Summary(db, startOfMonth, startOfWeek, ActivityFeed(db).value)
  {
    assert "createdAt" in UserColumns;
    StatsNaming(db, actor, startOfMonth, startOfWeek, "createdAt")
  }
}

=== FILE: admin_users.dfy ===
/** GET and POST /api/admin/users (src/routes/api/admin/users/+server.ts):
    the paginated, searchable user list and user creation by an Admin. The
    storage host and bucket, `encodeURIComponent`, argon2 hashing, the new
    row's id, the clock and the `emailVerified` column default are
    parameters. */
module AdminUsersRoute {
  import opened Wrappers
  import opened Js
  import opened Db
  import opened Http
  import Seqs
  import Text
  import Schema
  import Paging

  /** The generated-avatar service a user without an uploaded avatar gets. */
  const AvatarService: string := "https://ui-avatars.com/api/?name="

  /** `search ? { OR: [name contains, email contains] } : {}`, both
      comparisons ignoring case. */
  predicate MatchesSearch(u: User, search: string) {
    search == "" || Text.ContainsIgnoringCase(u.name, search) || Text.ContainsIgnoringCase(u.email, search)
  }

  /** The users the `where` filter selects, in table order. */
  function Matching(users: seq<User>, search: string): (r: seq<User>)
    ensures forall u :: u in r <==> u in users && MatchesSearch(u, search)
    ensures search == "" ==> r == users
  {
    var keep := (u: User) => MatchesSearch(u, search);
    if search == "" then
      Seqs.FilterKeepsAll(users, keep);
      Seqs.Filter(users, keep)
    else Seqs.Filter(users, keep)
  }

  function UserCreatedAt(u: User): int {
    u.createdAt
  }

  /** The matching users, newest first (`orderBy: { createdAt: 'desc' }`). */
  function Newest(users: seq<User>, search: string): (r: seq<User>)
    ensures multiset(r) == multiset(Matching(users, search))
    ensures Seqs.SortedDesc(r, UserCreatedAt)
    ensures forall i :: 0 <= i < |r| ==> r[i] in Matching(users, search)
  {
    var sorted := Seqs.SortDesc(Matching(users, search), UserCreatedAt);
    assert forall i :: 0 <= i < |sorted| ==> sorted[i] in multiset(Matching(users, search));
    sorted
  }

  /** A user as listed: the selected columns, with `avatar` replaced by a
      URL. */
  datatype UserRow = UserRow(id: string, name: string, email: string, contactNumber: string, role: Role, createdAt: int, avatar: string)

  /** The displayed avatar: the public URL of the uploaded object, whose name
      ends the URL, or the generated avatar for the user's name. */
  function AvatarUrl(u: User, host: string, bucket: string, encode: string -> string): (url: string)
    ensures u.avatar.None? ==> |url| >= |AvatarService| && url[..|AvatarService|] == AvatarService
                               && url[|AvatarService|..] == encode(u.name)
    ensures u.avatar.Some? ==> |url| >= |host| + |u.avatar.value|
    ensures u.avatar.Some? ==> url[..|host|] == host && url[|url| - |u.avatar.value|..] == u.avatar.value
  {
    match u.avatar
    case None => AvatarService + encode(u.name)
    case Some(objectName) => PublicUrl(host, bucket, objectName)
  }

  function RowOf(u: User, host: string, bucket: string, encode: string -> string): UserRow {
    UserRow(u.id, u.name, u.email, u.contactNumber, u.role, u.createdAt, AvatarUrl(u, host, bucket, encode))
  }

  function Rows(users: seq<User>, host: string, bucket: string, encode: string -> string): (r: seq<UserRow>)
    ensures |r| == |users|
    ensures forall i :: 0 <= i < |r| ==> r[i] == RowOf(users[i], host, bucket, encode)
  {
    seq(|users|, i requires 0 <= i < |users| => RowOf(users[i], host, bucket, encode))
  }

  /** `row` shows one of the users of `pool`. */
  predicate RowOfSome(row: UserRow, pool: seq<User>, host: string, bucket: string, encode: string -> string) {
    exists u :: u in pool && row == RowOf(u, host, bucket, encode)
  }

  datatype UserPage = UserPage(users: seq<UserRow>, pagination: Paging.Pagination)

  /** One page of the listing: at most `limit` rows of matching users,
      newest first, starting after `skip` of them, and the pagination of the
      matching users' count. */
  function Listing(users: seq<User>, search: string, pq: Paging.PageQuery, host: string, bucket: string, encode: string -> string)
    : (p: UserPage)
    ensures var matching := Matching(users, search);
            && p.pagination == Paging.Paginate(pq.page, pq.limit, |matching|)
            && |p.users| == (if pq.skip >= |matching| then 0
                             else if |matching| - pq.skip < pq.limit then |matching| - pq.skip else pq.limit)
            && (forall i, j :: 0 <= i < j < |p.users| ==> p.users[i].createdAt >= p.users[j].createdAt)
            && (forall i :: 0 <= i < |p.users| ==> RowOfSome(p.users[i], matching, host, bucket, encode))
    ensures p.users == Rows(Paging.Window(Newest(users, search), pq.skip, pq.limit), host, bucket, encode)
  {
    WindowRows(Newest(users, search), Matching(users, search), pq, host, bucket, encode);
    UserPage(Rows(Paging.Window(Newest(users, search), pq.skip, pq.limit), host, bucket, encode),
             Paging.Paginate(pq.page, pq.limit, |Matching(users, search)|))
  }

  /** `GET(locals, url)`. Anyone but an Admin: 401. A page or limit the
      query cannot use: 500. Otherwise the page the query asks for. */
  function ListUsers(db: Db, actor: Option<User>, q: Paging.Query, host: string, bucket: string, encode: string -> string)
    : (r: Reply<UserPage>)
    ensures !IsAdmin(actor) ==> r == Error(401, "Unauthorized")
    ensures IsAdmin(actor) ==> (r.Success? <==> Paging.PageQueryOf(q).Some?)
    ensures IsAdmin(actor) && !r.Success? ==> r == Error(500, "Failed to fetch users")
    ensures r.Success? ==> r.status == 200 && r.payload == Listing(db.users, q.search, Paging.PageQueryOf(q).value, host, bucket, encode)
  {
    if !IsAdmin(actor) then Error(401, "Unauthorized")
    else match Paging.PageQueryOf(q)
      case None => Error(500, "Failed to fetch users")
      case Some(pq) => Success(200, Listing(db.users, q.search, pq, host, bucket, encode))
  }

  /** The rows of a window of users listed newest first are newest first,
      and each is the row of one of the listed users. */
  lemma WindowRows(newest: seq<User>, pool: seq<User>, pq: Paging.PageQuery, host: string, bucket: string, encode: string -> string)
    requires forall i :: 0 <= i < |newest| ==> newest[i] in pool
    requires Seqs.SortedDesc(newest, UserCreatedAt)
    ensures var rows := Rows(Paging.Window(newest, pq.skip, pq.limit), host, bucket, encode);
            && (forall i, j :: 0 <= i < j < |rows| ==> rows[i].createdAt >= rows[j].createdAt)
            && (forall i :: 0 <= i < |rows| ==> RowOfSome(rows[i], pool, host, bucket, encode))
  {
    var shown := Paging.Window(newest, pq.skip, pq.limit);
    Paging.WindowWithin(newest, pq.skip, pq.limit);
    Paging.WindowKeepsOrder(newest, UserCreatedAt, pq.skip, pq.limit);
    var rows := Rows(shown, host, bucket, encode);
    forall i | 0 <= i < |rows|
      ensures RowOfSome(rows[i], pool, host, bucket, encode)
    {
      assert shown[i] in pool && rows[i] == RowOf(shown[i], host, bucket, encode);
    }
    forall i, j | 0 <= i < j < |rows|
      ensures rows[i].createdAt >= rows[j].createdAt
    {
      assert UserCreatedAt(shown[i]) >= UserCreatedAt(shown[j]);
    }
  }

  /** Paging through the list reaches every matching user: with any positive
      limit, some page shows the user's row. */
  lemma EveryMatchingUserIsListed(db: Db, actor: Option<User>, search: string, limit: nat, u: User,
                                  host: string, bucket: string, encode: string -> string)
    requires IsAdmin(actor) && limit > 0
    requires u in Matching(db.users, search)
    ensures exists page: nat ::
              page >= 1 &&
              var r := ListUsers(db, actor, Paging.PageLink(page, limit, search), host, bucket, encode);
              r.Success? && RowOf(u, host, bucket, encode) in r.payload.users
  {
    var newest := Newest(db.users, search);
    assert u in multiset(newest);
    var k :| 0 <= k < |newest| && newest[k] == u;
    var page := ListedOnItsPage(db, actor, search, limit, k, host, bucket, encode);
  }

  /** The `k`-th newest matching user is listed on the page whose window
      holds position `k`, page `k / limit + 1`. */
  lemma ListedOnItsPage(db: Db, actor: Option<User>, search: string, limit: nat, k: nat,
                        host: string, bucket: string, encode: string -> string)
    returns (page: nat)
    requires IsAdmin(actor) && limit > 0
    requires k < |Newest(db.users, search)|
    ensures page >= 1
    ensures Paging.SkipFor(page, limit) <= k < Paging.SkipFor(page, limit) + limit
    ensures var r := ListUsers(db, actor, Paging.PageLink(page, limit, search), host, bucket, encode);
            r.Success? && RowOf(Newest(db.users, search)[k], host, bucket, encode) in r.payload.users
  {
    var newest := Newest(db.users, search);
    page := Paging.RowOnItsPage(newest, limit, k);
    PageShows(db, actor, page, limit, search, host, bucket, encode);
    var skip := Paging.SkipFor(page, limit);
    assert Rows(Paging.Window(newest, skip, limit), host, bucket, encode)[k - skip] == RowOf(newest[k], host, bucket, encode);
  }

  /** Asking for a page from the first on, with any limit, shows the rows of
      the window of newest matching users that starts after the earlier
      pages. */
  lemma PageShows(db: Db, actor: Option<User>, page: nat, limit: nat, search: string, host: string, bucket: string, encode: string -> string)
    requires IsAdmin(actor) && page >= 1
    ensures var pq := Paging.PageQueryOf(Paging.PageLink(page, limit, search));
            var r := ListUsers(db, actor, Paging.PageLink(page, limit, search), host, bucket, encode);
            && pq.Some? && pq.value.skip == Paging.SkipFor(page, limit)
            && r.Success? && r.payload.users == Rows(Paging.Window(Newest(db.users, search), pq.value.skip, limit), host, bucket, encode)
  {
    Paging.QueryOfPage(page, limit, search);
  }

  const CreateUserSchema: seq<Schema.Field> := [
    Schema.StringField("name", None, [Schema.MinLength(1, "Name is required")]),
    Schema.StringField("email", None, [Schema.EmailFormat("Valid email is required")]),
    Schema.StringField("password", None, [Schema.MinLength(6, "Password must be at least 6 characters")]),
    Schema.StringField("contactNumber", None, [Schema.MinLength(1, "Contact number is required")]),
    Schema.EnumField("role", ["User", "Admin"], "User")
  ]

  /** A creation request the schema accepts. */
  datatype NewUserForm = NewUserForm(name: string, email: string, password: string, contactNumber: string, role: Role)

  function ReadNewUser(body: JsValue, isEmail: string -> bool): (r: Option<NewUserForm>)
    ensures r.Some? <==> Schema.Parse(CreateUserSchema, body, isEmail).Ok?
    ensures r.Some? ==>
              && Get(body, "name") == Str(r.value.name) && |r.value.name| >= 1
              && Get(body, "email") == Str(r.value.email) && isEmail(r.value.email)
              && Get(body, "password") == Str(r.value.password) && Text.Utf16Length(r.value.password) >= 6
              && Get(body, "contactNumber") == Str(r.value.contactNumber) && |r.value.contactNumber| >= 1
              && (r.value.role == AdminRole <==> Get(body, "role") == Str("Admin"))
  {
    match Schema.Parse(CreateUserSchema, body, isEmail)
    case Err(_) => None
    case Ok(values) =>
      AcceptedString(body, isEmail, 0);
      AcceptedString(body, isEmail, 1);
      AcceptedString(body, isEmail, 2);
      AcceptedString(body, isEmail, 3);
      AcceptedRole(body, isEmail);
      var role := if values["role"] == "Admin" then AdminRole else UserRole;
      Some(NewUserForm(values["name"], values["email"], values["password"], values["contactNumber"], role))
  }

  /** A successful parse keeps the submitted string of each of the first
      four fields, and the string passes the field's check. */
  lemma AcceptedString(body: JsValue, isEmail: string -> bool, i: nat)
    requires i < 4 && Schema.Parse(CreateUserSchema, body, isEmail).Ok?
    ensures var key := CreateUserSchema[i].key;
            && Get(body, key).Str?
            && key in Schema.Parse(CreateUserSchema, body, isEmail).value
            && Schema.Parse(CreateUserSchema, body, isEmail).value[key] == Get(body, key).s
            && Schema.Passes(CreateUserSchema[i].checks[0], Get(body, key).s, isEmail)
  {
    var f := CreateUserSchema[i];
    assert f.StringField? && |f.checks| == 1;
    assert forall j :: 0 <= j < i ==> CreateUserSchema[j].key != f.key;
    Schema.ParsedValues(CreateUserSchema, body, isEmail, i);
    assert Schema.ParseField(f, Get(body, f.key), isEmail).Ok?;
  }

  /** A successful parse takes the role from the body, 'User' by default. */
  lemma AcceptedRole(body: JsValue, isEmail: string -> bool)
    requires Schema.Parse(CreateUserSchema, body, isEmail).Ok?
    ensures var v := Get(body, "role");
            && (v.Undefined? || (v.Str? && v.s in ["User", "Admin"]))
            && "role" in Schema.Parse(CreateUserSchema, body, isEmail).value
            && Schema.Parse(CreateUserSchema, body, isEmail).value["role"] == if v.Undefined? then "User" else v.s
  {
    var f := CreateUserSchema[4];
    assert f.key == "role";
    assert forall j :: 0 <= j < 4 ==> CreateUserSchema[j].key != f.key;
    Schema.ParsedValues(CreateUserSchema, body, isEmail, 4);
    assert Schema.ParseField(f, Get(body, f.key), isEmail).Ok?;
  }

  datatype Services = Services(
    isEmail: string -> bool,
    hashPassword: string -> string,
    newUserId: string,
    now: int,
    verifiedByDefault: bool)

  /** The selected columns of the created user; no password. */
  datatype CreatedUser = CreatedUser(id: string, name: string, email: string, contactNumber: string, role: Role, createdAt: int, avatar: Option<string>)

  function NewRow(f: NewUserForm, s: Services): User {
    User(s.newUserId, f.name, f.email, s.hashPassword(f.password), f.contactNumber, f.role,
         s.verifiedByDefault, None, None, None, s.now)
  }

  /** `POST(request, locals)`. Anyone but an Admin: 401. A body that is not
      JSON: 500. A body the schema refuses: 400 with the first issue's
      message. An e-mail already in use: 409, decided before the password is
      hashed. Otherwise one new row holding the submitted fields and the
      hashed password, answered without the password. Nothing is written
      on failure. */
  function CreateUser(users: seq<User>, actor: Option<User>, body: Option<JsValue>, s: Services)
    : (r: (Reply<CreatedUser>, seq<User>))
    ensures !r.0.Success? ==> r.1 == users
    ensures r.0.Status() == 401 <==> !IsAdmin(actor)
    ensures r.0.Status() == 401 ==> r.0 == Error(401, "Unauthorized")
    ensures IsAdmin(actor) && body.None? ==> r.0 == Error(500, "Failed to create user")
    ensures r.0.Status() == 400 <==> IsAdmin(actor) && body.Some? && Schema.Parse(CreateUserSchema, body.value, s.isEmail).Err?
    ensures r.0.Status() == 400 ==> r.0 == Error(400, Schema.Parse(CreateUserSchema, body.value, s.isEmail).error[0].message)
    ensures r.0.Status() == 409 <==>
              IsAdmin(actor) && body.Some? && ReadNewUser(body.value, s.isEmail).Some? &&
              FindUserByEmail(users, ReadNewUser(body.value, s.isEmail).value.email).Some?
    ensures r.0.Status() == 409 ==> r.0 == Error(409, "Email already exists")
    ensures r.0.Success? <==>
              IsAdmin(actor) && body.Some? && ReadNewUser(body.value, s.isEmail).Some? &&
              FindUserByEmail(users, ReadNewUser(body.value, s.isEmail).value.email).None?
    ensures r.0.Success? ==>
              var f := ReadNewUser(body.value, s.isEmail).value;
              && FindUserByEmail(users, f.email).None?
              && |r.1| == |users| + 1 && r.1[..|users|] == users
              && var u := r.1[|users|];
              && u.id == s.newUserId && u.name == f.name && u.email == f.email && u.contactNumber == f.contactNumber
              && u.password == s.hashPassword(f.password) && u.role == f.role
              && u.emailVerified == s.verifiedByDefault && u.verificationToken.None? && u.avatar.None?
              && r.0 == Success(200, CreatedUser(u.id, u.name, u.email, u.contactNumber, u.role, u.createdAt, None))
  {
    if !IsAdmin(actor) then (Error(401, "Unauthorized"), users)
    else if body.None? then (Error(500, "Failed to create user"), users)
    else match Schema.Parse(CreateUserSchema, body.value, s.isEmail)
      case Err(issues) => (Error(400, issues[0].message), users)
      case Ok(_) =>
        var f := ReadNewUser(body.value, s.isEmail).value;
        if FindUserByEmail(users, f.email).Some? then (Error(409, "Email already exists"), users)
        else
          var u := NewRow(f, s);
          assert (users + [u])[..|users|] == users;
          (Success(200, CreatedUser(u.id, u.name, u.email, u.contactNumber, u.role, u.createdAt, None)), users + [u])
  }

  /** Creating the same user twice is refused the second time, whatever the
      services then are. */
  lemma CreateTwiceConflicts(users: seq<User>, actor: Option<User>, body: JsValue, s: Services, s': Services)
    requires CreateUser(users, actor, Some(body), s).0.Success?
    requires s'.isEmail == s.isEmail
    ensures CreateUser(CreateUser(users, actor, Some(body), s).1, actor, Some(body), s').0 == Error(409, "Email already exists")
  {
    var users' := CreateUser(users, actor, Some(body), s).1;
    var email := ReadNewUser(body, s.isEmail).value.email;
    assert users'[|users|].email == email;
  }
}

=== FILE: broadcaster.dfy ===
/** The in-process realtime broadcaster of src/lib/server/realtime.ts: a
    registry of server-sent-event connections keyed by connection id, and the
    fan-out of task events to the other users of a project.

    The stream controller of a connection is reduced to the outcome of
    enqueueing on it (`fails`, by connection id), and `JSON.stringify` of an
    event is the parameter `toJson`. */
module Broadcaster {
  import opened Wrappers
  import Js
  import Text

  datatype EventType = TaskCreated | TaskUpdated | TaskDeleted | TaskMoved

  /** The `type` field as it appears on the wire. */
  function TypeName(t: EventType): string {
    match t
    case TaskCreated => "task_created"
    case TaskUpdated => "task_updated"
    case TaskDeleted => "task_deleted"
    case TaskMoved => "task_moved"
  }

  /** `data` of an event: `{ task }` or, for deletions, `{ taskId }`. */
  datatype EventData = TaskPayload(task: Js.JsValue) | TaskIdPayload(taskId: string)

  datatype RealtimeEvent = RealtimeEvent(kind: EventType, projectId: string, data: EventData, timestamp: int, userId: string)

  datatype Connection = Connection(id: string, projectId: string, userId: string)

  type Registry = map<string, Connection>

  /** Every connection is registered under its own id. */
  ghost predicate WellKeyed(reg: Registry) {
    forall k :: k in reg ==> reg[k].id == k
  }

  // ---------------------------------------------------------------------------
  // Registry

  /** `addConnection(connection)`: inserts, or replaces an entry with the same
      id; nothing else changes. */
  function AddConnection(reg: Registry, c: Connection): (r: Registry)
    ensures r.Keys == reg.Keys + {c.id}
    ensures r[c.id] == c
    ensures forall k :: k in reg && k != c.id ==> r[k] == reg[k]
    ensures WellKeyed(reg) ==> WellKeyed(r)
  {
    reg[c.id := c]
  }

  /** `removeConnection(connectionId)`: deletes the entry if present; removing
      an absent id changes nothing, so a second removal is a no-op. */
  function RemoveConnection(reg: Registry, id: string): (r: Registry)
    ensures r.Keys == reg.Keys - {id}
    ensures forall k :: k in r ==> r[k] == reg[k]
    ensures id !in reg ==> r == reg
  {
    reg - {id}
  }

  /** The ids of the connections subscribed to project `p`. */
  function Subscribed(reg: Registry, p: string): (ids: set<string>)
    ensures ids <= reg.Keys
    ensures forall k :: k in ids <==> k in reg && reg[k].projectId == p
  {
    set k | k in reg && reg[k].projectId == p
  }

  lemma {:induction false} SubsetCardinality<T>(a: set<T>, b: set<T>)
    requires a <= b
    ensures |a| <= |b|
    decreases |b|
  {
    if a != {} {
      var x :| x in a;
      SubsetCardinality(a - {x}, b - {x});
    }
  }

  /** `getConnectionCount(projectId?)`: with a non-empty project id, the
      number of connections subscribed to it; with none, or the empty string
      (which is falsy), the size of the registry. */
  function GetConnectionCount(reg: Registry, projectId: Option<string>): (n: nat)
    ensures projectId.None? || projectId.value == "" ==> n == |reg|
    ensures projectId.Some? && projectId.value != "" ==> n == |Subscribed(reg, projectId.value)|
    ensures n <= |reg|
  {
    if projectId.Some? && projectId.value != "" then
      SubsetCardinality(Subscribed(reg, projectId.value), reg.Keys);
      |Subscribed(reg, projectId.value)|
    else
      |reg|
  }

  lemma SubscribedAfterAdd(reg: Registry, c: Connection, p: string)
    ensures Subscribed(AddConnection(reg, c), p) ==
            (Subscribed(reg, p) - {c.id}) + (if c.projectId == p then {c.id} else {})
  {
  }

  lemma SubscribedAfterRemove(reg: Registry, id: string, p: string)
    ensures Subscribed(RemoveConnection(reg, id), p) == Subscribed(reg, p) - {id}
  {
  }

  /** Registering a new connection raises the total by one. */
  lemma TotalAfterAdd(reg: Registry, c: Connection)
    requires c.id !in reg
    ensures GetConnectionCount(AddConnection(reg, c), None) == GetConnectionCount(reg, None) + 1
  {
    var r := AddConnection(reg, c);
    assert |r.Keys| == |reg.Keys + {c.id}| == |reg.Keys| + 1;
  }

  /** Registering a new connection raises its project's count by one and
      leaves every other project's count alone. */
  lemma ProjectCountAfterAdd(reg: Registry, c: Connection, p: string)
    requires c.id !in reg && p != ""
    ensures GetConnectionCount(AddConnection(reg, c), Some(p)) ==
            GetConnectionCount(reg, Some(p)) + (if c.projectId == p then 1 else 0)
  {
    var before := Subscribed(reg, p);
    SubscribedAfterAdd(reg, c, p);
    assert c.id !in before;
    assert before - {c.id} == before;
    if c.projectId == p {
      assert |before + {c.id}| == |before| + 1;
    }
  }

  /** Removing a registered connection lowers the total by one. */
  lemma TotalAfterRemove(reg: Registry, id: string)
    requires id in reg
    ensures GetConnectionCount(RemoveConnection(reg, id), None) == GetConnectionCount(reg, None) - 1
  {
    var r := RemoveConnection(reg, id);
    assert reg.Keys == r.Keys + {id};
    assert |reg.Keys| == |r.Keys| + 1;
  }

  /** Removing a registered connection lowers its project's count by one and
      leaves every other project's count alone. */
  lemma ProjectCountAfterRemove(reg: Registry, id: string, p: string)
    requires id in reg && p != ""
    ensures GetConnectionCount(RemoveConnection(reg, id), Some(p)) ==
            GetConnectionCount(reg, Some(p)) - (if reg[id].projectId == p then 1 else 0)
  {
    var before := Subscribed(reg, p);
    var after := Subscribed(RemoveConnection(reg, id), p);
    SubscribedAfterRemove(reg, id, p);
    assert GetConnectionCount(RemoveConnection(reg, id), Some(p)) == |after|;
    assert GetConnectionCount(reg, Some(p)) == |before|;
    if reg[id].projectId == p {
      assert id in before;
      RemoveOne(before, id);
    } else {
      assert id !in before;
    }
  }

  lemma RemoveOne<T>(s: set<T>, x: T)
    requires x in s
    ensures |s - {x}| == |s| - 1
  {
    assert s == (s - {x}) + {x};
  }

  // ---------------------------------------------------------------------------
  // Framing (section 9.2 of the WHATWG HTML Standard, server-sent events)

  /** The text of one frame: a single `data` field carrying the JSON, ended by
      the blank line that dispatches the event. */
  function Frame(json: string): string {
    "data: " + json + "\n\n"
  }

  /** The field name and value of a line: the value is what follows the
      first colon, less one leading space; a line without a colon is a field
      name with an empty value. */
  function FieldOf(line: string): (r: (string, string))
    ensures |r.0| <= |line|
  {
    match Text.IndexOfChar(line, ':')
    case None => (line, "")
    case Some(i) =>
      var value := line[i + 1..];
      (line[..i], if |value| > 0 && value[0] == ' ' then value[1..] else value)
  }

  /** Processing of one complete line, restricted to the `data` field: a
      blank line dispatches the data buffer (less its final line feed) unless
      it is empty, and clears it; a comment line (leading ':') and any other
      field are ignored; a `data` line appends its value and a line feed.
      Returns the dispatched event data and the new buffer. */
  function ProcessLine(line: string, buffer: string): (r: (seq<string>, string))
    ensures |r.0| <= 1
    ensures line != "" ==> r.0 == []
  {
    if line == "" then
      if buffer == "" then ([], "") else ([buffer[..|buffer| - 1]], "")
    else if line[0] == ':' then ([], buffer)
    else
      var (field, value) := FieldOf(line);
      if field == "data" then ([], buffer + value + "\n") else ([], buffer)
  }

  /** A client reading `s` character by character with `line` collected so
      far and `buffer` as its data buffer: the data of the events dispatched.
      Lines end at line feeds; an unterminated last line is never processed. */
  function ParseFrom(s: string, line: string, buffer: string): seq<string>
    decreases |s|
  {
    if |s| == 0 then []
    else if s[0] == '\n' then
      var (events, buffer') := ProcessLine(line, buffer);
      events + ParseFrom(s[1..], "", buffer')
    else ParseFrom(s[1..], line + [s[0]], buffer)
  }

  /** The data of the events a client dispatches on receiving `stream`. */
  function ParseEventStream(stream: string): seq<string> {
    ParseFrom(stream, "", "")
  }

  /** The frames of a sequence of events, in order. */
  function Stream(jsons: seq<string>): string {
    if |jsons| == 0 then "" else Frame(jsons[0]) + Stream(jsons[1..])
  }

  /** Characters other than line feeds only extend the current line. */
  lemma {:induction false} ParseAccumulates(t: string, rest: string, line: string, buffer: string)
    requires '\n' !in t
    ensures ParseFrom(t + rest, line, buffer) == ParseFrom(rest, line + t, buffer)
    decreases |t|
  {
    if |t| > 0 {
      assert (t + rest)[0] == t[0] && t[0] != '\n';
      assert (t + rest)[1..] == t[1..] + rest;
      ParseAccumulates(t[1..], rest, line + [t[0]], buffer);
      assert line + [t[0]] + t[1..] == line + t;
    } else {
      assert t + rest == rest && line + t == line;
    }
  }

  lemma FieldOfDataLine(json: string)
    ensures FieldOf("data: " + json) == ("data", json)
  {
    var line := "data: " + json;
    assert forall j :: 0 <= j < 4 ==> line[j] != ':';
    assert line[4] == ':';
    assert Text.IndexOfChar(line, ':') == Some(4);
    assert line[..4] == "data";
    var value := line[5..];
    assert value == " " + json;
    assert |value| > 0 && value[0] == ' ' && value[1..] == json;
  }

  /** The `data` line of a frame, once ended, moves its JSON into the buffer. */
  lemma DataLineBuffers(json: string, rest: string)
    requires '\n' !in json
    ensures ParseFrom("\n" + rest, "data: " + json, "") == ParseFrom(rest, "", json + "\n")
  {
    var line := "data: " + json;
    FieldOfDataLine(json);
    assert line != "" && line[0] == 'd';
    assert "" + json + "\n" == json + "\n";
    assert ProcessLine(line, "") == ([], json + "\n");
    assert ("\n" + rest)[1..] == rest;
  }

  /** The blank line of a frame dispatches the buffer less its line feed. */
  lemma BlankLineDispatches(json: string, rest: string)
    ensures ParseFrom("\n" + rest, "", json + "\n") == [json] + ParseFrom(rest, "", "")
  {
    assert ProcessLine("", json + "\n") == ([json], "");
    assert ("\n" + rest)[1..] == rest;
  }

  /** One frame dispatches exactly its JSON and leaves the parser as it found it. */
  lemma ParseFrame(json: string, rest: string)
    requires '\n' !in json
    ensures ParseFrom(Frame(json) + rest, "", "") == [json] + ParseFrom(rest, "", "")
  {
    var line := "data: " + json;
    assert Frame(json) + rest == line + ("\n" + ("\n" + rest));
    ParseAccumulates(line, "\n" + ("\n" + rest), "", "");
    assert "" + line == line;
    DataLineBuffers(json, "\n" + rest);
    BlankLineDispatches(json, rest);
  }

  /** Framing round trip: a client parsing the concatenated frames of several
      events dispatches exactly their JSON texts, in order, provided none
      contains a line break (which `JSON.stringify` escapes). */
  lemma {:induction false} StreamRoundTrip(jsons: seq<string>)
    requires forall i :: 0 <= i < |jsons| ==> '\n' !in jsons[i] && '\r' !in jsons[i]
    ensures ParseEventStream(Stream(jsons)) == jsons
  {
    if |jsons| > 0 {
      ParseFrame(jsons[0], Stream(jsons[1..]));
      StreamRoundTrip(jsons[1..]);
    }
  }

  // ---------------------------------------------------------------------------
  // Fan-out

  /** A connection receives an event iff it is subscribed to the event's
      project and belongs to a different user than the one who caused it. */
  predicate IsRecipient(c: Connection, e: RealtimeEvent) {
    c.projectId == e.projectId && c.userId != e.userId
  }

  /** The ids of the registered recipients of `e`. */
  ghost function Recipients(reg: Registry, e: RealtimeEvent): set<string> {
    set k | k in reg && IsRecipient(reg[k], e)
  }

  datatype BroadcastOutcome = BroadcastOutcome(frame: string, delivered: set<string>, registry: Registry)

  /** `broadcast(event)`: serialises the event once, then visits every
      registered connection; a recipient either receives the frame or, when
      its enqueue throws, is removed, and the loop goes on with the others.
      The delivered connections are the recipients whose enqueue succeeds;
      the registry loses exactly the failing recipients. */
  method Broadcast(reg: Registry, e: RealtimeEvent, toJson: RealtimeEvent -> string, fails: string -> bool)
    returns (out: BroadcastOutcome)
    ensures out.frame == Frame(toJson(e))
    ensures forall k :: k in out.delivered <==> k in Recipients(reg, e) && !fails(k)
    ensures out.registry.Keys <= reg.Keys
    ensures forall k :: k in reg ==> (k in out.registry <==> !(k in Recipients(reg, e) && fails(k)))
    ensures forall k :: k in out.registry ==> out.registry[k] == reg[k]
  {
    var frame := Frame(toJson(e));
    var pending := reg.Keys;
    var delivered: set<string> := {};
    var current := reg;
    while pending != {}
      invariant pending <= reg.Keys
      invariant forall k :: k in delivered <==> k in reg && k !in pending && IsRecipient(reg[k], e) && !fails(k)
      invariant current.Keys <= reg.Keys
      invariant forall k :: k in reg ==> (k in current <==> !(k !in pending && IsRecipient(reg[k], e) && fails(k)))
      invariant forall k :: k in current ==> current[k] == reg[k]
      decreases pending
    {
      var id :| id in pending;
      var connection := reg[id];
      if IsRecipient(connection, e) {
        if fails(id) {
          current := RemoveConnection(current, id);
        } else {
          delivered := delivered + {id};
        }
      }
      pending := pending - {id};
    }
    out := BroadcastOutcome(frame, delivered, current);
  }

  /** `after` is `reg` less exactly the connections of `projectId` owned by
      a user other than `userId` whose enqueue failed. */
  ghost predicate PrunedFailures(after: Registry, reg: Registry, projectId: string, userId: string, fails: string -> bool) {
    && after.Keys <= reg.Keys
    && (forall k :: k in reg ==>
          (k in after <==> !(reg[k].projectId == projectId && reg[k].userId != userId && fails(k))))
    && (forall k :: k in after ==> after[k] == reg[k])
  }

  /** `broadcastTaskCreated`: a `task_created` event with data `{ task }`. */
  method BroadcastTaskCreated(reg: Registry, projectId: string, task: Js.JsValue, userId: string, now: int,
                              toJson: RealtimeEvent -> string, fails: string -> bool)
    returns (out: BroadcastOutcome)
    ensures out.frame == Frame(toJson(RealtimeEvent(TaskCreated, projectId, TaskPayload(task), now, userId)))
    ensures forall k :: k in out.delivered <==> k in reg && reg[k].projectId == projectId && reg[k].userId != userId && !fails(k)
    ensures PrunedFailures(out.registry, reg, projectId, userId, fails)
  {
    out := Broadcast(reg, RealtimeEvent(TaskCreated, projectId, TaskPayload(task), now, userId), toJson, fails);
  }

  /** `broadcastTaskUpdated`: a `task_updated` event with data `{ task }`. */
  method BroadcastTaskUpdated(reg: Registry, projectId: string, task: Js.JsValue, userId: string, now: int,
                              toJson: RealtimeEvent -> string, fails: string -> bool)
    returns (out: BroadcastOutcome)
    ensures out.frame == Frame(toJson(RealtimeEvent(TaskUpdated, projectId, TaskPayload(task), now, userId)))
    ensures forall k :: k in out.delivered <==> k in reg && reg[k].projectId == projectId && reg[k].userId != userId && !fails(k)
    ensures PrunedFailures(out.registry, reg, projectId, userId, fails)
  {
    out := Broadcast(reg, RealtimeEvent(TaskUpdated, projectId, TaskPayload(task), now, userId), toJson, fails);
  }

  /** `broadcastTaskDeleted`: a `task_deleted` event with data `{ taskId }`. */
  method BroadcastTaskDeleted(reg: Registry, projectId: string, taskId: string, userId: string, now: int,
                              toJson: RealtimeEvent -> string, fails: string -> bool)
    returns (out: BroadcastOutcome)
    ensures out.frame == Frame(toJson(RealtimeEvent(TaskDeleted, projectId, TaskIdPayload(taskId), now, userId)))
    ensures forall k :: k in out.delivered <==> k in reg && reg[k].projectId == projectId && reg[k].userId != userId && !fails(k)
    ensures PrunedFailures(out.registry, reg, projectId, userId, fails)
  {
    out := Broadcast(reg, RealtimeEvent(TaskDeleted, projectId, TaskIdPayload(taskId), now, userId), toJson, fails);
  }

  /** `broadcastTaskMoved`: a `task_moved` event with data `{ task }`. */
  method BroadcastTaskMoved(reg: Registry, projectId: string, task: Js.JsValue, userId: string, now: int,
                            toJson: RealtimeEvent -> string, fails: string -> bool)
    returns (out: BroadcastOutcome)
    ensures out.frame == Frame(toJson(RealtimeEvent(TaskMoved, projectId, TaskPayload(task), now, userId)))
    ensures forall k :: k in out.delivered <==> k in reg && reg[k].projectId == projectId && reg[k].userId != userId && !fails(k)
    ensures PrunedFailures(out.registry, reg, projectId, userId, fails)
  {
    out := Broadcast(reg, RealtimeEvent(TaskMoved, projectId, TaskPayload(task), now, userId), toJson, fails);
  }

  /** With no failing enqueue, the recipients are exactly the project's
      connections minus the originator's: their number is the project's
      connection count less the originator's connections to it. */
  lemma RecipientCount(reg: Registry, e: RealtimeEvent)
    requires e.projectId != ""
    ensures var own := set k | k in reg && reg[k].projectId == e.projectId && reg[k].userId == e.userId;
            |Recipients(reg, e)| == GetConnectionCount(reg, Some(e.projectId)) - |own|
  {
    var own := set k | k in reg && reg[k].projectId == e.projectId && reg[k].userId == e.userId;
    assert Subscribed(reg, e.projectId) == Recipients(reg, e) + own;
    assert Recipients(reg, e) * own == {};
  }

  /** Three connections: c1 and c2 on project p1 for users u1 and u2, c3 on
      project p2 for u2. An event on p1 caused by u1 reaches c2 only. */
  lemma ThreeConnectionScenario(e: RealtimeEvent)
    requires e.projectId == "p1" && e.userId == "u1"
    ensures var reg := AddConnection(AddConnection(AddConnection(map[], Connection("c1", "p1", "u1")),
                                                   Connection("c2", "p1", "u2")), Connection("c3", "p2", "u2"));
            Recipients(reg, e) == {"c2"}
  {
    var reg := AddConnection(AddConnection(AddConnection(map[], Connection("c1", "p1", "u1")),
                                           Connection("c2", "p1", "u2")), Connection("c3", "p2", "u2"));
    assert reg.Keys == {"c1", "c2", "c3"};
    assert reg["c2"] == Connection("c2", "p1", "u2");
    assert "c2" in Recipients(reg, e);
  }
}

=== FILE: client_realtime.dfy ===
/** The browser-side realtime store of src/lib/stores/realtime.ts as an
    explicit state machine. Socket callbacks, timer expiry and the public
    calls become inputs; the calls the store makes on the outside world
    (opening and closing transports, scheduling a timer, publishing to the
    `events` store) become effects. Transports are told apart by a handle
    the store assigns when it opens one.

    `Variant` selects the store as written or with the correction that a
    transport is closed before another replaces it (see `Live`). */
module ClientRealtime {
  import opened Wrappers
  import Text

  const MaxReconnectAttempts: nat := 5
  const ReconnectIntervalMs: nat := 5000
  /** Normal closure, section 7.4.1 of RFC 6455. */
  const NormalClosure: int := 1000
  /** The port the WebSocket server listens on, on every host. */
  const WebSocketPort: string := ":3001"

  datatype Variant = AsWritten | Corrected

  datatype Transport = WebSocket | EventSource

  datatype Conn = Conn(transport: Transport, handle: nat)

  datatype State = State(
    connection: Option<Conn>,
    projectId: Option<string>,
    reconnectAttempts: nat,
    useWebSocket: bool,
    connected: bool,
    error: Option<string>,
    nextHandle: nat)

  /** A fresh store: no connection, WebSocket preferred. */
  const Initial: State := State(None, None, 0, true, false, None, 0)

  /** What the store reads from the page: whether it runs in a browser, the
      rows of `document.cookie` split at "; ", whether the page is served
      over https, its host name, and whether the transport constructors
      throw. */
  datatype Env = Env(browser: bool, cookieRows: seq<string>, https: bool, hostname: string,
                     webSocketThrows: bool, eventSourceThrows: bool)

  /** A message as `JSON.parse` hands it over: its `type` and the whole value. */
  datatype Message = Message(kind: string, body: string)

  datatype Input =
    | Connect(projectId: string)
    | Disconnect
    | WsOpen(handle: nat)
    | WsMessage(handle: nat, parsed: Option<Message>)  // None: not parseable as an object
    | WsClose(handle: nat, code: int)
    | WsError(handle: nat)
    | SseOpen(handle: nat)
    | SseMessage(handle: nat, parsed: Option<Message>)
    | SseError(handle: nat, closed: bool)  // closed: readyState is CLOSED
    | ReconnectTimer                       // a scheduled reconnect fires

  datatype Effect =
    | OpenWebSocket(handle: nat, url: string)
    | OpenEventSource(handle: nat, url: string)
    | CloseWebSocket(handle: nat, code: int, reason: string)
    | CloseEventSource(handle: nat)
    | ScheduleReconnect(delayMs: nat)
    | Publish(message: Message)
  {
    predicate IsOpen() { OpenWebSocket? || OpenEventSource? }
    predicate IsClose() { CloseWebSocket? || CloseEventSource? }
  }

  /** `if (this.projectId)`: present and non-empty. */
  predicate HasProject(s: State) {
    s.projectId.Some? && s.projectId.value != ""
  }

  /** No effect publishes an event. */
  predicate NoPublish(effects: seq<Effect>) {
    forall i :: 0 <= i < |effects| ==> !effects[i].Publish?
  }

  /** Every scheduled reconnect waits 5000 ms times the attempt number, with
      the attempt number between 1 and 5. */
  predicate BackoffIsLinear(effects: seq<Effect>, attempts: nat) {
    forall i :: 0 <= i < |effects| && effects[i].ScheduleReconnect? ==>
      1 <= attempts <= MaxReconnectAttempts && effects[i].delayMs == ReconnectIntervalMs * attempts
  }

  /** The wait before reconnect attempt `attempt`. */
  function BackoffDelay(attempt: nat): nat {
    ReconnectIntervalMs * attempt
  }

  /** Every scheduled reconnect waits the delay of some attempt number
      between 1 and 5. */
  ghost predicate BackoffBounded(effects: seq<Effect>) {
    forall i :: 0 <= i < |effects| && effects[i].ScheduleReconnect? ==>
      exists attempt :: 1 <= attempt <= MaxReconnectAttempts && effects[i].delayMs == BackoffDelay(attempt)
  }

  /** How a step treats transports: whatever it opens becomes the current
      connection, and, in the corrected variant, a connection it replaces or
      drops has been closed. */
  predicate Disciplined(v: Variant, s: State, s': State, effects: seq<Effect>) {
    && (forall h :: h in Opened(effects) ==> s'.connection.Some? && s'.connection.value.handle == h)
    && (v == Corrected && s.connection.Some? && s'.connection != s.connection ==>
          s.connection.value.handle in Closed(effects))
  }

  // ---------------------------------------------------------------------------
  // Reading the page

  /** Index of the first cookie row starting with `session=`. */
  function FirstSessionRow(rows: seq<string>): (r: Option<nat>)
    ensures r.Some? ==> r.value < |rows| && Text.StartsWith(rows[r.value], "session=")
    ensures r.Some? ==> forall j :: 0 <= j < r.value ==> !Text.StartsWith(rows[j], "session=")
    ensures r.None? ==> forall j :: 0 <= j < |rows| ==> !Text.StartsWith(rows[j], "session=")
  {
    if |rows| == 0 then None
    else if Text.StartsWith(rows[0], "session=") then Some(0)
    else match FirstSessionRow(rows[1..])
      case None => None
      case Some(i) => Some(i + 1)
  }

  /** The session token of the cookie: the part after the first '=' of the
      first `session=` row, up to any further '='; missing when there is no
      such row or that part is empty. */
  function SessionToken(rows: seq<string>): (r: Option<string>)
    ensures r.Some? ==> r.value != "" && '=' !in r.value
    ensures FirstSessionRow(rows).None? ==> r.None?
  {
    match FirstSessionRow(rows)
    case None => None
    case Some(i) =>
      var row := rows[i];
      assert row[7] == '=';
      Text.SplitSingle(row, '=');
      var parts := Text.Split(row, '=');
      if parts[1] == "" then None else Some(parts[1])
  }

  /** A cookie whose first row is `session=<token>` yields that token. */
  lemma SessionTokenOfCookie(token: string, others: seq<string>)
    requires token != "" && '=' !in token
    ensures SessionToken(["session=" + token] + others) == Some(token)
  {
    var rows := ["session=" + token] + others;
    var row := rows[0];
    assert row[..8] == "session=";
    assert row == "session" + ['='] + token;
    Text.SplitCons("session", '=', token);
    Text.SplitNoSeparator(token, '=');
  }

  function WebSocketUrl(env: Env, projectId: string, token: string): string {
    (if env.https then "wss:" else "ws:") + "//" + env.hostname + WebSocketPort
      + "/ws?projectId=" + projectId + "&session=" + token
  }

  function EventSourceUrl(projectId: string): string {
    "/api/projects/" + projectId + "/realtime"
  }

  // ---------------------------------------------------------------------------
  // Private steps

  /** The effect that closes a connection: a WebSocket with code 1000 and
      reason "Client disconnecting", an EventSource plainly. */
  function CloseEffect(c: Conn): (e: Effect)
    ensures e.IsClose() && e.handle == c.handle
  {
    match c.transport
    case WebSocket => CloseWebSocket(c.handle, NormalClosure, "Client disconnecting")
    case EventSource => CloseEventSource(c.handle)
  }

  /** Closes the current connection, if any, before it is replaced: only in
      the corrected variant. */
  function Release(v: Variant, s: State): (r: (State, seq<Effect>))
    ensures r.0 == s || (v == Corrected && r.0 == s.(connection := None))
    ensures |r.1| <= 1 && NoPublish(r.1)
    ensures v == Corrected && s.connection.Some? ==> r.1 == [CloseEffect(s.connection.value)]
    ensures v == AsWritten || s.connection.None? ==> r.1 == []
  {
    if v == Corrected && s.connection.Some? then (s.(connection := None), [CloseEffect(s.connection.value)])
    else (s, [])
  }

  /** Opening a transport after `Release` opens only that transport and, in
      the corrected variant, closes the current one. */
  lemma ReleaseThenOpen(v: Variant, s: State, e: Effect)
    requires e.IsOpen()
    ensures Opened(Release(v, s).1 + [e]) == {e.handle}
    ensures v == Corrected && s.connection.Some? ==> s.connection.value.handle in Closed(Release(v, s).1 + [e])
  {
    var closing := Release(v, s).1;
    OpenedClosedConcat(closing, [e]);
    assert Opened([e]) == {e.handle} && Closed([e]) == {};
    if v == Corrected && s.connection.Some? {
      assert Opened(closing) == {} && Closed(closing) == {s.connection.value.handle};
    } else {
      assert closing == [];
    }
  }

  /** `connectSSE()`. */
  function ConnectSSE(v: Variant, env: Env, s: State): (r: (State, seq<Effect>))
    ensures r.0.useWebSocket == s.useWebSocket && r.0.reconnectAttempts == s.reconnectAttempts
    ensures r.0.projectId == s.projectId && r.0.connected == s.connected
    ensures NoPublish(r.1) && BackoffIsLinear(r.1, r.0.reconnectAttempts)
    ensures !HasProject(s) ==> r == (s, [])
    ensures HasProject(s) && env.eventSourceThrows ==> r == (s.(error := Some("Failed to establish connection")), [])
    ensures HasProject(s) && !env.eventSourceThrows ==>
              r.0.connection == Some(Conn(EventSource, s.nextHandle)) && r.0.nextHandle == s.nextHandle + 1
              && r.1 == Release(v, s).1 + [OpenEventSource(s.nextHandle, EventSourceUrl(s.projectId.value))]
    ensures Disciplined(v, s, r.0, r.1)
  {
    if !HasProject(s) then (s, [])
    else if env.eventSourceThrows then (s.(error := Some("Failed to establish connection")), [])
    else
      var (s1, closing) := Release(v, s);
      var h := s.nextHandle;
      ReleaseThenOpen(v, s, OpenEventSource(h, EventSourceUrl(s.projectId.value)));
      (s1.(connection := Some(Conn(EventSource, h)), nextHandle := h + 1),
       closing + [OpenEventSource(h, EventSourceUrl(s.projectId.value))])
  }

  /** `connectWebSocket()`: without a session token, or when the constructor
      throws, WebSocket is abandoned for good and SSE used instead. */
  function ConnectWebSocket(v: Variant, env: Env, s: State): (r: (State, seq<Effect>))
    ensures r.0.useWebSocket ==> s.useWebSocket
    ensures r.0.reconnectAttempts == s.reconnectAttempts
    ensures r.0.projectId == s.projectId && r.0.connected == s.connected
    ensures NoPublish(r.1) && BackoffIsLinear(r.1, r.0.reconnectAttempts)
    ensures !HasProject(s) ==> r == (s, [])
    ensures HasProject(s) && (SessionToken(env.cookieRows).None? || env.webSocketThrows) ==>
              r == ConnectSSE(v, env, s.(useWebSocket := false))
    ensures HasProject(s) && SessionToken(env.cookieRows).Some? && !env.webSocketThrows ==>
              r.0.connection == Some(Conn(WebSocket, s.nextHandle)) && r.0.nextHandle == s.nextHandle + 1
              && r.0.useWebSocket == s.useWebSocket
              && r.1 == Release(v, s).1 + [OpenWebSocket(s.nextHandle, WebSocketUrl(env, s.projectId.value, SessionToken(env.cookieRows).value))]
    ensures Disciplined(v, s, r.0, r.1)
  {
    if !HasProject(s) then (s, [])
    else
      match SessionToken(env.cookieRows)
      case None => ConnectSSE(v, env, s.(useWebSocket := false))
      case Some(token) =>
        if env.webSocketThrows then ConnectSSE(v, env, s.(useWebSocket := false))
        else
          var (s1, closing) := Release(v, s);
          var h := s.nextHandle;
          ReleaseThenOpen(v, s, OpenWebSocket(h, WebSocketUrl(env, s.projectId.value, token)));
          (s1.(connection := Some(Conn(WebSocket, h)), nextHandle := h + 1),
           closing + [OpenWebSocket(h, WebSocketUrl(env, s.projectId.value, token))])
  }

  /** `attemptConnection()`: the preferred transport, if a project is set. */
  function AttemptConnection(v: Variant, env: Env, s: State): (r: (State, seq<Effect>))
    ensures r.0.useWebSocket ==> s.useWebSocket
    ensures r.0.reconnectAttempts == s.reconnectAttempts
    ensures r.0.projectId == s.projectId && r.0.connected == s.connected
    ensures NoPublish(r.1) && BackoffIsLinear(r.1, r.0.reconnectAttempts)
    ensures !HasProject(s) ==> r == (s, [])
    ensures Disciplined(v, s, r.0, r.1)
  {
    if !HasProject(s) then (s, [])
    else if s.useWebSocket then ConnectWebSocket(v, env, s)
    else ConnectSSE(v, env, s)
  }

  /** The error text while reconnecting, e.g. "(2/5)". */
  function ReconnectingMessage(attempt: nat): string {
    "Connection lost. Attempting to reconnect... (" + Text.NatToString(attempt) + "/"
      + Text.NatToString(MaxReconnectAttempts) + ")"
  }

  /** `handleReconnect()`: gives up with an error once 5 attempts have been
      made; otherwise counts one more attempt and schedules the next one after
      5000 ms times the attempt number. */
  function HandleReconnect(s: State): (r: (State, seq<Effect>))
    ensures s.reconnectAttempts >= MaxReconnectAttempts ==>
              r == (s.(error := Some("Maximum reconnection attempts reached")), [])
    ensures s.reconnectAttempts < MaxReconnectAttempts ==>
              r.0 == s.(reconnectAttempts := s.reconnectAttempts + 1, error := Some(ReconnectingMessage(s.reconnectAttempts + 1)))
              && r.1 == [ScheduleReconnect(ReconnectIntervalMs * r.0.reconnectAttempts)]
    ensures r.0.reconnectAttempts <= MaxReconnectAttempts || r.0.reconnectAttempts == s.reconnectAttempts
    ensures NoPublish(r.1) && BackoffIsLinear(r.1, r.0.reconnectAttempts)
    ensures r.0.connection == s.connection && Opened(r.1) == {}
  {
    if s.reconnectAttempts >= MaxReconnectAttempts then
      (s.(error := Some("Maximum reconnection attempts reached")), [])
    else
      var n := s.reconnectAttempts + 1;
      (s.(reconnectAttempts := n, error := Some(ReconnectingMessage(n))), [ScheduleReconnect(ReconnectIntervalMs * n)])
  }

  // ---------------------------------------------------------------------------
  // Public operations

  /** `disconnect()`: acts only when a connection exists, closing it (a
      WebSocket with the normal-closure code) and clearing the connection,
      the connected flag and the project. */
  function DisconnectStep(s: State): (r: (State, seq<Effect>))
    ensures s.connection.None? ==> r == (s, [])
    ensures s.connection.Some? ==>
              r == (s.(connection := None, connected := false, projectId := None), [CloseEffect(s.connection.value)])
    ensures r.0.connection.None? && Opened(r.1) == {}
    ensures s.connection.Some? ==> s.connection.value.handle in Closed(r.1)
  {
    if s.connection.Some? then
      (s.(connection := None, connected := false, projectId := None), [CloseEffect(s.connection.value)])
    else (s, [])
  }

  /** `connect(projectId)`: outside a browser nothing happens; otherwise the
      existing connection is closed, the project set, the attempt counter and
      the error cleared, and a connection attempted. */
  function ConnectStep(v: Variant, env: Env, s: State, projectId: string): (r: (State, seq<Effect>))
    ensures !env.browser ==> r == (s, [])
    ensures env.browser ==>
              var (s1, closing) := DisconnectStep(s);
              var s2 := s1.(projectId := Some(projectId), reconnectAttempts := 0, error := None);
              r == (AttemptConnection(v, env, s2).0, closing + AttemptConnection(v, env, s2).1)
    ensures Disciplined(v, s, r.0, r.1)
  {
    if !env.browser then (s, [])
    else
      var (s1, closing) := DisconnectStep(s);
      var s2 := s1.(projectId := Some(projectId), reconnectAttempts := 0, error := None);
      var (s3, opening) := AttemptConnection(v, env, s2);
      OpenedClosedConcat(closing, opening);
      (s3, closing + opening)
  }

  /** The `onmessage` handlers of both transports: a parsed message is
      published unless its type is `heartbeat`; an unparseable one is dropped. */
  function OnMessage(s: State, parsed: Option<Message>): (r: (State, seq<Effect>))
    ensures r.0 == s
    ensures parsed.Some? && parsed.value.kind != "heartbeat" ==> r.1 == [Publish(parsed.value)]
    ensures parsed.None? || parsed.value.kind == "heartbeat" ==> r.1 == []
  {
    match parsed
    case None => (s, [])
    case Some(m) => if m.kind == "heartbeat" then (s, []) else (s, [Publish(m)])
  }

  /** The `onopen` handlers of both transports. */
  function OnOpen(s: State): (r: State)
    ensures r.connected && r.error.None? && r.reconnectAttempts == 0
    ensures r.(connected := s.connected, error := s.error, reconnectAttempts := s.reconnectAttempts) == s
  {
    s.(connected := true, error := None, reconnectAttempts := 0)
  }

  /** The WebSocket `onclose` handler: a normal closure only clears the
      connected flag; any other code reconnects while attempts remain and
      otherwise falls back to SSE for good. */
  function OnWsClose(v: Variant, env: Env, s: State, code: int): (r: (State, seq<Effect>))
    ensures !r.0.connected || code != NormalClosure
    ensures code == NormalClosure ==> r == (s.(connected := false), [])
    ensures code != NormalClosure && s.reconnectAttempts < MaxReconnectAttempts ==>
              r == HandleReconnect(s.(connected := false))
    ensures code != NormalClosure && s.reconnectAttempts >= MaxReconnectAttempts ==>
              r == ConnectSSE(v, env, s.(connected := false, useWebSocket := false))
    ensures Disciplined(v, s, r.0, r.1)
  {
    var s1 := s.(connected := false);
    if code == NormalClosure then (s1, [])
    else if s.reconnectAttempts < MaxReconnectAttempts then HandleReconnect(s1)
    else ConnectSSE(v, env, s1.(useWebSocket := false))
  }

  /** One input applied to the store. */
  function Step(v: Variant, env: Env, s: State, input: Input): (r: (State, seq<Effect>))
    ensures r.0.useWebSocket ==> s.useWebSocket
    ensures s.reconnectAttempts <= MaxReconnectAttempts ==> r.0.reconnectAttempts <= MaxReconnectAttempts
    ensures BackoffIsLinear(r.1, r.0.reconnectAttempts)
    ensures forall i :: 0 <= i < |r.1| && r.1[i].Publish? ==>
              r.1[i].message.kind != "heartbeat"
              && (input.WsMessage? || input.SseMessage?) && input.parsed == Some(r.1[i].message)
    ensures Disciplined(v, s, r.0, r.1)
  {
    match input
    case Connect(p) => ConnectStep(v, env, s, p)
    case Disconnect => DisconnectStep(s)
    case WsOpen(_) => (OnOpen(s), [])
    case SseOpen(_) => (OnOpen(s), [])
    case WsMessage(_, parsed) => OnMessage(s, parsed)
    case SseMessage(_, parsed) => OnMessage(s, parsed)
    case WsClose(_, code) => OnWsClose(v, env, s, code)
    case WsError(_) =>
      var s1 := s.(connected := false, error := Some("WebSocket connection error"));
      ConnectSSE(v, env, s1.(useWebSocket := false))
    case SseError(_, closed) =>
      var s1 := s.(connected := false);
      if closed then HandleReconnect(s1) else (s1, [])
    case ReconnectTimer =>
      if HasProject(s) then AttemptConnection(v, env, s) else (s, [])
  }

  /** `send(message)`: true iff the connection is a WebSocket whose
      `readyState` is OPEN (`isBidirectional()` is the same test). */
  function Send(s: State, readyStateOpen: bool): (r: bool)
    ensures r ==> s.connection.Some?
    ensures r <==> GetConnectionType(s) == "websocket" && readyStateOpen
  {
    s.connection.Some? && s.connection.value.transport == WebSocket && readyStateOpen
  }

  /** `getConnectionType()`. */
  function GetConnectionType(s: State): (r: string)
    ensures r == "disconnected" <==> s.connection.None?
    ensures r == "websocket" <==> s.connection.Some? && s.connection.value.transport == WebSocket
    ensures r == "sse" <==> s.connection.Some? && s.connection.value.transport == EventSource
  {
    match s.connection
    case None => "disconnected"
    case Some(c) =>
      match c.transport
      case WebSocket => "websocket"
      case EventSource => "sse"
  }

  // ---------------------------------------------------------------------------
  // Properties of single steps

  /** In a browser, connecting first closes the existing connection, then
      sets the project and resets the attempt counter; the error is cleared
      unless the EventSource constructor throws. */
  lemma ConnectResets(v: Variant, env: Env, s: State, p: string)
    requires env.browser
    ensures var (s', effects) := Step(v, env, s, Connect(p));
            && s'.projectId == Some(p) && s'.reconnectAttempts == 0
            && (s'.error.None? || s'.error == Some("Failed to establish connection"))
            && (s.connection.Some? ==> |effects| > 0 && effects[0] == CloseEffect(s.connection.value))
            && (s.connection.None? && s.useWebSocket == false && p == "" ==> effects == [])
  {
  }

  /** A session token in the cookie and a WebSocket preference make `connect`
      close the previous connection first, then open a WebSocket to the
      project with that token. */
  lemma ConnectOpensWebSocket(v: Variant, env: Env, s: State, p: string, token: string)
    requires env.browser && !env.webSocketThrows && p != "" && s.useWebSocket
    requires SessionToken(env.cookieRows) == Some(token)
    ensures var (s', effects) := Step(v, env, s, Connect(p));
            && s'.projectId == Some(p) && s'.reconnectAttempts == 0 && s'.error.None?
            && s'.connection == Some(Conn(WebSocket, s.nextHandle))
            && effects[|effects| - 1] == OpenWebSocket(s.nextHandle, WebSocketUrl(env, p, token))
            && (s.connection.Some? ==> effects[0] == CloseEffect(s.connection.value))
  {
  }

  /** An open event on either transport marks the store connected with no
      error and a fresh attempt counter, and emits nothing. */
  lemma OpenResets(v: Variant, env: Env, s: State, h: nat)
    ensures var (s1, e1) := Step(v, env, s, WsOpen(h));
            var (s2, e2) := Step(v, env, s, SseOpen(h));
            s1 == s2 && e1 == e2 == []
            && s1.connected && s1.error.None? && s1.reconnectAttempts == 0
            && s1.connection == s.connection && s1.projectId == s.projectId
  {
  }

  /** A heartbeat is dropped and any other parsed message is published
      exactly once, on either transport. */
  lemma MessagesFiltered(v: Variant, env: Env, s: State, h: nat, m: Message)
    ensures Step(v, env, s, WsMessage(h, Some(m))) == Step(v, env, s, SseMessage(h, Some(m)))
    ensures m.kind == "heartbeat" ==> Step(v, env, s, WsMessage(h, Some(m))) == (s, [])
    ensures m.kind != "heartbeat" ==> Step(v, env, s, WsMessage(h, Some(m))) == (s, [Publish(m)])
  {
  }

  /** WebSocket closure: code 1000 never reconnects; another code schedules a
      reconnect after 5000 ms times the new attempt number while fewer than 5
      attempts were made, and otherwise switches to SSE permanently. */
  lemma WsCloseCases(v: Variant, env: Env, s: State, h: nat, code: int)
    ensures var (s', effects) := Step(v, env, s, WsClose(h, code));
            && !s'.connected
            && (code == NormalClosure ==> effects == [] && s' == s.(connected := false))
            && (code != NormalClosure && s.reconnectAttempts < MaxReconnectAttempts ==>
                  s'.reconnectAttempts == s.reconnectAttempts + 1
                  && effects == [ScheduleReconnect(ReconnectIntervalMs * (s.reconnectAttempts + 1))])
            && (code != NormalClosure && s.reconnectAttempts >= MaxReconnectAttempts ==>
                  !s'.useWebSocket
                  && (HasProject(s) && !env.eventSourceThrows ==> s'.connection.value.transport == EventSource))
  {
  }

  /** After the fifth attempt, reconnecting only reports the exhausted budget. */
  lemma ReconnectBudgetExhausted(v: Variant, env: Env, s: State, h: nat)
    requires s.reconnectAttempts >= MaxReconnectAttempts
    ensures Step(v, env, s, SseError(h, true)) ==
            (s.(connected := false, error := Some("Maximum reconnection attempts reached")), [])
  {
  }

  /** `disconnect()` is idempotent, and a reconnect timer that fires after it
      does nothing (when a connection existed, so the project was cleared). */
  lemma DisconnectIdempotent(v: Variant, env: Env, s: State)
    ensures var (s1, _) := Step(v, env, s, Disconnect);
            Step(v, env, s1, Disconnect) == (s1, [])
    ensures s.connection.Some? ==>
              var (s1, _) := Step(v, env, s, Disconnect);
              Step(v, env, s1, ReconnectTimer) == (s1, [])
  {
  }

  // ---------------------------------------------------------------------------
  // Traces

  /** The inputs applied in order: the final state and all effects, in order. */
  function Run(v: Variant, env: Env, s: State, inputs: seq<Input>): (r: (State, seq<Effect>))
    decreases |inputs|
  {
    if |inputs| == 0 then (s, [])
    else
      var (s1, e1) := Step(v, env, s, inputs[0]);
      var (s2, e2) := Run(v, env, s1, inputs[1..]);
      (s2, e1 + e2)
  }

  /** A step's reconnect delays are those of its attempt number. */
  lemma LinearIsBounded(effects: seq<Effect>, attempts: nat)
    requires BackoffIsLinear(effects, attempts)
    ensures BackoffBounded(effects)
  {
    forall i | 0 <= i < |effects| && effects[i].ScheduleReconnect?
      ensures exists attempt :: 1 <= attempt <= MaxReconnectAttempts && effects[i].delayMs == BackoffDelay(attempt)
    {
      assert effects[i].delayMs == BackoffDelay(attempts);
    }
  }

  /** Over any run: WebSocket is never preferred again once abandoned, the
      attempt counter never exceeds 5, every scheduled reconnect waits
      5000 ms times an attempt number from 1 to 5, and no heartbeat is ever
      published. */
  lemma {:induction false} RunInvariants(v: Variant, env: Env, s: State, inputs: seq<Input>)
    requires s.reconnectAttempts <= MaxReconnectAttempts
    ensures var (s', effects) := Run(v, env, s, inputs);
            && (s'.useWebSocket ==> s.useWebSocket)
            && s'.reconnectAttempts <= MaxReconnectAttempts
            && BackoffBounded(effects)
            && (forall i :: 0 <= i < |effects| && effects[i].Publish? ==> effects[i].message.kind != "heartbeat")
    decreases |inputs|
  {
    if |inputs| > 0 {
      var (s1, e1) := Step(v, env, s, inputs[0]);
      RunInvariants(v, env, s1, inputs[1..]);
      var (s2, e2) := Run(v, env, s1, inputs[1..]);
      assert Run(v, env, s, inputs) == (s2, e1 + e2);
      LinearIsBounded(e1, s1.reconnectAttempts);
      forall i | 0 <= i < |e1 + e2|
        ensures (e1 + e2)[i].Publish? ==> (e1 + e2)[i].message.kind != "heartbeat"
        ensures (e1 + e2)[i].ScheduleReconnect? ==>
                  exists attempt :: 1 <= attempt <= MaxReconnectAttempts && (e1 + e2)[i].delayMs == BackoffDelay(attempt)
      {
        if i < |e1| {
          assert (e1 + e2)[i] == e1[i];
        } else {
          assert (e1 + e2)[i] == e2[i - |e1|];
        }
      }
    }
  }

  // ---------------------------------------------------------------------------
  // Live transports

  /** Handles the environment closes: a WebSocket whose close event fires and
      an EventSource that reports itself CLOSED. */
  function EnvClosed(input: Input): set<nat> {
    match input
    case WsClose(h, _) => {h}
    case SseError(h, closed) => if closed then {h} else {}
    case _ => {}
  }

  /** The handles of the transports the effects open. */
  function Opened(effects: seq<Effect>): set<nat> {
    if |effects| == 0 then {}
    else (if effects[0].IsOpen() then {effects[0].handle} else {}) + Opened(effects[1..])
  }

  /** The handles of the transports the effects close. */
  function Closed(effects: seq<Effect>): set<nat> {
    if |effects| == 0 then {}
    else (if effects[0].IsClose() then {effects[0].handle} else {}) + Closed(effects[1..])
  }

  lemma {:induction false} OpenedClosedConcat(a: seq<Effect>, b: seq<Effect>)
    ensures Opened(a + b) == Opened(a) + Opened(b)
    ensures Closed(a + b) == Closed(a) + Closed(b)
    decreases |a|
  {
    if |a| > 0 {
      assert (a + b)[1..] == a[1..] + b;
      OpenedClosedConcat(a[1..], b);
    } else {
      assert a + b == b;
    }
  }

  /** The transports still open after a step: those open before, less the
      ones the environment or the store closed, plus the ones opened. */
  function NextLive(live: set<nat>, input: Input, effects: seq<Effect>): set<nat> {
    (live - EnvClosed(input) - Closed(effects)) + Opened(effects)
  }

  /** The inputs applied in order, tracking the live transports. */
  function Live(v: Variant, env: Env, s: State, live: set<nat>, inputs: seq<Input>): (r: (State, set<nat>))
    decreases |inputs|
  {
    if |inputs| == 0 then (s, live)
    else
      var (s1, effects) := Step(v, env, s, inputs[0]);
      Live(v, env, s1, NextLive(live, inputs[0], effects), inputs[1..])
  }

  /** Every live transport is the store's current connection. */
  predicate OnlyCurrentLive(s: State, live: set<nat>) {
    forall h :: h in live ==> s.connection.Some? && s.connection.value.handle == h
  }

  /** A reconnect that outlives a new connect. The `session` cookie is
      HttpOnly, so `document.cookie` never shows the token and the store
      falls back to SSE at once. Its EventSource fails and reports CLOSED, so
      a reconnect is scheduled; the page connects again (closing that
      EventSource and opening a second); then the old timer fires. */
  function RestartTrace(p: string): seq<Input> {
    [Connect(p), SseError(0, true), Connect(p), ReconnectTimer]
  }

  /** The store after each input of the restart sequence, as written. */
  function RestartState(k: nat): State {
    if k == 0 then Initial
    else if k == 1 then State(Some(Conn(EventSource, 0)), Some("p"), 0, false, false, None, 1)
    else if k == 2 then State(Some(Conn(EventSource, 0)), Some("p"), 1, false, false, Some(ReconnectingMessage(1)), 1)
    else if k == 3 then State(Some(Conn(EventSource, 1)), Some("p"), 0, false, false, None, 2)
    else State(Some(Conn(EventSource, 2)), Some("p"), 0, false, false, None, 3)
  }

  /** A browser page whose cookie string shows no session token and whose
      EventSource constructor succeeds. */
  predicate TokenlessBrowser(env: Env) {
    env.browser && !env.eventSourceThrows && SessionToken(env.cookieRows).None?
  }

  lemma RestartStep1(env: Env)
    requires TokenlessBrowser(env)
    ensures var (s, e) := Step(AsWritten, env, Initial, Connect("p"));
            s == RestartState(1) && Opened(e) == {0} && Closed(e) == {}
  {
    var (s, e) := Step(AsWritten, env, Initial, Connect("p"));
    assert e == [OpenEventSource(0, EventSourceUrl("p"))];
  }

  lemma RestartStep2(env: Env)
    ensures var (s, e) := Step(AsWritten, env, RestartState(1), SseError(0, true));
            s == RestartState(2) && Opened(e) == {} && Closed(e) == {}
  {
    var (s, e) := Step(AsWritten, env, RestartState(1), SseError(0, true));
    assert e == [ScheduleReconnect(5000)];
  }

  lemma RestartStep3(env: Env)
    requires TokenlessBrowser(env)
    ensures var (s, e) := Step(AsWritten, env, RestartState(2), Connect("p"));
            s == RestartState(3) && Opened(e) == {1} && Closed(e) == {0}
  {
    var (s, e) := Step(AsWritten, env, RestartState(2), Connect("p"));
    assert e == [CloseEventSource(0)] + [OpenEventSource(1, EventSourceUrl("p"))];
    OpenedClosedConcat([CloseEventSource(0)], [OpenEventSource(1, EventSourceUrl("p"))]);
  }

  lemma RestartStep4(env: Env)
    requires TokenlessBrowser(env)
    ensures var (s, e) := Step(AsWritten, env, RestartState(3), ReconnectTimer);
            s == RestartState(4) && Opened(e) == {2} && Closed(e) == {}
  {
    var (s, e) := Step(AsWritten, env, RestartState(3), ReconnectTimer);
    assert e == [OpenEventSource(2, EventSourceUrl("p"))];
  }

  /** As written, the restart sequence leaves two EventSources open: the one
      the second connect opened and the one the stale reconnect opened, which
      replaced it as the store's connection without closing it. Both keep
      delivering events. */
  lemma OrphanedEventSourceAsWritten(env: Env)
    requires TokenlessBrowser(env)
    ensures var (s, live) := Live(AsWritten, env, Initial, {}, RestartTrace("p"));
            live == {1, 2} && s.connection == Some(Conn(EventSource, 2)) && !OnlyCurrentLive(s, live)
  {
    var v := AsWritten;
    var t := RestartTrace("p");
    RestartStep1(env);
    RestartStep2(env);
    RestartStep3(env);
    RestartStep4(env);
    assert NextLive({}, t[0], Step(v, env, Initial, t[0]).1) == {0};
    assert Live(v, env, Initial, {}, t) == Live(v, env, RestartState(1), {0}, t[1..]);
    var s1 := RestartState(1);
    assert NextLive({0}, t[1], Step(v, env, s1, t[1]).1) == {};
    assert Live(v, env, s1, {0}, t[1..]) == Live(v, env, RestartState(2), {}, t[2..]);
    var s2 := RestartState(2);
    assert NextLive({}, t[2], Step(v, env, s2, t[2]).1) == {1};
    assert Live(v, env, s2, {}, t[2..]) == Live(v, env, RestartState(3), {1}, t[3..]);
    var s3 := RestartState(3);
    assert NextLive({1}, t[3], Step(v, env, s3, t[3]).1) == {1, 2};
    assert Live(v, env, s3, {1}, t[3..]) == Live(v, env, RestartState(4), {1, 2}, t[4..]);
    assert t[4..] == [];
  }

  lemma CorrectedStepKeepsOnlyCurrentLive(env: Env, s: State, live: set<nat>, input: Input)
    requires OnlyCurrentLive(s, live)
    ensures var (s', effects) := Step(Corrected, env, s, input);
            OnlyCurrentLive(s', NextLive(live, input, effects))
  {
    var (s', effects) := Step(Corrected, env, s, input);
    if s'.connection != s.connection {
      assert s.connection.Some? ==> s.connection.value.handle in Closed(effects);
    }
  }

  /** Corrected, every transport the store has opened and not seen closed is
      its current connection, whatever the inputs: at most one is live. */
  lemma {:induction false} AtMostOneLiveTransport(env: Env, s: State, live: set<nat>, inputs: seq<Input>)
    requires OnlyCurrentLive(s, live)
    ensures var (s', live') := Live(Corrected, env, s, live, inputs);
            OnlyCurrentLive(s', live') && |live'| <= 1
    decreases |inputs|
  {
    if |inputs| > 0 {
      var (s1, effects) := Step(Corrected, env, s, inputs[0]);
      CorrectedStepKeepsOnlyCurrentLive(env, s, live, inputs[0]);
      AtMostOneLiveTransport(env, s1, NextLive(live, inputs[0], effects), inputs[1..]);
    } else if s.connection.Some? {
      var h := s.connection.value.handle;
      assert live == {} || live == {h} by {
        if live != {} {
          assert forall k :: k in live <==> k == h;
        }
      }
    } else {
      assert live == {};
    }
  }
}

=== FILE: date.dfy ===
/** `formatRelativeTime` of src/lib/utils/date.ts: the age of a date in the
    largest whole unit, from years down to minutes, or "Just now". Times are
    integer milliseconds since the epoch; the current time is a parameter. */
module Date {
  import opened Wrappers
  import Text

  datatype Unit = Year | Month | Week | Day | Hour | Minute

  /** The units in the order they are tried. */
  const Units: seq<Unit> := [Year, Month, Week, Day, Hour, Minute]

  /** Length of a unit in seconds (a year is 365 days, a month 30). */
  function Seconds(u: Unit): (n: nat)
    ensures n >= 60
  {
    match u
    case Year => 31536000
    case Month => 2592000
    case Week => 604800
    case Day => 86400
    case Hour => 3600
    case Minute => 60
  }

  function Name(u: Unit): string {
    match u
    case Year => "year"
    case Month => "month"
    case Week => "week"
    case Day => "day"
    case Hour => "hour"
    case Minute => "minute"
  }

  /** `Math.floor((now - date) / 1000)`: whole seconds elapsed, rounded down
      also for dates in the future. */
  function DiffInSeconds(nowMs: int, dateMs: int): (d: int)
    ensures d * 1000 <= nowMs - dateMs < d * 1000 + 1000
  {
    (nowMs - dateMs) / 1000
  }

  /** The position in `units` of the first unit that fits at least once into
      `diff` seconds. */
  function FirstFit(units: seq<Unit>, diff: int): (r: Option<nat>)
    ensures r.Some? ==> r.value < |units| && diff / Seconds(units[r.value]) >= 1
    ensures r.Some? ==> forall j :: 0 <= j < r.value ==> diff / Seconds(units[j]) < 1
    ensures r.None? ==> forall j :: 0 <= j < |units| ==> diff / Seconds(units[j]) < 1
  {
    if |units| == 0 then None
    else if diff / Seconds(units[0]) >= 1 then Some(0)
    else match FirstFit(units[1..], diff)
      case None => None
      case Some(i) => Some(i + 1)
  }

  /** The unit `formatRelativeTime` reports for `diff` seconds, if any. */
  function UnitFor(diff: int): (r: Option<Unit>)
    ensures r.Some? ==> diff / Seconds(r.value) >= 1
  {
    match FirstFit(Units, diff)
    case None => None
    case Some(i) => Some(Units[i])
  }

  /** `n unit ago`, with a plural `s` exactly when n > 1. */
  function Phrase(n: nat, u: Unit): string {
    Text.NatToString(n) + " " + Name(u) + (if n > 1 then "s" else "") + " ago"
  }

  /** `formatRelativeTime(date)` at time `nowMs`; `None` is a date string
      that does not parse, whose time is NaN and fits no unit. */
  function FormatRelativeTime(nowMs: int, dateMs: Option<int>): (r: string)
    ensures dateMs.None? ==> r == "Just now"
    ensures dateMs.Some? && DiffInSeconds(nowMs, dateMs.value) < 60 ==> r == "Just now"
    ensures dateMs.Some? && DiffInSeconds(nowMs, dateMs.value) >= 60 ==>
              var diff := DiffInSeconds(nowMs, dateMs.value);
              UnitFor(diff).Some? && r == Phrase(diff / Seconds(UnitFor(diff).value), UnitFor(diff).value)
  {
    if dateMs.None? then "Just now"
    else
      var diff := DiffInSeconds(nowMs, dateMs.value);
      UnitFoundFromAMinute(diff);
      match UnitFor(diff)
      case None => "Just now"
      case Some(u) => Phrase(diff / Seconds(u), u)
  }

  /** A unit is found exactly from one minute on. */
  lemma UnitFoundFromAMinute(diff: int)
    ensures UnitFor(diff).Some? <==> diff >= 60
  {
    assert Units[5] == Minute;
    if diff >= 60 {
      assert diff / Seconds(Units[5]) >= 1;
    } else {
      assert forall j :: 0 <= j < |Units| ==> diff / Seconds(Units[j]) < 1;
    }
  }

  /** Units are tried from the largest down. */
  lemma UnitsDescending()
    ensures forall i, j :: 0 <= i < j < |Units| ==> Seconds(Units[i]) > Seconds(Units[j])
  {
  }

  /** Reference characterisation: from a minute on, the reported unit is the
      largest unit not longer than the elapsed time, every larger unit has a
      quotient of 0, and the reported count is at least 1. */
  lemma UnitIsLargestFitting(diff: int)
    requires diff >= 60
    ensures UnitFor(diff).Some?
    ensures var u := UnitFor(diff).value;
            && Seconds(u) <= diff
            && diff / Seconds(u) >= 1
            && (forall i :: 0 <= i < |Units| && Seconds(Units[i]) > Seconds(u) ==>
                  Seconds(Units[i]) > diff && diff / Seconds(Units[i]) == 0)
  {
    var r := FirstFit(Units, diff);
    assert Units[5] == Minute && diff / Seconds(Minute) >= 1;
    assert r.Some?;
    var k := r.value;
    var u := Units[k];
    UnitsDescending();
    forall i | 0 <= i < |Units| && Seconds(Units[i]) > Seconds(u)
      ensures Seconds(Units[i]) > diff && diff / Seconds(Units[i]) == 0
    {
      assert i < k;
    }
  }

  lemma TwoDaysUnit()
    ensures UnitFor(172800) == Some(Day)
  {
    assert Units[3] == Day;
    assert 172800 / Seconds(Units[3]) == 2;
    assert forall j :: 0 <= j < 3 ==> 172800 / Seconds(Units[j]) == 0;
    var r := FirstFit(Units, 172800);
    assert r.Some? && r.value >= 3;
  }

  lemma PhraseTwoDays()
    ensures Phrase(2, Day) == "2 days ago"
  {
    assert Text.NatToString(2) == "2";
  }

  /** An age of two days and a fraction of a second reads "2 days ago". */
  lemma TwoDays()
    ensures FormatRelativeTime(2 * 86400 * 1000 + 999, Some(0)) == "2 days ago"
  {
    assert DiffInSeconds(2 * 86400 * 1000 + 999, 0) == 172800;
    TwoDaysUnit();
    assert 172800 / Seconds(Day) == 2;
    PhraseTwoDays();
  }
}

=== FILE: db.dfy ===
/** The database as the route handlers see it: an immutable snapshot of the
    tables they read and write, rows in insertion order. Queries by a unique
    key return the first matching row. */
module Db {
  import opened Wrappers
  import Seqs

  /** The `Role` enum: 'User' or 'Admin'. */
  datatype Role = UserRole | AdminRole

  function RoleName(r: Role): string {
    match r
    case UserRole => "User"
    case AdminRole => "Admin"
  }

  /** A user row; `password` is the argon2 hash, never the clear text. */
  datatype User = User(
    id: string,
    name: string,
    email: string,
    password: string,
    contactNumber: string,
    role: Role,
    emailVerified: bool,
    verificationToken: Option<string>,
    avatar: Option<string>,
    profilePictureUrl: Option<string>,
    createdAt: int)

  datatype Project = Project(id: string, name: string, description: Option<string>, createdBy: string, createdAt: int)

  /** A task; `status` holds the enum name ('Todo', 'InProgress', ...) and
      `priority` the integer level. */
  datatype Task = Task(
    id: string,
    title: string,
    description: Option<string>,
    status: string,
    priority: int,
    projectId: string,
    userId: string,
    createdAt: int,
    updatedAt: int)

  /** An uploaded file, attached to a project, a task, or both; `path` is its
      object name in storage. */
  datatype StoredFile = StoredFile(id: string, name: string, path: string, projectId: Option<string>, taskId: Option<string>, uploadedAt: int)

  datatype Member = Member(projectId: string, userId: string)

  datatype Message = Message(id: string, projectId: string, createdAt: int)

  datatype Db = Db(
    users: seq<User>,
    projects: seq<Project>,
    tasks: seq<Task>,
    files: seq<StoredFile>,
    members: seq<Member>,
    messages: seq<Message>)

  /** The first row satisfying `p`, as a `findFirst` (or a `findUnique` on
      a unique column) returns it. */
  function FindFirst<T>(rows: seq<T>, p: T -> bool): (r: Option<T>)
    ensures r.Some? ==> r.value in rows && p(r.value)
    ensures r.None? <==> forall i :: 0 <= i < |rows| ==> !p(rows[i])
  {
    if |rows| == 0 then None
    else if p(rows[0]) then Some(rows[0])
    else FindFirst(rows[1..], p)
  }

  /** `user.findUnique({ where: { email } })`. */
  function FindUserByEmail(users: seq<User>, email: string): (r: Option<User>)
    ensures r.Some? ==> r.value in users && r.value.email == email
    ensures r.None? <==> forall i :: 0 <= i < |users| ==> users[i].email != email
  {
    FindFirst(users, (u: User) => u.email == email)
  }

  /** `user.findUnique({ where: { id } })`. */
  function FindUserById(users: seq<User>, id: string): (r: Option<User>)
    ensures r.Some? ==> r.value in users && r.value.id == id
    ensures r.None? <==> forall i :: 0 <= i < |users| ==> users[i].id != id
  {
    FindFirst(users, (u: User) => u.id == id)
  }

  /** `project.findUnique({ where: { id } })`. */
  function FindProjectById(projects: seq<Project>, id: string): (r: Option<Project>)
    ensures r.Some? ==> r.value in projects && r.value.id == id
    ensures r.None? <==> forall i :: 0 <= i < |projects| ==> projects[i].id != id
  {
    FindFirst(projects, (p: Project) => p.id == id)
  }

  /** `user.update({ where: { id }, data })`: the row with that id is
      replaced by `f` of itself; every other row is kept, in place. */
  function UpdateUser(users: seq<User>, id: string, f: User -> User): (r: seq<User>)
    ensures |r| == |users|
    ensures forall i :: 0 <= i < |users| ==> r[i] == if users[i].id == id then f(users[i]) else users[i]
  {
    seq(|users|, i requires 0 <= i < |users| => if users[i].id == id then f(users[i]) else users[i])
  }

  /** The relation counts a project is listed with (`_count`). */
  datatype Counts = Counts(tasks: nat, files: nat, messages: nat)

  function CountsOf(db: Db, projectId: string): (c: Counts)
    ensures c.tasks <= |db.tasks| && c.files <= |db.files| && c.messages <= |db.messages|
  {
    Counts(Seqs.Count(db.tasks, (t: Task) => t.projectId == projectId),
           Seqs.Count(db.files, (f: StoredFile) => f.projectId == Some(projectId)),
           Seqs.Count(db.messages, (m: Message) => m.projectId == projectId))
  }

  /** `getPublicURL(objectName)` of src/lib/server/minio.ts: the storage host,
      the bucket and the object name joined by '/'. */
  function PublicUrl(host: string, bucket: string, objectName: string): (url: string)
    ensures |url| == |host| + |bucket| + |objectName| + 2
    ensures url[..|host|] == host && url[|url| - |objectName|..] == objectName
  {
    host + "/" + bucket + "/" + objectName
  }

  /** The guard of every admin handler: a signed-in user whose role is
      'Admin'. */
  predicate IsAdmin(actor: Option<User>) {
    actor.Some? && actor.value.role == AdminRole
  }
}

=== FILE: http.dfy ===
/** What a request handler answers: a JSON body with a status, or a redirect.
    Error bodies `{ error: true, message }` are represented by their status
    and message list; a handler whose message is a single string has a
    one-element list. */
module Http {

  datatype Reply<T> =
    | Success(status: nat, payload: T)
    | Failure(status: nat, messages: seq<string>)
    | Redirect(status: nat, location: string)
  {
    function Status(): nat {
      match this
      case Success(s, _) => s
      case Failure(s, _) => s
      case Redirect(s, _) => s
    }
  }

  /** `json({ error: true, message }, { status })` with one message. */
  function Error<T>(status: nat, message: string): Reply<T> {
    Failure(status, [message])
  }
}

=== FILE: js.dfy ===
/** JavaScript values as they reach the application: parsed JSON request
    bodies and thrown values. Properties of an object include the ones it
    inherits (so a `Response` has `status`). */
module Js {

  datatype JsValue =
    | Undefined
    | Null
    | Bool(b: bool)
    | Number(x: real)
    | NaN
    | Str(s: string)
    | Array(items: seq<JsValue>)
    | Object(props: map<string, JsValue>, isResponse: bool)

  /** JavaScript truthiness: `undefined`, `null`, `false`, `0`, `NaN` and `""`
      are falsy; every object and array is truthy. */
  predicate Truthy(v: JsValue) {
    match v
    case Undefined => false
    case Null => false
    case Bool(b) => b
    case Number(x) => x != 0.0
    case NaN => false
    case Str(s) => s != ""
    case Array(_) => true
    case Object(_, _) => true
  }

  /** `v == null`: `null` or `undefined`. */
  predicate IsNullish(v: JsValue) {
    v.Undefined? || v.Null?
  }

  /** `key in v` for an object. */
  predicate Has(v: JsValue, key: string) {
    v.Object? && key in v.props
  }

  /** `v[key]`, `undefined` when absent. */
  function Get(v: JsValue, key: string): JsValue {
    if Has(v, key) then v.props[key] else Undefined
  }

  /** `typeof v === 'object'`: `null`, arrays and objects. */
  predicate TypeofObject(v: JsValue) {
    v.Null? || v.Array? || v.Object?
  }

  /** An object literal with the given own properties. */
  function Literal(props: map<string, JsValue>): JsValue {
    Object(props, false)
  }
}

=== FILE: logger.dfy ===
/** The log-line format and level gating of src/lib/utils/logger.ts. The
    timestamp (`new Date().toISOString()`) and `NODE_ENV` are parameters. */
module Logger {
  import opened Wrappers
  import Text

  datatype Level = Debug | Info | Warn | Error

  function LevelName(l: Level): string {
    match l
    case Debug => "debug"
    case Info => "info"
    case Warn => "warn"
    case Error => "error"
  }

  /** `level.toUpperCase().padEnd(5)`. */
  function LevelTag(l: Level): (tag: string)
    ensures |tag| == 5
  {
    Text.PadEnd(Text.ToUpper(LevelName(l)), 5)
  }

  /** The four tags: the upper-cased name, padded to five characters. */
  lemma LevelTagValues(l: Level)
    ensures LevelTag(l) == match l
                           case Debug => "DEBUG"
                           case Info => "INFO "
                           case Warn => "WARN "
                           case Error => "ERROR"
  {
  }

  /** `formatMessage(level, context, message)` with timestamp `ts`. */
  function FormatMessage(l: Level, ts: string, context: string, message: string): (line: string)
    ensures |line| == |ts| + |context| + |message| + 12
    ensures line[|line| - |message|..] == message
  {
    "[" + ts + "] " + LevelTag(l) + " [" + context + "] " + message
  }

  /** The parts of a log line. */
  datatype LogLine = LogLine(ts: string, level: Level, context: string, message: string)

  /** The level whose tag is `tag`, if any. */
  function LevelOfTag(tag: string): (r: Option<Level>)
    ensures r.Some? ==> LevelTag(r.value) == tag
  {
    if tag == "DEBUG" then Some(Debug)
    else if tag == "INFO " then Some(Info)
    else if tag == "WARN " then Some(Warn)
    else if tag == "ERROR" then Some(Error)
    else None
  }

  /** The text before and after the first `c` in `s`, if there is one. */
  function SplitAtFirst(s: string, c: char): (r: Option<(string, string)>)
    ensures r.Some? ==> s == r.value.0 + [c] + r.value.1 && c !in r.value.0
    ensures r.None? <==> c !in s
  {
    match Text.IndexOfChar(s, c)
    case None => None
    case Some(i) =>
      assert s == s[..i] + [c] + s[i + 1..];
      Some((s[..i], s[i + 1..]))
  }

  lemma SplitAtFirstOf(a: string, c: char, b: string)
    requires c !in a
    ensures SplitAtFirst(a + [c] + b, c) == Some((a, b))
  {
    Text.IndexOfCharAfter(a, c, b);
    var s := a + [c] + b;
    assert s[..|a|] == a && s[|a| + 1..] == b;
  }

  /** Reads a log line back: the timestamp in brackets, a space, the five
      character tag, the context in brackets, a space, and the rest as the
      message. */
  function ParseLine(line: string): Option<LogLine> {
    if |line| == 0 || line[0] != '[' then None
    else match SplitAtFirst(line[1..], ']')
      case None => None
      case Some((ts, after)) => ParseAfterTimestamp(ts, after)
  }

  /** The part of a line after the timestamp's closing bracket. */
  function ParseAfterTimestamp(ts: string, after: string): Option<LogLine> {
    if |after| < 8 || after[0] != ' ' || after[6] != ' ' || after[7] != '[' then None
    else match SplitAtFirst(after[8..], ']')
      case None => None
      case Some((context, last)) =>
        if |last| == 0 || last[0] != ' ' then None
        else match LevelOfTag(after[1..6])
          case None => None
          case Some(l) => Some(LogLine(ts, l, context, last[1..]))
  }

  lemma LevelOfLevelTag(l: Level)
    ensures LevelOfTag(LevelTag(l)) == Some(l)
  {
    LevelTagValues(l);
  }

  lemma ParseAfterTag(tag: string, l: Level, ts: string, context: string, message: string)
    requires |tag| == 5 && LevelOfTag(tag) == Some(l) && ']' !in context
    ensures ParseAfterTimestamp(ts, " " + tag + " [" + context + "] " + message)
              == Some(LogLine(ts, l, context, message))
  {
    var after := " " + tag + " [" + context + "] " + message;
    var tail := context + [']'] + (" " + message);
    assert after[0] == ' ' && after[6] == ' ' && after[7] == '[';
    assert after[8..] == tail && after[1..6] == tag;
    SplitAtFirstOf(context, ']', " " + message);
    assert (" " + message)[1..] == message;
  }

  lemma ParseAfterFormatted(l: Level, ts: string, context: string, message: string)
    requires ']' !in context
    ensures ParseAfterTimestamp(ts, " " + LevelTag(l) + " [" + context + "] " + message)
              == Some(LogLine(ts, l, context, message))
  {
    LevelOfLevelTag(l);
    ParseAfterTag(LevelTag(l), l, ts, context, message);
  }

  /** Round trip: a formatted line reads back as its timestamp, level,
      context and message, provided the timestamp and context hold no ']'
      (an ISO-8601 timestamp never does). The message is arbitrary. */
  lemma ParseFormatted(l: Level, ts: string, context: string, message: string)
    requires ']' !in ts && ']' !in context
    ensures ParseLine(FormatMessage(l, ts, context, message)) == Some(LogLine(ts, l, context, message))
  {
    var line := FormatMessage(l, ts, context, message);
    var after := " " + LevelTag(l) + " [" + context + "] " + message;
    assert line[1..] == ts + [']'] + after;
    SplitAtFirstOf(ts, ']', after);
    ParseAfterFormatted(l, ts, context, message);
  }

  /** The console method a line is written with. */
  datatype Channel = ConsoleLog | ConsoleWarn | ConsoleError

  /** What `log(context)[level](message)` writes: debug only when
      `NODE_ENV` is 'development'; info, warn and error always, through
      console.log, console.warn and console.error. */
  function Emit(nodeEnv: string, l: Level, ts: string, context: string, message: string): (r: Option<(Channel, string)>)
    ensures r.None? <==> l == Debug && nodeEnv != "development"
    ensures r.Some? ==> r.value.1 == FormatMessage(l, ts, context, message)
    ensures r.Some? ==> (r.value.0 == ConsoleWarn <==> l == Warn) && (r.value.0 == ConsoleError <==> l == Error)
  {
    match l
    case Debug => if nodeEnv == "development" then Some((ConsoleLog, FormatMessage(l, ts, context, message))) else None
    case Info => Some((ConsoleLog, FormatMessage(l, ts, context, message)))
    case Warn => Some((ConsoleWarn, FormatMessage(l, ts, context, message)))
    case Error => Some((ConsoleError, FormatMessage(l, ts, context, message)))
  }
}

=== FILE: login.dfy ===
/** POST /api/login (src/routes/api/login/+server.ts): schema check, lookup
    by e-mail, password check, verified-e-mail check, then a new session and
    its cookie. argon2 verification, SHA-256, the random bytes and the clock
    are parameters. */
module LoginRoute {
  import opened Wrappers
  import opened Js
  import opened Db
  import opened Http
  import Schema
  import Text
  import Session

  const LoginSchema: seq<Schema.Field> := [
    Schema.StringField("email", Some("email_required"), [Schema.EmailFormat("email_invalid")]),
    Schema.StringField("password", Some("password_required"), [Schema.MinLength(6, "password_too_short")])
  ]

  /** The user as returned to the client: every column except `password`. */
  datatype PublicUser = PublicUser(
    id: string,
    name: string,
    email: string,
    contactNumber: string,
    role: Role,
    emailVerified: bool,
    verificationToken: Option<string>,
    avatar: Option<string>,
    profilePictureUrl: Option<string>,
    createdAt: int)

  function WithPassword(p: PublicUser, password: string): User {
    User(p.id, p.name, p.email, password, p.contactNumber, p.role, p.emailVerified, p.verificationToken, p.avatar, p.profilePictureUrl, p.createdAt)
  }

  /** `const { password: _, ...userWithoutPassword } = user`: the user minus
      exactly the password, so that putting the password back restores it. */
  function WithoutPassword(u: User): (p: PublicUser)
    ensures WithPassword(p, u.password) == u
  {
    PublicUser(u.id, u.name, u.email, u.contactNumber, u.role, u.emailVerified, u.verificationToken, u.avatar, u.profilePictureUrl, u.createdAt)
  }

  /** The e-mail address and password of a body the schema accepts. */
  function Credentials(body: JsValue, isEmail: string -> bool): (r: Option<(string, string)>)
    ensures r.Some? <==> Schema.Parse(LoginSchema, body, isEmail).Ok?
    ensures r.Some? ==> Get(body, "email") == Str(r.value.0) && isEmail(r.value.0)
    ensures r.Some? ==> Get(body, "password") == Str(r.value.1) && Text.Utf16Length(r.value.1) >= 6
  {
    match Schema.Parse(LoginSchema, body, isEmail)
    case Err(_) => None
    case Ok(values) =>
      Schema.ParsedValues(LoginSchema, body, isEmail, 0);
      Schema.ParsedValues(LoginSchema, body, isEmail, 1);
      assert Schema.ParseField(LoginSchema[0], Get(body, "email"), isEmail).Ok?;
      assert Schema.Passes(LoginSchema[0].checks[0], Get(body, "email").s, isEmail);
      assert Schema.ParseField(LoginSchema[1], Get(body, "password"), isEmail).Ok?;
      assert Schema.Passes(LoginSchema[1].checks[0], Get(body, "password").s, isEmail);
      Some((values["email"], values["password"]))
  }

  /** zod's `.min(6)` counts UTF-16 code units: a password of three emoji,
      three characters but six code units, is accepted. */
  lemma EmojiPasswordAccepted(email: string, isEmail: string -> bool)
    requires isEmail(email)
    ensures var password := "\U{1F600}\U{1F600}\U{1F600}";
            Credentials(Literal(map["email" := Str(email), "password" := Str(password)]), isEmail) == Some((email, password))
  {
    var password := "\U{1F600}\U{1F600}\U{1F600}";
    var body := Literal(map["email" := Str(email), "password" := Str(password)]);
    Text.ThreeEmojiAreSixUnits();
    assert Get(body, "email") == Str(email) && Get(body, "password") == Str(password);
    assert Schema.Passes(LoginSchema[0].checks[0], email, isEmail);
    assert Schema.Passes(LoginSchema[1].checks[0], password, isEmail);
    assert Schema.ParseField(LoginSchema[0], Get(body, "email"), isEmail).Ok?;
    assert Schema.ParseField(LoginSchema[1], Get(body, "password"), isEmail).Ok?;
    assert Schema.AllAccept(LoginSchema, body, isEmail);
  }

  /** The e-mail belongs to a user whose stored hash matches the password. */
  predicate Authentic(users: seq<User>, email: string, password: string, verifyPassword: (string, string) -> bool) {
    var found := FindUserByEmail(users, email);
    found.Some? && verifyPassword(found.value.password, password)
  }

  /** The foreign operations and inputs a login draws on. */
  datatype Services = Services(
    isEmail: string -> bool,
    verifyPassword: (string, string) -> bool,
    sha256: string -> Session.Digest,
    idBytes: seq<Session.Byte>,
    secretBytes: seq<Session.Byte>,
    now: int,
    nodeEnv: string)

  predicate ValidServices(s: Services) {
    |s.idBytes| == Session.RandomLength && |s.secretBytes| == Session.RandomLength
  }

  datatype Outcome = Outcome(reply: Reply<PublicUser>, sessions: Session.Store, cookies: Session.CookieJar)

  const InvalidCredentials: Reply<PublicUser> := Error(401, "invalid_credentials")

  /** `POST(request)` with `body` the parsed JSON (`None` when the body is
      not JSON, which `request.json()` throws on).

      An unknown address and a wrong password give the same 401; the
      verified-e-mail check comes only after the password check; a session
      is created and its cookie set only when all three pass, and the reply
      then carries the user without the password. */
  function Login(users: seq<User>, sessions: Session.Store, cookies: Session.CookieJar,
                 body: Option<JsValue>, s: Services): (r: Outcome)
    requires ValidServices(s)
    ensures body.None? ==> r.reply == Error(500, "internal_error")
    ensures body.Some? && Credentials(body.value, s.isEmail).None? ==>
              r.reply == Failure(400, Schema.FlattenFieldErrors(Schema.Parse(LoginSchema, body.value, s.isEmail).error))
    ensures r.reply.Status() == 401 ==> r.reply == InvalidCredentials
    ensures r.reply.Status() == 401 <==>
              body.Some? && Credentials(body.value, s.isEmail).Some? &&
              var (email, password) := Credentials(body.value, s.isEmail).value;
              !Authentic(users, email, password, s.verifyPassword)
    ensures r.reply.Status() == 403 <==>
              body.Some? && Credentials(body.value, s.isEmail).Some? &&
              var (email, password) := Credentials(body.value, s.isEmail).value;
              Authentic(users, email, password, s.verifyPassword) && !FindUserByEmail(users, email).value.emailVerified
    ensures r.reply.Success? <==>
              body.Some? && Credentials(body.value, s.isEmail).Some? &&
              var (email, password) := Credentials(body.value, s.isEmail).value;
              && Authentic(users, email, password, s.verifyPassword)
              && FindUserByEmail(users, email).value.emailVerified
              && Session.CreateSession(sessions, FindUserByEmail(users, email).value.id, s.idBytes, s.secretBytes, s.now, s.sha256).Ok?
    ensures body.Some? && Credentials(body.value, s.isEmail).Some? &&
            (var (email, password) := Credentials(body.value, s.isEmail).value;
             && Authentic(users, email, password, s.verifyPassword)
             && FindUserByEmail(users, email).value.emailVerified
             && Session.CreateSession(sessions, FindUserByEmail(users, email).value.id, s.idBytes, s.secretBytes, s.now, s.sha256).Err?) ==>
              r.reply == Error(500, "internal_error")
    ensures r.reply.Success? ==>
              body.Some? && Credentials(body.value, s.isEmail).Some? &&
              var (email, password) := Credentials(body.value, s.isEmail).value;
              var user := FindUserByEmail(users, email).value;
              && Authentic(users, email, password, s.verifyPassword) && user.emailVerified
              && r.reply.payload == WithoutPassword(user)
              && var created := Session.CreateSession(sessions, user.id, s.idBytes, s.secretBytes, s.now, s.sha256);
                 && created.Ok?
                 && r.sessions == created.value.1
                 && r.cookies == Session.SetSessionTokenCookie(cookies, created.value.0.token, s.nodeEnv)
    ensures !r.reply.Success? ==> r.sessions == sessions && r.cookies == cookies
  {
    if body.None? then Outcome(Error(500, "internal_error"), sessions, cookies)
    else match Schema.Parse(LoginSchema, body.value, s.isEmail)
      case Err(issues) => Outcome(Failure(400, Schema.FlattenFieldErrors(issues)), sessions, cookies)
      case Ok(_) =>
        var (email, password) := Credentials(body.value, s.isEmail).value;
        match FindUserByEmail(users, email)
        case None => Outcome(InvalidCredentials, sessions, cookies)
        case Some(user) =>
          if !s.verifyPassword(user.password, password) then Outcome(InvalidCredentials, sessions, cookies)
          else if !user.emailVerified then Outcome(Error(403, "email_not_verified"), sessions, cookies)
          else match Session.CreateSession(sessions, user.id, s.idBytes, s.secretBytes, s.now, s.sha256)
            case Err(_) => Outcome(Error(500, "internal_error"), sessions, cookies)
            case Ok((issued, sessions')) =>
              Outcome(Success(200, WithoutPassword(user)), sessions', Session.SetSessionTokenCookie(cookies, issued.token, s.nodeEnv))
  }

  /** The session a login creates is one the session layer accepts: the
      cookie's token validates, at any later time, to a session of the user
      who logged in. */
  lemma {:induction false} LoginThenValidate(users: seq<User>, sessions: Session.Store, cookies: Session.CookieJar,
                                             body: JsValue, s: Services, later: int)
    requires ValidServices(s)
    requires Login(users, sessions, cookies, Some(body), s).reply.Success?
    ensures var r := Login(users, sessions, cookies, Some(body), s);
            var key := Session.CookieKey(Session.SessionCookieName, "/");
            && key in r.cookies
            && var (found, _) := Session.ValidateSessionToken(r.sessions, r.cookies[key].value, later, s.sha256);
               found.Some? && found.value.userId == r.reply.payload.id
  {
    var r := Login(users, sessions, cookies, Some(body), s);
    var (email, password) := Credentials(body, s.isEmail).value;
    var user := FindUserByEmail(users, email).value;
    Session.CreateThenValidate(sessions, user.id, s.idBytes, s.secretBytes, s.now, later, s.sha256);
  }
}

=== FILE: logout.dfy ===
/** POST /api/logout (src/routes/api/logout/+server.ts): drops the session
    cookie and the session it names, clears the request's locals and
    redirects to the login page. */
module LogoutRoute {
  import opened Wrappers
  import Db
  import Http
  import Session
  import Text

  /** `event.locals`: the session and user the request was authenticated as. */
  datatype Locals = Locals(session: Option<Session.Session>, user: Option<Db.User>)

  datatype Outcome = Outcome(reply: Http.Reply<()>, sessions: Session.Store, cookies: Session.CookieJar, locals: Locals)

  /** `const [sessionId] = token.split('.')`: the text before the first '.',
      or the whole token when it has none. */
  function SessionIdOf(token: string): (id: string)
    ensures '.' !in id
    ensures |id| <= |token| && token[..|id|] == id
    ensures |id| < |token| ==> token[|id|] == '.'
  {
    Text.SplitHead(token, '.');
    Session.TokenSegments(token).0
  }

  /** `POST(cookies, locals)` with `token` the request's `session` cookie.

      With a cookie, the cookie is deleted and so is the session named by its
      id part; a failure to delete (no such session) is swallowed. The
      locals are cleared and the answer is a redirect to the login page in
      every case. */
  function Logout(sessions: Session.Store, cookies: Session.CookieJar, token: Option<string>, locals: Locals): (r: Outcome)
    ensures r.reply == Http.Redirect(302, "/auth/login")
    ensures r.locals == Locals(None, None)
    ensures token.None? ==> r.sessions == sessions && r.cookies == cookies
    ensures token.Some? ==> r.cookies == Session.DeleteSessionTokenCookie(cookies)
    ensures token.Some? ==> r.sessions == sessions - {SessionIdOf(token.value)}
  {
    match token
    case None => Outcome(Http.Redirect(302, "/auth/login"), sessions, cookies, Locals(None, None))
    case Some(t) =>
      var cookies' := Session.DeleteSessionTokenCookie(cookies);
      var sessions' := match Session.DeleteSession(sessions, SessionIdOf(t))
        case Ok(remaining) => remaining
        case Err(_) => sessions;
      Outcome(Http.Redirect(302, "/auth/login"), sessions', cookies', Locals(None, None))
  }

  /** Logging out with the token a login issued removes exactly the session
      that login created. */
  lemma {:induction false} LogoutEndsIssuedSession(store: Session.Store, userId: string, idBytes: seq<Session.Byte>,
                                                   secretBytes: seq<Session.Byte>, now: int, hash: string -> Session.Digest,
                                                   cookies: Session.CookieJar, locals: Locals)
    requires |idBytes| == Session.RandomLength && |secretBytes| == Session.RandomLength
    requires Session.CreateSession(store, userId, idBytes, secretBytes, now, hash).Ok?
    ensures var (issued, store') := Session.CreateSession(store, userId, idBytes, secretBytes, now, hash).value;
            Logout(store', cookies, Some(issued.token), locals).sessions == store
  {
    var (issued, store') := Session.CreateSession(store, userId, idBytes, secretBytes, now, hash).value;
    var id := Session.GenerateSecureRandomString(idBytes);
    var secret := Session.GenerateSecureRandomString(secretBytes);
    Session.TokenSegmentsOfComposite(id, secret, None);
    assert issued.token == id + "." + secret + "";
    assert SessionIdOf(issued.token) == id;
    assert store' - {id} == store;
  }
}

=== FILE: mail.dfy ===
/** The verification link shared by registration and resending, and the
    e-mails the handlers hand to the mailer. The link is built from
    `env.ORIGIN` and read back by the verification route's
    `url.searchParams.get('token')`. Sending itself is outside the model: its
    outcome is an input of the handlers. */
module Mail {
  import opened Wrappers
  import Text

  const DefaultOrigin: string := "http://localhost:5173"
  const VerifyPath: string := "/auth/verify"

  /** `env.ORIGIN || 'http://localhost:5173'`: an unset or empty origin falls
      back to the development server. */
  function BaseUrl(origin: Option<string>): (base: string)
    ensures origin.Some? && origin.value != "" ==> base == origin.value
    ensures origin.None? || origin.value == "" ==> base == DefaultOrigin
  {
    if origin.Some? && origin.value != "" then origin.value else DefaultOrigin
  }

  /** `${base}/auth/verify?token=${token}`. */
  function VerificationUrl(origin: Option<string>, token: string): (url: string)
    ensures url == BaseUrl(origin) + "/auth/verify?token=" + token
    ensures Text.StartsWith(url, BaseUrl(origin))
    ensures |url| >= |token| && url[|url| - |token|..] == token
  {
    BaseUrl(origin) + VerifyPath + "?token=" + token
  }

  /** Characters `URLSearchParams` would read differently from how they are
      written: separators and the escapes of form encoding. */
  predicate QuerySafe(token: string) {
    '&' !in token && '#' !in token && '+' !in token && '%' !in token
  }

  /** `url.searchParams.get('token')` for a URL whose query starts with the
      `token` parameter: the text after `?token=` up to the next `&` or `#`. */
  function TokenParam(url: string): (r: Option<string>)
    ensures r.Some? ==> '&' !in r.value && '#' !in r.value
  {
    match Text.IndexOfChar(url, '?')
    case None => None
    case Some(i) =>
      var query := url[i + 1..];
      if !Text.StartsWith(query, "token=") then None
      else
        var value := query[6..];
        var end := Text.LeadingCount(value, c => c != '&' && c != '#');
        Some(value[..end])
  }

  /** Round trip: the verification route reads back exactly the token the
      link was built with, as long as the origin has no query part and the
      token needs no escaping. */
  lemma TokenParamOfVerificationUrl(origin: Option<string>, token: string)
    requires '?' !in BaseUrl(origin)
    requires QuerySafe(token)
    ensures TokenParam(VerificationUrl(origin, token)) == Some(token)
  {
    var base := BaseUrl(origin) + VerifyPath;
    var url := VerificationUrl(origin, token);
    assert '?' !in base;
    assert url == base + ['?'] + ("token=" + token);
    Text.IndexOfCharAfter(base, '?', "token=" + token);
    var query := url[|base| + 1..];
    assert query == "token=" + token;
    assert query[6..] == token;
    Text.LeadingCountAll(token, c => c != '&' && c != '#');
    assert token[..|token|] == token;
  }

  /** A message handed to the mailer; only the recipient and the link it
      carries are modelled, not the HTML template. */
  datatype Email = Email(to: string, subject: string, link: string)
}

=== FILE: paging.dfy ===
/** The pagination shared by the admin list endpoints
    (src/routes/api/admin/users/+server.ts and
    src/routes/api/admin/projects/+server.ts): `page` and `limit` read with
    `parseInt`, `skip = (page - 1) * limit`, `take: limit`,
    `totalPages = Math.ceil(totalCount / limit)` and the two navigation
    flags. */
module Paging {
  import opened Wrappers
  import Text
  import Seqs

  /** `parseInt(url.searchParams.get(name) || fallback)`: an absent or empty
      parameter falls back to the default, whose text `parseInt` reads as
      the number `fallback` (`FallbacksParse`). */
  function QueryInt(param: Option<string>, fallback: nat): (r: Text.ParsedInt)
    ensures param.None? || param.value == "" ==> r == Text.Int(fallback)
    ensures param.Some? && param.value != "" ==> r == Text.ParseInt(param.value)
  {
    if param.Some? && param.value != "" then Text.ParseInt(param.value) else Text.Int(fallback)
  }

  /** A parameter written as a decimal number reads back as that number. */
  lemma QueryIntOfNat(n: nat, fallback: nat)
    ensures QueryInt(Some(Text.NatToString(n)), fallback) == Text.Int(n)
  {
    Text.ParseIntOfNatToString(n);
  }

  /** The default texts '1' and '10' read as the numbers 1 and 10, so
      without parameters the first page of ten rows is asked for. */
  lemma FallbacksParse()
    ensures Text.ParseInt("1") == Text.Int(1)
    ensures Text.ParseInt("10") == Text.Int(10)
  {
    assert Text.NatToString(1) == "1";
    Text.ParseIntOfNatToString(1);
    assert Text.NatToString(10) == "10" by {
      assert Text.NatToString(10) == Text.NatToString(1) + [Text.DigitChar(0)];
    }
    Text.ParseIntOfNatToString(10);
  }

  /** `a * b` on naturals, by repeated addition; `TimesIsProduct` relates it
      to multiplication. The page arithmetic below is stated with it. */
  function Times(a: nat, b: nat): nat {
    if a == 0 then 0 else b + Times(a - 1, b)
  }

  lemma {:induction false} TimesIsProduct(a: nat, b: nat)
    ensures Times(a, b) == a * b
  {
    if a > 0 {
      TimesIsProduct(a - 1, b);
    }
  }

  /** `Math.ceil(count / limit)` for a positive limit. */
  function CeilDiv(count: nat, limit: nat): nat
    requires limit > 0
    decreases count
  {
    if count == 0 then 0 else if count <= limit then 1 else 1 + CeilDiv(count - limit, limit)
  }

  /** `Math.floor(count / d)` for a positive divisor. */
  function FloorDiv(count: nat, d: nat): nat
    requires d > 0
    decreases count
  {
    if count < d then 0 else 1 + FloorDiv(count - d, d)
  }

  /** The ceiling is the least number of pages of `limit` rows that hold
      `count` rows. */
  lemma {:induction false} CeilDivIsCeiling(count: nat, limit: nat)
    requires limit > 0
    ensures var n := CeilDiv(count, limit);
            Times(n, limit) >= count && (n == 0 || Times(n - 1, limit) < count)
    decreases count
  {
    if count > limit {
      CeilDivIsCeiling(count - limit, limit);
    }
  }

  /** The floor is the number of whole groups of `d` in `count`. */
  lemma {:induction false} FloorDivIsFloor(count: nat, d: nat)
    requires d > 0
    ensures Times(FloorDiv(count, d), d) <= count < Times(FloorDiv(count, d), d) + d
    decreases count
  {
    if count >= d {
      FloorDivIsFloor(count - d, d);
    }
  }

  /** A JavaScript number as `Math.ceil` can produce it here. */
  datatype Num = Finite(n: int) | PosInfinity | NaN

  /** `Math.ceil(count / limit)`: dividing by zero gives Infinity, or NaN
      for no rows; dividing by a negative limit rounds the negative quotient
      up, towards zero. */
  function TotalPages(count: nat, limit: int): (r: Num)
    ensures limit > 0 ==> r.Finite? && r.n >= 0
    ensures limit == 0 ==> r == if count == 0 then NaN else PosInfinity
    ensures limit < 0 ==> r.Finite? && r.n <= 0
  {
    if limit > 0 then Finite(CeilDiv(count, limit))
    else if limit == 0 then (if count == 0 then NaN else PosInfinity)
    else Finite(-(FloorDiv(count, -limit) as int))
  }

  /** For a positive limit, the page count is the least number of pages of
      `limit` rows that hold `count` rows. */
  lemma TotalPagesIsCeiling(count: nat, limit: int)
    requires limit > 0
    ensures var n := TotalPages(count, limit).n;
            n * limit >= count && (n == 0 || (n - 1) * limit < count)
  {
    var n := CeilDiv(count, limit);
    CeilDivIsCeiling(count, limit);
    TimesIsProduct(n, limit);
    if n > 0 {
      TimesIsProduct(n - 1, limit);
    }
  }

  /** For a negative limit, the page count is the ceiling of the negative
      quotient: `n * limit` is at most `count`, and `(n - 1) * limit` above
      it. */
  lemma TotalPagesNegativeLimit(count: nat, limit: int)
    requires limit < 0
    ensures var n := TotalPages(count, limit).n;
            n * limit >= count - (-limit) + 1 && n * limit <= count
  {
    var q := FloorDiv(count, -limit);
    FloorDivIsFloor(count, -limit);
    TimesIsProduct(q, -limit);
    assert TotalPages(count, limit).n * limit == q * -limit;
  }

  /** `page < totalPages` on JavaScript numbers: everything is below
      Infinity and nothing compares with NaN. */
  predicate Below(page: int, total: Num) {
    match total
    case Finite(n) => page < n
    case PosInfinity => true
    case NaN => false
  }

  datatype Pagination = Pagination(page: int, limit: int, totalCount: nat, totalPages: Num, hasNextPage: bool, hasPrevPage: bool)

  /** The `pagination` object of the answer: a previous page exactly when
      this is not the first; `NextPageIffRowsRemain` states when there is a
      next one. */
  function Paginate(page: int, limit: int, count: nat): (p: Pagination)
    ensures p.page == page && p.limit == limit && p.totalCount == count
    ensures p.totalPages == TotalPages(count, limit)
    ensures p.hasPrevPage <==> page > 1
  {
    var total := TotalPages(count, limit);
    Pagination(page, limit, count, total, Below(page, total), page > 1)
  }

  /** For a positive limit there is a next page exactly when rows remain
      after this one. */
  lemma NextPageIffRowsRemain(page: int, limit: int, count: nat)
    requires limit > 0
    ensures Paginate(page, limit, count).hasNextPage <==> page * limit < count
  {
    var n := TotalPages(count, limit).n;
    TotalPagesIsCeiling(count, limit);
    if page < n {
      assert page <= n - 1;
      MulMonotone(page, n - 1, limit);
    } else {
      MulMonotone(n, page, limit);
    }
  }

  lemma MulMonotone(a: int, b: int, c: int)
    requires a <= b && c > 0
    ensures a * c <= b * c
  {
    assert b * c - a * c == (b - a) * c;
  }

  /** Prisma's `skip`/`take` on ordered rows: at most `take` rows, starting
      after the first `skip`. */
  function Window<T>(rows: seq<T>, skip: nat, take: nat): (r: seq<T>)
    ensures |r| == if skip >= |rows| then 0 else if |rows| - skip < take then |rows| - skip else take
    ensures forall i :: 0 <= i < |r| ==> skip + i < |rows| && r[i] == rows[skip + i]
  {
    if skip >= |rows| then []
    else if |rows| - skip < take then rows[skip..]
    else rows[skip..skip + take]
  }

  /** A window holds elements of the rows only. */
  lemma WindowWithin<T>(rows: seq<T>, skip: nat, take: nat)
    ensures forall i :: 0 <= i < |Window(rows, skip, take)| ==> Window(rows, skip, take)[i] in rows
  {
    var w := Window(rows, skip, take);
    forall i | 0 <= i < |w|
      ensures w[i] in rows
    {
      assert w[i] == rows[skip + i];
    }
  }

  /** A window of rows ordered by a descending key is still so ordered. */
  lemma WindowKeepsOrder<T>(rows: seq<T>, key: T -> int, skip: nat, take: nat)
    requires Seqs.SortedDesc(rows, key)
    ensures Seqs.SortedDesc(Window(rows, skip, take), key)
  {
    var w := Window(rows, skip, take);
    forall i, j | 0 <= i < j < |w|
      ensures key(w[i]) >= key(w[j])
    {
      assert w[i] == rows[skip + i] && w[j] == rows[skip + j];
    }
  }

  /** `(page - 1) * limit`: the rows before a page. */
  function SkipFor(page: int, limit: nat): int {
    if page >= 1 then Times(page - 1, limit) else -(Times(1 - page, limit) as int)
  }

  lemma SkipForIsProduct(page: int, limit: nat)
    ensures SkipFor(page, limit) == (page - 1) * limit
  {
    if page >= 1 {
      TimesIsProduct(page - 1, limit);
    } else {
      TimesIsProduct(1 - page, limit);
    }
  }

  /** The page and limit a request asks for, with the skip they imply. */
  datatype PageQuery = PageQuery(page: int, limit: nat, skip: nat)

  /** The page and limit as `parseInt` read them. A NaN, a negative limit,
      or a page before the first with a positive limit (a negative skip)
      makes the database query throw (`None`). */
  function ReadPageQuery(page: Text.ParsedInt, limit: Text.ParsedInt): (r: Option<PageQuery>)
    ensures r.Some? ==> page == Text.Int(r.value.page) && limit == Text.Int(r.value.limit)
    ensures r.Some? ==> r.value.skip == SkipFor(r.value.page, r.value.limit)
    ensures r.None? <==> page.NotANumber? || limit.NotANumber? || limit.value < 0 || (page.value < 1 && limit.value > 0)
  {
    match (page, limit)
    case (Int(p), Int(l)) =>
      if l < 0 || (p < 1 && l > 0) then None
      else
        SkipNotNegative(p, l);
        Some(PageQuery(p, l, SkipFor(p, l)))
    case _ => None
  }

  lemma SkipNotNegative(page: int, limit: nat)
    requires page >= 1 || limit == 0
    ensures SkipFor(page, limit) >= 0
  {
    SkipForIsProduct(page, limit);
  }

  /** The query string of an admin list as the handler reads it: `page`
      and `limit` through `parseInt`, `search` with the empty default. */
  datatype Query = Query(page: Text.ParsedInt, limit: Text.ParsedInt, search: string)

  function ReadQuery(page: Option<string>, limit: Option<string>, search: Option<string>): Query {
    Query(QueryInt(page, 1), QueryInt(limit, 10), search.GetOr(""))
  }

  /** The page and limit a query asks for (`None` when the query fails). */
  function PageQueryOf(q: Query): Option<PageQuery> {
    ReadPageQuery(q.page, q.limit)
  }

  /** The query asking for a page of `limit` rows. */
  function PageLink(page: nat, limit: nat, search: string): Query {
    Query(Text.Int(page), Text.Int(limit), search)
  }

  /** The query string of a page, written in decimal, reads as that page. */
  lemma PageLinkRead(page: nat, limit: nat, search: string)
    ensures ReadQuery(Some(Text.NatToString(page)), Some(Text.NatToString(limit)), Some(search)) == PageLink(page, limit, search)
  {
    QueryIntOfNat(page, 1);
    QueryIntOfNat(limit, 10);
  }

  /** Any page from the first on, with any limit, is a usable query. */
  lemma QueryOfPage(page: nat, limit: nat, search: string)
    requires page >= 1
    ensures PageQueryOf(PageLink(page, limit, search)).Some?
    ensures PageQueryOf(PageLink(page, limit, search)).value == PageQuery(page, limit, SkipFor(page, limit))
  {
  }

  /** Pages tile the rows: with a positive limit, row `i` is shown on some
      page (page `i / limit + 1`), at position `i - SkipFor(page, limit)`. */
  lemma RowOnItsPage<T>(rows: seq<T>, limit: nat, i: nat) returns (page: nat)
    requires limit > 0 && i < |rows|
    ensures page >= 1
    ensures SkipFor(page, limit) <= i < SkipFor(page, limit) + limit
    ensures var shown := Window(rows, SkipFor(page, limit), limit);
            i - SkipFor(page, limit) < |shown| && shown[i - SkipFor(page, limit)] == rows[i]
  {
    page := FloorDiv(i, limit) + 1;
    FloorDivIsFloor(i, limit);
  }

  /** The page after the last one is empty. */
  lemma PastLastPageIsEmpty<T>(rows: seq<T>, limit: nat)
    requires limit > 0
    ensures var last := TotalPages(|rows|, limit).n;
            Window(rows, Times(last, limit), limit) == []
  {
    CeilDivIsCeiling(|rows|, limit);
  }
}

=== FILE: projects.dfy ===
/** GET and POST /api/projects (src/routes/api/projects/+server.ts): the
    signed-in user's own projects, newest first, and project creation with a
    trimmed, non-blank name. */
module ProjectsRoute {
  import opened Wrappers
  import opened Js
  import opened Db
  import opened Http
  import Seqs
  import Text

  /** A project with its relation counts, as both handlers return it. */
  datatype ProjectView = ProjectView(project: Project, counts: Counts)

  /** `project.findMany({ where: { createdBy: userId } })`, in table order. */
  function Owned(projects: seq<Project>, userId: string): (r: seq<Project>)
    ensures forall p :: p in r <==> p in projects && p.createdBy == userId
  {
    Seqs.Filter(projects, (p: Project) => p.createdBy == userId)
  }

  function CreatedAt(p: Project): int {
    p.createdAt
  }

  function Views(db: Db, projects: seq<Project>): (r: seq<ProjectView>)
    ensures |r| == |projects|
    ensures forall i :: 0 <= i < |r| ==> r[i] == ProjectView(projects[i], CountsOf(db, projects[i].id))
  {
    seq(|projects|, i requires 0 <= i < |projects| => ProjectView(projects[i], CountsOf(db, projects[i].id)))
  }

  /** The projects of a list of views. */
  function ProjectsOf(views: seq<ProjectView>): (r: seq<Project>)
    ensures |r| == |views|
    ensures forall i :: 0 <= i < |r| ==> r[i] == views[i].project
  {
    seq(|views|, i requires 0 <= i < |views| => views[i].project)
  }

  /** `GET(locals)`. Without a user: 401. Otherwise exactly the projects the
      user created (each once per row), newest first, each with its counts. */
  function ListProjects(db: Db, actor: Option<User>): (r: Reply<seq<ProjectView>>)
    ensures actor.None? ==> r == Error(401, "Unauthorized")
    ensures actor.Some? ==> r.Success? && r.status == 200
    ensures r.Success? ==>
              && multiset(ProjectsOf(r.payload)) == multiset(Owned(db.projects, actor.value.id))
              && (forall i, j :: 0 <= i < j < |r.payload| ==> r.payload[i].project.createdAt >= r.payload[j].project.createdAt)
              && (forall i :: 0 <= i < |r.payload| ==>
                    r.payload[i].project.createdBy == actor.value.id && r.payload[i].counts == CountsOf(db, r.payload[i].project.id))
  {
    match actor
    case None => Error(401, "Unauthorized")
    case Some(u) =>
      var owned := Owned(db.projects, u.id);
      var sorted := Seqs.SortDesc(owned, CreatedAt);
      var views := Views(db, sorted);
      assert ProjectsOf(views) == sorted;
      assert forall i :: 0 <= i < |sorted| ==> sorted[i] in multiset(owned);
      Success(200, views)
  }

  /** The name and description of a creation request, or the status it
      fails with: 400 for a missing or blank name, 500 where the handler
      throws (a body that is not JSON or is null, a name or description that
      is not a string). */
  function ReadProjectForm(body: Option<JsValue>): (r: Result<(string, Option<string>), nat>)
    ensures r.Err? ==> r.error == 400 || r.error == 500
    ensures r.Err? && r.error == 400 <==>
              body.Some? && !IsNullish(body.value) &&
              var name := Get(body.value, "name");
              !Truthy(name) || (name.Str? && Text.Trim(name.s) == "")
    ensures r.Ok? ==> body.Some? && !IsNullish(body.value)
    ensures r.Ok? ==>
              var name := Get(body.value, "name");
              var description := Get(body.value, "description");
              && name.Str? && r.value.0 == Text.Trim(name.s) && r.value.0 != ""
              && (IsNullish(description) ==> r.value.1.None?)
              && (description.Str? ==> r.value.1 == if Text.Trim(description.s) == "" then None else Some(Text.Trim(description.s)))
              && (r.value.1.Some? ==> r.value.1.value != "")
  {
    if body.None? || IsNullish(body.value) then Err(500)
    else
      var name := Get(body.value, "name");
      var description := Get(body.value, "description");
      if !Truthy(name) then Err(400)
      else if !name.Str? then Err(500)
      else if Text.Trim(name.s) == "" then Err(400)
      else if IsNullish(description) then Ok((Text.Trim(name.s), None))
      else if !description.Str? then Err(500)
      else
        var d := Text.Trim(description.s);
        Ok((Text.Trim(name.s), if d == "" then None else Some(d)))
  }

  /** `POST(request, locals)`: 401 without a user; the form's failures; on
      success 201 with the new project, whose name is the trimmed name, whose
      description is the trimmed description or none, and whose creator is
      the user. Nothing is written on failure. */
  function CreateProject(db: Db, actor: Option<User>, body: Option<JsValue>, newId: string, now: int): (r: (Reply<ProjectView>, Db))
    ensures !r.0.Success? ==> r.1 == db
    ensures actor.None? ==> r.0 == Error(401, "Unauthorized")
    ensures actor.Some? && ReadProjectForm(body).Err? ==>
              r.0.Failure? && r.0.status == ReadProjectForm(body).error
    ensures r.0.Success? <==> actor.Some? && ReadProjectForm(body).Ok?
    ensures r.0.Success? ==>
              var (name, description) := ReadProjectForm(body).value;
              var p := Project(newId, name, description, actor.value.id, now);
              && r.0.status == 201
              && r.0.payload.project == p
              && r.1 == db.(projects := db.projects + [p])
  {
    match actor
    case None => (Error(401, "Unauthorized"), db)
    case Some(u) =>
      match ReadProjectForm(body)
      case Err(status) =>
        if status == 400 then (Error(400, "Project name is required"), db)
        else (Error(500, "Failed to create project"), db)
      case Ok((name, description)) =>
        var p := Project(newId, name, description, u.id, now);
        var db' := db.(projects := db.projects + [p]);
        (Success(201, ProjectView(p, CountsOf(db', newId))), db')
  }

  /** A project just created is among the creator's listed projects. */
  lemma CreatedProjectIsListed(db: Db, actor: User, body: JsValue, newId: string, now: int)
    requires CreateProject(db, Some(actor), Some(body), newId, now).0.Success?
    ensures var (reply, db') := CreateProject(db, Some(actor), Some(body), newId, now);
            reply.payload.project in ProjectsOf(ListProjects(db', Some(actor)).payload)
  {
    var (reply, db') := CreateProject(db, Some(actor), Some(body), newId, now);
    var p := reply.payload.project;
    assert p in db'.projects;
    assert p in Owned(db'.projects, actor.id);
    var listed := ProjectsOf(ListProjects(db', Some(actor)).payload);
    assert p in multiset(listed);
  }
}

=== FILE: redirect.dfy ===
/** The redirect predicate of src/lib/utils/redirect.ts: decides whether a
    thrown value is a framework redirect that must be re-thrown. Redirect
    statuses are the 3xx class of section 15.4 of RFC 9110. */
module Redirect {
  import opened Js

  /** A JavaScript number in the 3xx class, 300 <= status < 400. */
  predicate IsRedirectStatus(status: JsValue) {
    status.Number? && 300.0 <= status.x < 400.0
  }

  /** `isSvelteKitRedirect(error)`. An object carrying both `status` and
      `location` is judged by its status alone; otherwise only a `Response`
      can qualify, again by its status; anything else is not a redirect. */
  function IsSvelteKitRedirect(error: JsValue): (r: bool)
    ensures r ==> error.Object? && IsRedirectStatus(Get(error, "status"))
    ensures Has(error, "status") && Has(error, "location") ==> (r <==> IsRedirectStatus(Get(error, "status")))
    ensures error.Object? && !Has(error, "location") ==> (r <==> error.isResponse && IsRedirectStatus(Get(error, "status")))
    ensures !error.Object? ==> !r
  {
    if Truthy(error) && TypeofObject(error) && Has(error, "status") && Has(error, "location") then
      var status := Get(error, "status");
      status.Number? && status.x >= 300.0 && status.x < 400.0
    else if error.Object? && error.isResponse then
      var status := Get(error, "status");
      status.Number? && status.x >= 300.0 && status.x < 400.0
    else
      false
  }

  /** The value the framework's `redirect(status, location)` helper throws:
      a plain object with `status` and `location`, not a `Response`. */
  function FrameworkRedirect(status: int, location: string): JsValue {
    Literal(map["status" := Number(status as real), "location" := Str(location)])
  }

  /** A thrown framework redirect is recognised exactly for 3xx statuses;
      2xx, 4xx and 5xx statuses never are. */
  lemma FrameworkRedirectRecognised(status: int, location: string)
    ensures IsSvelteKitRedirect(FrameworkRedirect(status, location)) <==> 300 <= status < 400
  {
    var v := FrameworkRedirect(status, location);
    assert Has(v, "status") && Has(v, "location");
    assert Get(v, "status") == Number(status as real);
  }
}

=== FILE: register.dfy ===
/** POST /api/register (src/routes/api/register/+server.ts): schema check,
    duplicate e-mail check, first-user promotion to Admin, an unverified user
    with a fresh verification token, and the verification e-mail. argon2
    hashing, `randomUUID`, the new row's id, the clock and the mailer's
    outcome are parameters. */
module RegisterRoute {
  import opened Wrappers
  import opened Js
  import opened Db
  import opened Http
  import Schema
  import Text
  import Mail

  const RegisterSchema: seq<Schema.Field> := [
    Schema.StringField("name", Some("name_required"), []),
    Schema.StringField("email", Some("email_required"), [Schema.EmailFormat("email_invalid")]),
    Schema.StringField("password", Some("password_required"), [Schema.MinLength(6, "password_too_short")]),
    Schema.StringField("contactNumber", Some("contact_number_required"), [])
  ]

  /** A registration the schema accepts. */
  datatype Form = Form(name: string, email: string, password: string, contactNumber: string)

  function ReadForm(body: JsValue, isEmail: string -> bool): (r: Option<Form>)
    ensures r.Some? <==> Schema.Parse(RegisterSchema, body, isEmail).Ok?
    ensures r.Some? ==>
              && Get(body, "name") == Str(r.value.name)
              && Get(body, "email") == Str(r.value.email) && isEmail(r.value.email)
              && Get(body, "password") == Str(r.value.password) && Text.Utf16Length(r.value.password) >= 6
              && Get(body, "contactNumber") == Str(r.value.contactNumber)
  {
    match Schema.Parse(RegisterSchema, body, isEmail)
    case Err(_) => None
    case Ok(values) =>
      Schema.ParsedValues(RegisterSchema, body, isEmail, 0);
      Schema.ParsedValues(RegisterSchema, body, isEmail, 1);
      Schema.ParsedValues(RegisterSchema, body, isEmail, 2);
      Schema.ParsedValues(RegisterSchema, body, isEmail, 3);
      assert Schema.ParseField(RegisterSchema[1], Get(body, "email"), isEmail).Ok?;
      assert Schema.Passes(RegisterSchema[1].checks[0], Get(body, "email").s, isEmail);
      assert Schema.ParseField(RegisterSchema[2], Get(body, "password"), isEmail).Ok?;
      assert Schema.Passes(RegisterSchema[2].checks[0], Get(body, "password").s, isEmail);
      Some(Form(values["name"], values["email"], values["password"], values["contactNumber"]))
  }

  datatype Services = Services(
    isEmail: string -> bool,
    hashPassword: string -> string,
    verificationToken: string,
    newUserId: string,
    now: int,
    origin: Option<string>)

  const AdminCreatedMessage: string :=
    "Admin account created! Please check your email to verify your account and complete the setup."
  const RegisteredMessage: string :=
    "Registration successful! Please check your email to verify your account."
  const VerifySubject: string := "Verify your email - CoLab Manager"

  datatype Registered = Registered(message: string, isFirstUser: bool)

  datatype Outcome = Outcome(reply: Reply<Registered>, users: seq<User>, sent: Option<Mail.Email>)

  /** The row `user.create` inserts for a form. */
  function NewUser(f: Form, firstUser: bool, s: Services): (u: User)
    ensures u.name == f.name && u.contactNumber == f.contactNumber
    ensures u.email == f.email && u.password == s.hashPassword(f.password)
    ensures !u.emailVerified && u.verificationToken == Some(s.verificationToken)
    ensures u.role == AdminRole <==> firstUser
  {
    User(s.newUserId, f.name, f.email, s.hashPassword(f.password), f.contactNumber,
         if firstUser then AdminRole else UserRole, false, Some(s.verificationToken), None, None, s.now)
  }

  /** `POST(request)`. `delivered` is whether the mailer succeeded; the
      handler ignores it, so no clause below depends on it.

      A duplicate e-mail is refused with 409 before anything is written; the
      new user is an Admin exactly when there were no users before; the user
      is stored unverified with the hashed password and the new token, and
      the e-mail carries the link for that token. */
  function Register(users: seq<User>, body: Option<JsValue>, s: Services, delivered: bool): (r: Outcome)
    ensures !r.reply.Success? ==> r.users == users && r.sent.None?
    ensures body.None? ==> r.reply == Error(500, "internal_error")
    ensures body.Some? && ReadForm(body.value, s.isEmail).None? ==>
              r.reply == Failure(400, Schema.FlattenFieldErrors(Schema.Parse(RegisterSchema, body.value, s.isEmail).error))
    ensures r.reply.Status() == 409 <==>
              body.Some? && ReadForm(body.value, s.isEmail).Some? &&
              FindUserByEmail(users, ReadForm(body.value, s.isEmail).value.email).Some?
    ensures r.reply.Status() == 409 ==> r.reply == Error(409, "email_already_used")
    ensures r.reply.Success? <==>
              body.Some? && ReadForm(body.value, s.isEmail).Some? &&
              FindUserByEmail(users, ReadForm(body.value, s.isEmail).value.email).None?
    ensures r.reply.Success? ==>
              var f := ReadForm(body.value, s.isEmail).value;
              var firstUser := |users| == 0;
              && r.reply.status == 200
              && r.users == users + [NewUser(f, firstUser, s)]
              && r.sent == Some(Mail.Email(f.email, VerifySubject, Mail.VerificationUrl(s.origin, s.verificationToken)))
              && r.reply.payload.isFirstUser == firstUser
              && r.reply.payload.message == if firstUser then AdminCreatedMessage else RegisteredMessage
  {
    if body.None? then Outcome(Error(500, "internal_error"), users, None)
    else match Schema.Parse(RegisterSchema, body.value, s.isEmail)
      case Err(issues) => Outcome(Failure(400, Schema.FlattenFieldErrors(issues)), users, None)
      case Ok(_) =>
        var f := ReadForm(body.value, s.isEmail).value;
        if FindUserByEmail(users, f.email).Some? then Outcome(Error(409, "email_already_used"), users, None)
        else
          var firstUser := |users| == 0;
          var mail := Mail.Email(f.email, VerifySubject, Mail.VerificationUrl(s.origin, s.verificationToken));
          var message := if firstUser then AdminCreatedMessage else RegisteredMessage;
          Outcome(Success(200, Registered(message, firstUser)), users + [NewUser(f, firstUser, s)], Some(mail))
  }

  /** Only the first registration creates an Admin: registering into a
      table that already holds users yields a 'User'. */
  lemma {:induction false} OnlyFirstUserIsAdmin(users: seq<User>, body: JsValue, s: Services, delivered: bool)
    requires |users| > 0
    requires Register(users, Some(body), s, delivered).reply.Success?
    ensures var r := Register(users, Some(body), s, delivered);
            r.users[|users|].role == UserRole && !r.reply.payload.isFirstUser
  {
    var f := ReadForm(body, s.isEmail).value;
    assert Register(users, Some(body), s, delivered).users == users + [NewUser(f, false, s)];
  }
}

=== FILE: resend.dfy ===
/** POST /api/resend-verification
    (src/routes/api/resend-verification/+server.ts): for a signed-in,
    unverified user, replaces the verification token and mails a new link.
    `createId`, `env.ORIGIN` and the mailer's outcome are parameters. */
module ResendRoute {
  import opened Wrappers
  import opened Db
  import opened Http
  import Mail
  import VerifyRoute

  const ResendSubject: string := "Verify Your Email - CoLab Manager"
  const SentMessage: string := "Verification email sent successfully. Please check your inbox."

  datatype Outcome = Outcome(reply: Reply<string>, users: seq<User>, sent: Option<Mail.Email>)

  /** `POST(locals)` with `actor` the signed-in user (`locals.user`) and
      `delivered` the mailer's `success`.

      Without a user: 401. An already verified user: 400, nothing stored or
      sent. Otherwise the stored token is replaced first (a user missing from
      the table makes that update throw: 500), then the mail goes out, and a
      delivery failure is a 500 that keeps the new token. */
  function Resend(users: seq<User>, actor: Option<User>, newToken: string, origin: Option<string>, delivered: bool): (r: Outcome)
    ensures actor.None? ==> r == Outcome(Error(401, "Unauthorized"), users, None)
    ensures actor.Some? && actor.value.emailVerified ==> r == Outcome(Error(400, "Email is already verified"), users, None)
    ensures r.sent.Some? <==> actor.Some? && !actor.value.emailVerified && FindUserById(users, actor.value.id).Some?
    ensures r.sent.None? ==> r.users == users && !r.reply.Success?
    ensures actor.Some? && !actor.value.emailVerified && FindUserById(users, actor.value.id).None? ==>
              r == Outcome(Error(500, "Internal server error"), users, None)
    ensures r.sent.Some? ==>
              var u := actor.value;
              && r.sent.value == Mail.Email(u.email, ResendSubject, Mail.VerificationUrl(origin, newToken))
              && |r.users| == |users|
              && (forall i :: 0 <= i < |users| ==>
                    r.users[i] == if users[i].id == u.id then users[i].(verificationToken := Some(newToken)) else users[i])
              && (r.reply.Success? <==> delivered)
              && (!delivered ==> r.reply == Error(500, "Failed to send verification email. Please try again later."))
              && (delivered ==> r.reply == Success(200, SentMessage))
  {
    match actor
    case None => Outcome(Error(401, "Unauthorized"), users, None)
    case Some(u) =>
      if u.emailVerified then Outcome(Error(400, "Email is already verified"), users, None)
      else if FindUserById(users, u.id).None? then Outcome(Error(500, "Internal server error"), users, None)
      else
        var users' := UpdateUser(users, u.id, (x: User) => x.(verificationToken := Some(newToken)));
        var mail := Mail.Email(u.email, ResendSubject, Mail.VerificationUrl(origin, newToken));
        if !delivered then
          Outcome(Error(500, "Failed to send verification email. Please try again later."), users', Some(mail))
        else
          Outcome(Success(200, SentMessage), users', Some(mail))
  }

  /** A resend for a user of the table rewrites that user's row, and only
      it, to hold the new token. */
  lemma ResendRewritesOneRow(users: seq<User>, actor: User, newToken: string, origin: Option<string>, delivered: bool)
    returns (k: nat)
    requires actor in users && !actor.emailVerified
    requires forall i, j :: 0 <= i < j < |users| ==> users[i].id != users[j].id
    ensures k < |users| && users[k] == actor
    ensures var stored := Resend(users, Some(actor), newToken, origin, delivered).users;
            && |stored| == |users|
            && stored[k] == actor.(verificationToken := Some(newToken))
            && forall i :: 0 <= i < |users| && i != k ==> stored[i] == users[i] && users[i].id != actor.id
  {
    k :| 0 <= k < |users| && users[k] == actor;
    assert FindUserById(users, actor.id).Some?;
  }

  /** A token held by exactly one unverified row verifies that row. */
  lemma OnlyHolderVerifies(v: VerifyRoute.Variant, stored: seq<User>, k: nat, token: string)
    requires k < |stored| && token != ""
    requires stored[k].verificationToken == Some(token) && !stored[k].emailVerified
    requires forall i :: 0 <= i < |stored| && i != k ==> stored[i].verificationToken != Some(token) && stored[i].id != stored[k].id
    ensures var (reply, after) := VerifyRoute.VerifyEmail(v, stored, Some(token));
            && reply.Status() != 400
            && |after| == |stored|
            && after[k] == VerifyRoute.MarkVerified(stored[k])
            && forall i :: 0 <= i < |stored| && i != k ==> after[i] == stored[i]
  {
    var u := VerifyRoute.PendingUser(stored, token);
    assert u.Some?;
    var j :| 0 <= j < |stored| && stored[j] == u.value;
    assert j == k;
  }

  /** A resent link works and the previous one no longer does: after a
      resend, verifying with the new token (fresh, as `createId` makes it)
      verifies the user and changes no other row, and the token it
      replaced, if no other user holds it, is refused with 400. `locals.user`
      is a row of the table, and ids are unique. */
  lemma ResendThenVerify(v: VerifyRoute.Variant, users: seq<User>, actor: User, newToken: string,
                         origin: Option<string>, delivered: bool)
    requires actor in users && !actor.emailVerified
    requires forall i, j :: 0 <= i < j < |users| ==> users[i].id != users[j].id
    requires newToken != ""
    requires forall i :: 0 <= i < |users| ==> users[i].verificationToken != Some(newToken)
    ensures var stored := Resend(users, Some(actor), newToken, origin, delivered).users;
            var (reply, after) := VerifyRoute.VerifyEmail(v, stored, Some(newToken));
            && reply.Status() != 400
            && (v == VerifyRoute.Corrected ==> reply == Redirect(302, VerifyRoute.LoginLocation))
            && |after| == |users|
            && (forall i :: 0 <= i < |after| ==>
                  (after[i].id == actor.id ==> after[i].emailVerified && after[i].verificationToken.None?)
                  && (after[i].id != actor.id ==> after[i] == users[i]))
    ensures actor.verificationToken.Some? && actor.verificationToken.value != "" &&
            (forall i :: 0 <= i < |users| && users[i].id != actor.id ==> users[i].verificationToken != actor.verificationToken) ==>
              var stored := Resend(users, Some(actor), newToken, origin, delivered).users;
              VerifyRoute.VerifyEmail(v, stored, actor.verificationToken).0.Status() == 400
  {
    var k := ResendRewritesOneRow(users, actor, newToken, origin, delivered);
    var stored := Resend(users, Some(actor), newToken, origin, delivered).users;
    NewTokenVerifies(v, users, stored, k, newToken);
    if actor.verificationToken.Some? && actor.verificationToken.value != "" &&
       (forall i :: 0 <= i < |users| && users[i].id != actor.id ==> users[i].verificationToken != actor.verificationToken) {
      OldTokenRefused(v, users, stored, k, newToken);
    }
  }

  /** The new token, held by the rewritten row only, verifies that row and
      leaves every other row as it was before the resend. */
  lemma NewTokenVerifies(v: VerifyRoute.Variant, users: seq<User>, stored: seq<User>, k: nat, newToken: string)
    requires |stored| == |users| && k < |users| && newToken != "" && !users[k].emailVerified
    requires stored[k] == users[k].(verificationToken := Some(newToken))
    requires forall i :: 0 <= i < |users| && i != k ==> stored[i] == users[i] && users[i].id != users[k].id
    requires forall i :: 0 <= i < |users| ==> users[i].verificationToken != Some(newToken)
    ensures var (reply, after) := VerifyRoute.VerifyEmail(v, stored, Some(newToken));
            && reply.Status() != 400
            && (v == VerifyRoute.Corrected ==> reply == Redirect(302, VerifyRoute.LoginLocation))
            && |after| == |users|
            && (forall i :: 0 <= i < |after| ==>
                  (after[i].id == users[k].id ==> after[i].emailVerified && after[i].verificationToken.None?)
                  && (after[i].id != users[k].id ==> after[i] == users[i]))
  {
    OnlyHolderVerifies(v, stored, k, newToken);
  }

  /** The replaced token, held by no other row, no longer verifies anyone. */
  lemma OldTokenRefused(v: VerifyRoute.Variant, users: seq<User>, stored: seq<User>, k: nat, newToken: string)
    requires |stored| == |users| && k < |users|
    requires users[k].verificationToken.Some? && users[k].verificationToken.value != ""
    requires stored[k] == users[k].(verificationToken := Some(newToken))
    requires users[k].verificationToken != Some(newToken)
    requires forall i :: 0 <= i < |users| && i != k ==> stored[i] == users[i] && users[i].id != users[k].id
    requires forall i :: 0 <= i < |users| && users[i].id != users[k].id ==> users[i].verificationToken != users[k].verificationToken
    ensures VerifyRoute.VerifyEmail(v, stored, users[k].verificationToken).0.Status() == 400
  {
    assert forall i :: 0 <= i < |stored| ==> stored[i].verificationToken != users[k].verificationToken;
  }
}

=== FILE: schema.dfy ===
/** The part of zod's object validation the route handlers use: string fields
    with an optional `required_error` and `.email()` / `.min(n)` checks, an
    enum field with a default, the issue list a failed parse throws, and
    `error.flatten().fieldErrors` read back as one list. The e-mail syntax
    test is a parameter. */
module Schema {
  import opened Wrappers
  import opened Js
  import Text

  datatype Check = EmailFormat(message: string) | MinLength(n: nat, message: string)

  datatype Field =
    | StringField(key: string, requiredError: Option<string>, checks: seq<Check>)
    | EnumField(key: string, options: seq<string>, default: string)

  /** A validation issue: the field it belongs to (`None` for the object
      itself) and its message. */
  datatype Issue = Issue(path: Option<string>, message: string)

  /** zod's name for the type of a received value. */
  function TypeName(v: JsValue): string {
    match v
    case Undefined => "undefined"
    case Null => "null"
    case Bool(_) => "boolean"
    case Number(_) => "number"
    case NaN => "nan"
    case Str(_) => "string"
    case Array(_) => "array"
    case Object(_, _) => "object"
  }

  predicate Passes(c: Check, s: string, isEmail: string -> bool) {
    match c
    case EmailFormat(_) => isEmail(s)
    case MinLength(n, _) => Text.Utf16Length(s) >= n
  }

  /** The messages of the checks `s` fails, in declaration order (zod runs
      every check of a string even after one fails). */
  function FailedChecks(checks: seq<Check>, s: string, isEmail: string -> bool): (r: seq<string>)
    ensures |r| <= |checks|
    ensures |r| == 0 <==> forall i :: 0 <= i < |checks| ==> Passes(checks[i], s, isEmail)
  {
    if |checks| == 0 then []
    else
      var rest := FailedChecks(checks[1..], s, isEmail);
      assert forall i :: 1 <= i < |checks| ==> checks[i] == checks[1..][i - 1];
      if Passes(checks[0], s, isEmail) then rest else [checks[0].message] + rest
  }

  /** The options of an enum as zod lists them: `'User' | 'Admin'`. */
  function Quoted(options: seq<string>): string {
    if |options| == 0 then ""
    else if |options| == 1 then "'" + options[0] + "'"
    else "'" + options[0] + "' | " + Quoted(options[1..])
  }

  /** Validates one field's value: its parsed string, or its messages. */
  function ParseField(f: Field, v: JsValue, isEmail: string -> bool): (r: Result<string, seq<string>>)
    ensures r.Err? ==> |r.error| > 0
    ensures f.StringField? ==>
              (r.Ok? <==> v.Str? && forall i :: 0 <= i < |f.checks| ==> Passes(f.checks[i], v.s, isEmail))
    ensures f.StringField? && r.Ok? ==> r.value == v.s
    ensures f.StringField? && v.Undefined? ==> r == Err([f.requiredError.GetOr("Required")])
    ensures f.EnumField? ==> (r.Ok? <==> v.Undefined? || (v.Str? && v.s in f.options))
    ensures f.EnumField? && r.Ok? ==> r.value == if v.Undefined? then f.default else v.s
  {
    match f
    case StringField(_, requiredError, checks) =>
      if v.Undefined? then Err([requiredError.GetOr("Required")])
      else if !v.Str? then Err(["Expected string, received " + TypeName(v)])
      else
        var failed := FailedChecks(checks, v.s, isEmail);
        if |failed| == 0 then Ok(v.s) else Err(failed)
    case EnumField(_, options, default) =>
      if v.Undefined? then Ok(default)
      else if !v.Str? then Err(["Expected " + Quoted(options) + ", received " + TypeName(v)])
      else if v.s in options then Ok(v.s)
      else Err(["Invalid enum value. Expected " + Quoted(options) + ", received '" + v.s + "'"])
  }

  function IssuesOf(key: string, messages: seq<string>): (r: seq<Issue>)
    ensures |r| == |messages|
    ensures forall i :: 0 <= i < |r| ==> r[i] == Issue(Some(key), messages[i])
  {
    seq(|messages|, i requires 0 <= i < |messages| => Issue(Some(key), messages[i]))
  }

  /** Every field accepts its property of `data`. */
  predicate AllAccept(fields: seq<Field>, data: JsValue, isEmail: string -> bool) {
    forall i :: 0 <= i < |fields| ==> ParseField(fields[i], Get(data, fields[i].key), isEmail).Ok?
  }

  /** The fields' issues in field order, and their parsed values. */
  function ParseFields(fields: seq<Field>, data: JsValue, isEmail: string -> bool): (r: (seq<Issue>, map<string, string>))
    ensures |r.0| == 0 <==> AllAccept(fields, data, isEmail)
    ensures forall i :: 0 <= i < |r.0| ==> r.0[i].path.Some?
    ensures |r.0| == 0 ==> forall i :: 0 <= i < |fields| ==> fields[i].key in r.1
  {
    if |fields| == 0 then ([], map[])
    else
      var (issues, values) := ParseFields(fields[1..], data, isEmail);
      assert forall i :: 1 <= i < |fields| ==> fields[i] == fields[1..][i - 1];
      match ParseField(fields[0], Get(data, fields[0].key), isEmail)
      case Ok(value) => (issues, values[fields[0].key := value])
      case Err(messages) => (IssuesOf(fields[0].key, messages) + issues, values)
  }

  /** `schema.parse(data)`: the parsed object, or the issues of the thrown
      `ZodError` (a single issue when `data` is not an object at all). */
  function Parse(fields: seq<Field>, data: JsValue, isEmail: string -> bool): (r: Result<map<string, string>, seq<Issue>>)
    ensures r.Ok? <==> data.Object? && AllAccept(fields, data, isEmail)
    ensures r.Err? ==> |r.error| > 0
    ensures !data.Object? ==> r == Err([Issue(None, "Expected object, received " + TypeName(data))])
    ensures r.Ok? ==> forall i :: 0 <= i < |fields| ==> fields[i].key in r.value
  {
    if !data.Object? then Err([Issue(None, "Expected object, received " + TypeName(data))])
    else
      var (issues, values) := ParseFields(fields, data, isEmail);
      if |issues| == 0 then Ok(values) else Err(issues)
  }

  /** `Object.values(error.flatten().fieldErrors).flat()`: the messages of
      the field issues, grouped per field in order of first appearance; an
      issue of the object itself is not a field error. Fields appear in
      declaration order, so this is the field issues' messages in order. */
  function FlattenFieldErrors(issues: seq<Issue>): (r: seq<string>)
    ensures |r| <= |issues|
    ensures (forall i :: 0 <= i < |issues| ==> issues[i].path.Some?) ==> |r| == |issues|
    ensures (forall i :: 0 <= i < |issues| ==> issues[i].path.None?) ==> r == []
  {
    if |issues| == 0 then []
    else
      var rest := FlattenFieldErrors(issues[1..]);
      assert forall i :: 1 <= i < |issues| ==> issues[i] == issues[1..][i - 1];
      if issues[0].path.Some? then [issues[0].message] + rest else rest
  }

  /** The field values a successful parse yields: a string field's value is
      the submitted string, an enum field's value is the submitted option or
      its default. */
  lemma {:induction false} ParsedValues(fields: seq<Field>, data: JsValue, isEmail: string -> bool, i: nat)
    requires i < |fields|
    requires forall j :: 0 <= j < i ==> fields[j].key != fields[i].key
    requires Parse(fields, data, isEmail).Ok?
    ensures fields[i].StringField? ==>
              Get(data, fields[i].key).Str? && Parse(fields, data, isEmail).value[fields[i].key] == Get(data, fields[i].key).s
    ensures fields[i].EnumField? ==>
              Parse(fields, data, isEmail).value[fields[i].key] ==
              if Get(data, fields[i].key).Undefined? then fields[i].default else Get(data, fields[i].key).s
  {
    ParsedFieldValue(fields, data, isEmail, i);
  }

  lemma {:induction false} ParsedFieldValue(fields: seq<Field>, data: JsValue, isEmail: string -> bool, i: nat)
    requires i < |fields|
    requires forall j :: 0 <= j < i ==> fields[j].key != fields[i].key
    requires AllAccept(fields, data, isEmail)
    ensures ParseField(fields[i], Get(data, fields[i].key), isEmail).Ok?
    ensures fields[i].key in ParseFields(fields, data, isEmail).1
    ensures ParseFields(fields, data, isEmail).1[fields[i].key] == ParseField(fields[i], Get(data, fields[i].key), isEmail).value
    decreases i
  {
    assert ParseField(fields[i], Get(data, fields[i].key), isEmail).Ok?;
    if i > 0 {
      assert forall j :: 1 <= j < |fields| ==> fields[j] == fields[1..][j - 1];
      assert AllAccept(fields[1..], data, isEmail) by {
        forall j | 0 <= j < |fields[1..]|
          ensures ParseField(fields[1..][j], Get(data, fields[1..][j].key), isEmail).Ok?
        {
          assert fields[1..][j] == fields[j + 1];
        }
      }
      ParsedFieldValue(fields[1..], data, isEmail, i - 1);
    }
  }
}

=== FILE: seqs.dfy ===
/** Sequence helpers standing in for the array methods and the database's
    `where` / `orderBy ... desc` / `take` clauses: filtering, counting,
    truncation and a stable descending sort by an integer key. */
module Seqs {

  /** `s.filter(p)`: the elements of `s` satisfying `p`, in their order. */
  function Filter<T>(s: seq<T>, p: T -> bool): (r: seq<T>)
    ensures |r| <= |s|
    ensures forall i :: 0 <= i < |r| ==> p(r[i]) && r[i] in s
    ensures forall i :: 0 <= i < |s| && p(s[i]) ==> s[i] in r
  {
    if |s| == 0 then []
    else
      var rest := Filter(s[1..], p);
      assert forall i :: 1 <= i < |s| ==> s[i] == s[1..][i - 1];
      if p(s[0]) then [s[0]] + rest else rest
  }

  /** Filtering distributes over concatenation. */
  lemma {:induction false} FilterConcat<T>(a: seq<T>, b: seq<T>, p: T -> bool)
    ensures Filter(a + b, p) == Filter(a, p) + Filter(b, p)
    decreases |a|
  {
    if |a| > 0 {
      assert (a + b)[1..] == a[1..] + b;
      FilterConcat(a[1..], b, p);
    } else {
      assert a + b == b;
    }
  }

  /** A filter every element passes keeps the sequence as it is. */
  lemma {:induction false} FilterKeepsAll<T>(s: seq<T>, p: T -> bool)
    requires forall i :: 0 <= i < |s| ==> p(s[i])
    ensures Filter(s, p) == s
  {
    if |s| > 0 {
      FilterKeepsAll(s[1..], p);
      assert [s[0]] + s[1..] == s;
    }
  }

  /** The number of elements of `s` satisfying `p`. */
  function Count<T>(s: seq<T>, p: T -> bool): nat {
    |Filter(s, p)|
  }

  /** `s.slice(0, n)`, or a `take: n` clause. */
  function Take<T>(s: seq<T>, n: nat): (r: seq<T>)
    ensures |r| == if |s| < n then |s| else n
    ensures r == s[..|r|]
  {
    if |s| <= n then s else s[..n]
  }

  /** Every element is keyed no lower than the elements after it. */
  ghost predicate SortedDesc<T>(s: seq<T>, key: T -> int) {
    forall i, j :: 0 <= i < j < |s| ==> key(s[i]) >= key(s[j])
  }

  /** Prefixing a sorted sequence with an element keyed no lower than any
      of its elements keeps it sorted. */
  lemma ConsSorted<T>(x: T, s: seq<T>, key: T -> int)
    requires SortedDesc(s, key)
    requires forall i :: 0 <= i < |s| ==> key(x) >= key(s[i])
    ensures SortedDesc([x] + s, key)
  {
    var r := [x] + s;
    forall i, j | 0 <= i < j < |r|
      ensures key(r[i]) >= key(r[j])
    {
      assert r[j] == s[j - 1];
      if i > 0 {
        assert r[i] == s[i - 1];
      }
    }
  }

  /** Inserts `x` before the first element whose key does not exceed its own. */
  function InsertDesc<T>(x: T, s: seq<T>, key: T -> int): (r: seq<T>)
    requires SortedDesc(s, key)
    ensures |r| == |s| + 1
    ensures SortedDesc(r, key)
    ensures multiset(r) == multiset{x} + multiset(s)
    ensures forall i :: 0 <= i < |r| ==> r[i] == x || r[i] in s
  {
    if |s| == 0 then [x]
    else if key(x) >= key(s[0]) then
      ConsSorted(x, s, key);
      [x] + s
    else
      var rest := InsertDesc(x, s[1..], key);
      HeadBoundsInsertion(x, s, key, rest);
      ConsSorted(s[0], rest, key);
      assert s == [s[0]] + s[1..];
      assert multiset([s[0]] + rest) == multiset{s[0]} + multiset(rest);
      [s[0]] + rest
  }

  /** Inserting below the head of a sorted sequence keeps every element of
      the tail's insertion keyed no higher than the head. */
  lemma HeadBoundsInsertion<T>(x: T, s: seq<T>, key: T -> int, rest: seq<T>)
    requires |s| > 0 && SortedDesc(s, key) && key(x) < key(s[0])
    requires forall i :: 0 <= i < |rest| ==> rest[i] == x || rest[i] in s[1..]
    ensures forall i :: 0 <= i < |rest| ==> key(s[0]) >= key(rest[i])
  {
    forall i | 0 <= i < |rest|
      ensures key(s[0]) >= key(rest[i])
    {
      if rest[i] != x {
        var j :| 0 <= j < |s[1..]| && s[1..][j] == rest[i];
        assert s[j + 1] == rest[i];
      }
    }
  }

  /** A stable sort by descending key, as `orderBy: { createdAt: 'desc' }` or
      `sort((a, b) => key(b) - key(a))`: the result is ordered and is a
      permutation of the input. */
  function SortDesc<T>(s: seq<T>, key: T -> int): (r: seq<T>)
    ensures |r| == |s|
    ensures SortedDesc(r, key)
    ensures multiset(r) == multiset(s)
  {
    if |s| == 0 then []
    else
      assert s == [s[0]] + s[1..];
      InsertDesc(s[0], SortDesc(s[1..], key), key)
  }

  /** A prefix of a sorted sequence is sorted. */
  lemma PrefixSorted<T>(s: seq<T>, n: nat, key: T -> int)
    requires SortedDesc(s, key) && n <= |s|
    ensures SortedDesc(s[..n], key)
  {
    var p := s[..n];
    forall i, j | 0 <= i < j < |p|
      ensures key(p[i]) >= key(p[j])
    {
      assert p[i] == s[i] && p[j] == s[j];
    }
  }

  /** Sorting only rearranges: every element of the result is an input. */
  lemma SortDescWithin<T>(s: seq<T>, key: T -> int)
    ensures forall i :: 0 <= i < |SortDesc(s, key)| ==> SortDesc(s, key)[i] in s
  {
    var r := SortDesc(s, key);
    forall i | 0 <= i < |r|
      ensures r[i] in s
    {
      assert r[i] in multiset(r);
    }
  }

  /** The first `n` of a sorted permutation keep the highest keys: nothing
      left out is keyed above anything kept. */
  lemma TopKeepsTheHighest<T>(s: seq<T>, key: T -> int, n: nat)
    ensures var top := Take(SortDesc(s, key), n);
            forall x, i :: x in s && x !in top && 0 <= i < |top| ==> key(x) <= key(top[i])
  {
    var sorted := SortDesc(s, key);
    var top := Take(sorted, n);
    forall x, i | x in s && x !in top && 0 <= i < |top|
      ensures key(x) <= key(top[i])
    {
      assert x in multiset(sorted);
      var j :| 0 <= j < |sorted| && sorted[j] == x;
      assert j >= |top| by {
        assert forall m :: 0 <= m < |top| ==> top[m] == sorted[m] && top[m] != x;
      }
      assert top[i] == sorted[i];
    }
  }

  /** A non-empty sequence has a member: its first element. */
  lemma HeadIsMember<T>(s: seq<T>)
    ensures s == [] || s[0] in s
  {
  }
}

=== FILE: session.dfy ===
/** The session credential lifecycle of src/lib/server/session.ts.

    The persisted session table is a map from session id to record. The
    random bytes of `crypto.getRandomValues` and the clock are parameters,
    and SHA-256 (FIPS 180-4) of the UTF-8 encoded secret is the abstract
    function `hash`. */
module Session {
  import opened Wrappers
  import Text

  type Byte = bv8
  type Digest = seq<Byte>

  /** The alphabet of `generateSecureRandomString`. It has 33 characters, but
      an index `byte >> 3` never exceeds 31, so only the first 32 are ever
      produced. */
  const Reachable: string := "abcdefghijklmnpqrstuvwxyz2345678"
  const Alphabet: string := Reachable + "9"

  /** Number of random bytes, and so of characters, in an id or a secret. */
  const RandomLength: nat := 24

  /** `ms('10d')`: absolute age after which `getSession` discards a session. */
  const InactivityTimeoutMs: int := 10 * 24 * 60 * 60 * 1000
  /** `ms('1h')`: minimum spacing of `lastVerifiedAt` refreshes. */
  const ActivityCheckIntervalMs: int := 60 * 60 * 1000

  datatype Session = Session(id: string, userId: string, secretHash: Digest, createdAt: int, lastVerifiedAt: int)

  /** What `createSession` returns: the stored record plus the token. */
  datatype IssuedSession = IssuedSession(session: Session, token: string)

  /** The session table, keyed by session id. */
  type Store = map<string, Session>

  datatype SessionError =
    | UniqueConstraintViolation  // create with an id already present
    | RecordNotFound             // delete of an absent row
    | ThrewNull                  // `throw null` in getSession

  /** Every record is stored under its own id. */
  ghost predicate WellKeyed(store: Store) {
    forall k :: k in store ==> store[k].id == k
  }

  // ---------------------------------------------------------------------------
  // Random identifiers

  /** The characters of the loop in `generateSecureRandomString`, appended one
      per byte: character i is `alphabet[bytes[i] >> 3]`. */
  function Encode(bytes: seq<Byte>): (s: string)
    ensures |s| == |bytes|
    ensures forall i :: 0 <= i < |s| ==> s[i] == Symbol(bytes[i])
  {
    seq(|bytes|, i requires 0 <= i < |bytes| => Symbol(bytes[i]))
  }

  /** `alphabet[byte >> 3]`: the index never exceeds 31, so the character
      is one of the first 32. */
  function Symbol(b: Byte): (c: char)
    ensures (b >> 3) as int < |Reachable| && c == Reachable[(b >> 3) as int]
    ensures c in Reachable
  {
    var k := (b >> 3) as int;
    assert k < 32;
    assert Alphabet[k] == Reachable[k];
    Alphabet[k]
  }

  /** `generateSecureRandomString()` given the 24 random bytes it draws: a
      24-character string over the first 32 alphabet characters, so never
      containing '9' nor the token separator '.'. */
  function GenerateSecureRandomString(bytes: seq<Byte>): (s: string)
    requires |bytes| == RandomLength
    ensures |s| == RandomLength
    ensures forall i :: 0 <= i < |s| ==> s[i] == Alphabet[(bytes[i] >> 3) as int]
    ensures forall i :: 0 <= i < |s| ==> s[i] in Reachable
    ensures '9' !in s && '.' !in s
  {
    var s := Encode(bytes);
    ReachableExcludes();
    s
  }

  lemma ReachableExcludes()
    ensures '9' !in Reachable && '.' !in Reachable
  {
  }

  /** The position of a reachable character: letters `a`-`n`, then `p`-`z`,
      then digits `2`-`8`. */
  function PositionOf(c: char): int {
    if 'a' <= c <= 'n' then c as int - 'a' as int
    else if 'p' <= c <= 'z' then c as int - 'a' as int - 1
    else c as int - '2' as int + 25
  }

  /** The 32 reachable characters are pairwise different. */
  lemma ReachableDistinct()
    ensures forall j, k :: 0 <= j < k < |Reachable| ==> Reachable[j] != Reachable[k]
  {
    assert forall k :: 0 <= k < |Reachable| ==> PositionOf(Reachable[k]) == k;
  }

  /** Every reachable character is the symbol of some byte: the k-th is
      that of `k << 3`. */
  lemma SymbolOnto(k: nat) returns (b: Byte)
    requires k < |Reachable|
    ensures Symbol(b) == Reachable[k]
  {
    b := ByteWithTopBits(k);
  }

  lemma ByteWithTopBits(k: nat) returns (b: Byte)
    requires k < 32
    ensures (b >> 3) as int == k
  {
    var x := k as bv8;
    assert (x << 3) >> 3 == x;
    b := x << 3;
  }

  /** The string carries exactly the top five bits of every byte: two draws
      give the same string iff their bytes agree on those bits, and each
      character can take any of 32 values. So a string holds 24 × 5 = 120
      random bits. */
  lemma RandomStringKeepsTopBits(bytes: seq<Byte>, other: seq<Byte>)
    requires |bytes| == RandomLength && |other| == RandomLength
    ensures GenerateSecureRandomString(bytes) == GenerateSecureRandomString(other) <==>
              forall i :: 0 <= i < RandomLength ==> bytes[i] >> 3 == other[i] >> 3
  {
    var s, t := GenerateSecureRandomString(bytes), GenerateSecureRandomString(other);
    ReachableDistinct();
    if s == t {
      forall i | 0 <= i < RandomLength
        ensures bytes[i] >> 3 == other[i] >> 3
      {
        assert Symbol(bytes[i]) == s[i] == t[i] == Symbol(other[i]);
        assert (bytes[i] >> 3) as int == (other[i] >> 3) as int;
      }
    }
    if forall i :: 0 <= i < RandomLength ==> bytes[i] >> 3 == other[i] >> 3 {
      assert forall i :: 0 <= i < RandomLength ==> s[i] == t[i];
    }
  }

  // ---------------------------------------------------------------------------
  // Constant-time comparison

  /** `c |= a[i] ^ b[i]` accumulated over the first `n` indices; every index
      is visited, whatever the bytes. */
  function XorFold(a: Digest, b: Digest, n: nat): bv8
    requires n <= |a| && n <= |b|
  {
    if n == 0 then 0 else XorFold(a, b, n - 1) | (a[n - 1] ^ b[n - 1])
  }

  lemma OrXorZero(c: bv8, x: bv8, y: bv8)
    ensures (c | (x ^ y)) == 0 <==> c == 0 && x == y
  {
  }

  /** The accumulator stays zero exactly while the prefixes agree. */
  lemma {:induction false} XorFoldZeroIffPrefixEqual(a: Digest, b: Digest, n: nat)
    requires n <= |a| && n <= |b|
    ensures XorFold(a, b, n) == 0 <==> a[..n] == b[..n]
  {
    if n > 0 {
      XorFoldZeroIffPrefixEqual(a, b, n - 1);
      assert a[..n] == a[..n - 1] + [a[n - 1]];
      assert b[..n] == b[..n - 1] + [b[n - 1]];
      OrXorZero(XorFold(a, b, n - 1), a[n - 1], b[n - 1]);
    }
  }

  /** `constantTimeEqual(a, b)`: false on a length mismatch, otherwise the
      XOR-accumulation over every index is zero; that is, byte equality. */
  function ConstantTimeEqual(a: Digest, b: Digest): (r: bool)
    ensures r <==> a == b
  {
    if |a| != |b| then false
    else
      XorFoldZeroIffPrefixEqual(a, b, |a|);
      assert a[..|a|] == a && b[..|b|] == b;
      XorFold(a, b, |a|) == 0
  }

  /** The loop of `constantTimeEqual`, counting its iterations: when the
      lengths agree it runs over every index, with no early exit, whatever
      the bytes, and its verdict is byte equality. */
  method ConstantTimeEqualLoop(a: Digest, b: Digest) returns (equal: bool, iterations: nat)
    ensures equal <==> a == b
    ensures iterations == if |a| == |b| then |a| else 0
  {
    if |a| != |b| {
      return false, 0;
    }
    var c: bv8 := 0;
    var i := 0;
    while i < |a|
      invariant 0 <= i <= |a|
      invariant c == XorFold(a, b, i)
    {
      c := c | (a[i] ^ b[i]);
      i := i + 1;
    }
    XorFoldZeroIffPrefixEqual(a, b, |a|);
    assert a[..|a|] == a && b[..|b|] == b;
    equal := c == 0;
    iterations := i;
  }

  // ---------------------------------------------------------------------------
  // Creation and validation

  /** `createSession(userId)`: draws an id and a secret, stores the secret's
      hash under the id with `createdAt == lastVerifiedAt == now`, and returns
      the token `id.secret`. Inserting an id already present violates the
      table's primary key and fails. */
  function CreateSession(store: Store, userId: string, idBytes: seq<Byte>, secretBytes: seq<Byte>,
                         now: int, hash: string -> Digest): (r: Result<(IssuedSession, Store), SessionError>)
    requires |idBytes| == RandomLength && |secretBytes| == RandomLength
    ensures r.Err? <==> GenerateSecureRandomString(idBytes) in store
    ensures r.Err? ==> r.error == UniqueConstraintViolation
    ensures r.Ok? ==>
              var (issued, store') := r.value;
              var secret := GenerateSecureRandomString(secretBytes);
              && issued.session.id == GenerateSecureRandomString(idBytes)
              && issued.token == issued.session.id + "." + secret
              && |issued.token| == 2 * RandomLength + 1
              && issued.session.userId == userId
              && issued.session.secretHash == hash(secret)
              && issued.session.createdAt == now && issued.session.lastVerifiedAt == now
              && store'.Keys == store.Keys + {issued.session.id}
              && store'[issued.session.id] == issued.session
              && (forall k :: k in store ==> store'[k] == store[k])
  {
    var id := GenerateSecureRandomString(idBytes);
    var secret := GenerateSecureRandomString(secretBytes);
    var session := Session(id, userId, hash(secret), now, now);
    if id in store then Err(UniqueConstraintViolation)
    else Ok((IssuedSession(session, id + "." + secret), store[id := session]))
  }

  /** Creation keeps every record under its own id. */
  lemma CreateSessionWellKeyed(store: Store, userId: string, idBytes: seq<Byte>, secretBytes: seq<Byte>,
                               now: int, hash: string -> Digest)
    requires |idBytes| == RandomLength && |secretBytes| == RandomLength
    requires WellKeyed(store)
    ensures var r := CreateSession(store, userId, idBytes, secretBytes, now, hash);
            r.Ok? ==> WellKeyed(r.value.1)
  {
  }

  /** `const [sessionId, sessionSecret] = token.split('.')`: the first segment,
      and the second one, which is `undefined` when the token has no '.'. */
  function TokenSegments(token: string): (r: (string, Option<string>))
    ensures '.' !in r.0 && (r.1.Some? ==> '.' !in r.1.value)
    ensures r.1.None? <==> '.' !in token
    ensures r.1.None? ==> r.0 == token
  {
    var parts := Text.Split(token, '.');
    Text.SplitSingle(token, '.');
    (parts[0], if |parts| > 1 then Some(parts[1]) else None)
  }

  /** The first segment of `secret.rest` is `secret`. */
  lemma FirstSegmentBeforeRest(secret: string, rest: string)
    requires '.' !in secret
    ensures Text.Split(secret + "." + rest, '.')[0] == secret
  {
    assert secret + "." + rest == secret + ['.'] + rest;
    Text.SplitCons(secret, '.', rest);
  }

  /** The first segment of `secret` or `secret.rest` is `secret`. */
  lemma FirstSegmentOfTail(secret: string, rest: Option<string>)
    requires '.' !in secret
    ensures Text.Split(secret + (if rest.Some? then "." + rest.value else ""), '.')[0] == secret
  {
    if rest.Some? {
      assert secret + ("." + rest.value) == secret + "." + rest.value;
      FirstSegmentBeforeRest(secret, rest.value);
    } else {
      assert secret + "" == secret;
      Text.SplitNoSeparator(secret, '.');
    }
  }

  /** Segments after the second are ignored: `id.secret.rest` reads as
      `id.secret`. */
  lemma {:induction false} TokenSegmentsOfComposite(id: string, secret: string, rest: Option<string>)
    requires '.' !in id && '.' !in secret
    ensures var token := id + "." + secret + (if rest.Some? then "." + rest.value else "");
            TokenSegments(token) == (id, Some(secret))
  {
    var tail := secret + (if rest.Some? then "." + rest.value else "");
    var token := id + "." + secret + (if rest.Some? then "." + rest.value else "");
    assert token == id + ['.'] + tail;
    FirstSegmentOfTail(secret, rest);
    Text.SplitCons(id, '.', tail);
    assert Text.Split(token, '.') == [id] + Text.Split(tail, '.');
  }

  /** The three conditions under which a token is accepted: both segments
      present and non-empty, the id stored, and the secret's hash equal to the
      stored one. */
  ghost predicate Accepts(store: Store, token: string, hash: string -> Digest) {
    var (id, secret) := TokenSegments(token);
    && id != "" && secret.Some? && secret.value != ""
    && id in store
    && store[id].secretHash == hash(secret.value)
  }

  /** `validateSessionToken(token)` at time `now`, returning the session (or
      null) and the store afterwards. On acceptance, `lastVerifiedAt` is
      moved to `now` exactly when at least an hour has passed since it;
      nothing else in the store ever changes. */
  function ValidateSessionToken(store: Store, token: string, now: int, hash: string -> Digest): (r: (Option<Session>, Store))
    ensures r.0.Some? <==> Accepts(store, token, hash)
    ensures r.0.None? ==> r.1 == store
    ensures r.1.Keys == store.Keys
    ensures r.0.Some? ==>
              var id := TokenSegments(token).0;
              var old_ := store[id];
              && r.0.value == r.1[id]
              && r.0.value.id == old_.id && r.0.value.userId == old_.userId
              && r.0.value.secretHash == old_.secretHash && r.0.value.createdAt == old_.createdAt
              && (now - old_.lastVerifiedAt >= ActivityCheckIntervalMs ==> r.0.value.lastVerifiedAt == now)
              && (now - old_.lastVerifiedAt < ActivityCheckIntervalMs ==> r.1 == store)
              && (forall k :: k in store && k != id ==> r.1[k] == store[k])
  {
    var (sessionId, sessionSecret) := TokenSegments(token);
    if sessionId == "" || sessionSecret.None? || sessionSecret.value == "" then (None, store)
    else if sessionId !in store then (None, store)
    else
      var session := store[sessionId];
      var tokenSecretHash := hash(sessionSecret.value);
      if !ConstantTimeEqual(session.secretHash, tokenSecretHash) then (None, store)
      else if now - session.lastVerifiedAt >= ActivityCheckIntervalMs then
        var touched := session.(lastVerifiedAt := now);
        (Some(touched), store[sessionId := touched])
      else
        (Some(session), store)
  }

  /** Round trip: the token `createSession` hands out validates, at any later
      time, to the session it created, with the same id and owner. */
  lemma {:induction false} CreateThenValidate(store: Store, userId: string, idBytes: seq<Byte>, secretBytes: seq<Byte>,
                                              now: int, later: int, hash: string -> Digest)
    requires |idBytes| == RandomLength && |secretBytes| == RandomLength
    requires CreateSession(store, userId, idBytes, secretBytes, now, hash).Ok?
    ensures var (issued, store') := CreateSession(store, userId, idBytes, secretBytes, now, hash).value;
            var (found, _) := ValidateSessionToken(store', issued.token, later, hash);
            found.Some? && found.value.id == issued.session.id && found.value.userId == userId
  {
    var (issued, store') := CreateSession(store, userId, idBytes, secretBytes, now, hash).value;
    var id := GenerateSecureRandomString(idBytes);
    var secret := GenerateSecureRandomString(secretBytes);
    TokenSegmentsOfComposite(id, secret, None);
    assert issued.token == id + "." + secret + "";
    assert Accepts(store', issued.token, hash);
  }

  /** A token whose secret differs from the issued one, under a hash that
      tells the two secrets apart, is rejected and leaves the store alone. This
      covers changing any single character of the secret. */
  lemma WrongSecretRejected(store: Store, id: string, secret: string, forged: string, now: int, hash: string -> Digest)
    requires '.' !in id && '.' !in forged
    requires id in store && store[id].secretHash == hash(secret)
    requires hash(forged) != hash(secret)
    ensures ValidateSessionToken(store, id + "." + forged, now, hash) == (None, store)
  {
    TokenSegmentsOfComposite(id, forged, None);
    assert id + "." + forged + "" == id + "." + forged;
  }

  /** A token without a '.' separator, or with an empty id or secret segment,
      is rejected whatever the store holds. */
  lemma MalformedTokenRejected(store: Store, token: string, now: int, hash: string -> Digest)
    requires var (id, secret) := TokenSegments(token); id == "" || secret.None? || secret.value == ""
    ensures ValidateSessionToken(store, token, now, hash) == (None, store)
  {
  }

  /** An unknown id is rejected whatever the secret. */
  lemma UnknownIdRejected(store: Store, token: string, now: int, hash: string -> Digest)
    requires TokenSegments(token).0 !in store
    ensures ValidateSessionToken(store, token, now, hash) == (None, store)
  {
  }

  // ---------------------------------------------------------------------------
  // Lookup by id and deletion

  /** `getSession(sessionId)`: throws `null` when the id is unknown; deletes
      the session and returns null once it is ten days old or older (by
      absolute age, not idleness); otherwise returns it unchanged. */
  function GetSession(store: Store, sessionId: string, now: int): (r: Result<(Option<Session>, Store), SessionError>)
    ensures r.Err? <==> sessionId !in store
    ensures r.Err? ==> r.error == ThrewNull
    ensures r.Ok? && now - store[sessionId].createdAt >= InactivityTimeoutMs ==>
              r.value.0.None? && r.value.1 == store - {sessionId}
    ensures r.Ok? && now - store[sessionId].createdAt < InactivityTimeoutMs ==>
              r.value == (Some(store[sessionId]), store)
  {
    if sessionId !in store then Err(ThrewNull)
    else
      var session := store[sessionId];
      if now - session.createdAt >= InactivityTimeoutMs then
        match DeleteSession(store, sessionId)
        case Ok(store') => Ok((None, store'))
        case Err(e) => Err(e)
      else
        Ok((Some(session), store))
  }

  /** Expiry is final: once `getSession` has discarded an expired session,
      asking again for the same id throws rather than returning null. */
  lemma ExpiredSessionThenThrows(store: Store, sessionId: string, now: int, later: int)
    requires sessionId in store && now - store[sessionId].createdAt >= InactivityTimeoutMs
    ensures var r := GetSession(store, sessionId, now);
            r.Ok? && r.value.0.None? && GetSession(r.value.1, sessionId, later) == Err(ThrewNull)
  {
  }

  /** `deleteSession(sessionId)`: a delete by primary key, which fails when
      the row is absent (so a second delete of the same id fails). */
  function DeleteSession(store: Store, sessionId: string): (r: Result<Store, SessionError>)
    ensures r.Err? <==> sessionId !in store
    ensures r.Err? ==> r.error == RecordNotFound
    ensures r.Ok? ==> r.value.Keys == store.Keys - {sessionId}
    ensures r.Ok? ==> forall k :: k in r.value ==> r.value[k] == store[k]
  {
    if sessionId in store then Ok(store - {sessionId}) else Err(RecordNotFound)
  }

  // ---------------------------------------------------------------------------
  // The session cookie (attributes of section 4.1.2 of RFC 6265)

  datatype SameSite = Lax | Strict | NoRestriction

  datatype CookieOptions = CookieOptions(httpOnly: bool, sameSite: SameSite, maxAge: nat, path: string, secure: bool)

  datatype Cookie = Cookie(value: string, options: CookieOptions)

  /** A browser identifies a cookie by its name and path. */
  datatype CookieKey = CookieKey(name: string, path: string)

  type CookieJar = map<CookieKey, Cookie>

  const SessionCookieName: string := "session"
  /** `ms('1d') / 1000`: Max-Age is in seconds. */
  const SessionCookieMaxAge: nat := 24 * 60 * 60

  /** The attributes `setSessionTokenCookie` sets. */
  function SessionCookieOptions(nodeEnv: string): (o: CookieOptions)
    ensures o.httpOnly && o.sameSite == Lax && o.path == "/" && o.maxAge == 86400
    ensures o.secure <==> nodeEnv == "production"
  {
    CookieOptions(true, Lax, SessionCookieMaxAge, "/", nodeEnv == "production")
  }

  /** `setSessionTokenCookie(cookies, token)`: the cookie `session` on path
      `/` now holds the token; other cookies are untouched. */
  function SetSessionTokenCookie(jar: CookieJar, token: string, nodeEnv: string): (r: CookieJar)
    ensures CookieKey(SessionCookieName, "/") in r
    ensures r[CookieKey(SessionCookieName, "/")] == Cookie(token, SessionCookieOptions(nodeEnv))
    ensures forall k :: k in jar && k != CookieKey(SessionCookieName, "/") ==> k in r && r[k] == jar[k]
    ensures r.Keys == jar.Keys + {CookieKey(SessionCookieName, "/")}
  {
    jar[CookieKey(SessionCookieName, "/") := Cookie(token, SessionCookieOptions(nodeEnv))]
  }

  /** `deleteSessionTokenCookie(cookies)`: expires the cookie `session` on
      path `/`; other cookies are untouched. */
  function DeleteSessionTokenCookie(jar: CookieJar): (r: CookieJar)
    ensures CookieKey(SessionCookieName, "/") !in r
    ensures r.Keys == jar.Keys - {CookieKey(SessionCookieName, "/")}
    ensures forall k :: k in r ==> r[k] == jar[k]
  {
    jar - {CookieKey(SessionCookieName, "/")}
  }

  /** Deletion uses the path the cookie was set with, so it removes exactly
      the cookie that setting added. */
  lemma DeleteUndoesSet(jar: CookieJar, token: string, nodeEnv: string)
    requires CookieKey(SessionCookieName, "/") !in jar
    ensures DeleteSessionTokenCookie(SetSessionTokenCookie(jar, token, nodeEnv)) == jar
  {
  }
}

=== FILE: tasks.dfy ===
/** GET /api/projects/tasks (src/routes/api/projects/tasks/+server.ts): every
    task of the projects the signed-in user created, newest first, with
    display labels for status and priority and public URLs for its files. The
    storage host and bucket are parameters. */
module TasksRoute {
  import opened Wrappers
  import opened Db
  import opened Http
  import Seqs
  import Text

  /** `status.toLowerCase().replace('inprogress', 'in-progress')`. */
  function StatusLabel(status: string): (shown: string)
    ensures Text.IndexOf(Text.ToLower(status), "inprogress").None? ==> shown == Text.ToLower(status)
    ensures Text.IndexOf(Text.ToLower(status), "inprogress").Some? ==> |shown| == |status| + 1
  {
    Text.ReplaceFirst(Text.ToLower(status), "inprogress", "in-progress")
  }

  lemma StatusLabelTodo()
    ensures StatusLabel("Todo") == "todo"
  {
    assert Text.ToLower("Todo") == "todo";
  }

  lemma StatusLabelInProgress()
    ensures StatusLabel("InProgress") == "in-progress"
  {
    assert Text.ToLower("InProgress") == "inprogress";
    assert Text.OccursAt("inprogress", "inprogress", 0);
  }

  lemma StatusLabelDone()
    ensures StatusLabel("Done") == "done"
  {
    assert Text.ToLower("Done") == "done";
  }

  /** 1 is 'low', 2 'medium', anything else 'high'. */
  function PriorityLabel(priority: int): (shown: string)
    ensures shown == "low" <==> priority == 1
    ensures shown == "medium" <==> priority == 2
    ensures shown == "high" <==> priority != 1 && priority != 2
  {
    if priority == 1 then "low" else if priority == 2 then "medium" else "high"
  }

  datatype UserRef = UserRef(id: string, name: string, profilePictureUrl: Option<string>)

  datatype FileView = FileView(id: string, name: string, path: string, uploadedAt: int)

  datatype TaskView = TaskView(
    id: string,
    title: string,
    description: Option<string>,
    status: string,
    priority: string,
    projectId: string,
    projectName: string,
    createdAt: int,
    updatedAt: int,
    user: UserRef,
    files: seq<FileView>)

  /** The creator of the task's project, if the project exists. */
  function OwnerOf(db: Db, t: Task): Option<string> {
    match FindProjectById(db.projects, t.projectId)
    case None => None
    case Some(p) => Some(p.createdBy)
  }

  /** `task.findMany({ where: { project: { createdBy: userId } } })`. */
  function OwnedTasks(db: Db, userId: string): (r: seq<Task>)
    ensures forall t :: t in r <==> t in db.tasks && OwnerOf(db, t) == Some(userId)
  {
    Seqs.Filter(db.tasks, (t: Task) => OwnerOf(db, t) == Some(userId))
  }

  /** The task's files (`include: { file: true }`), in table order. */
  function TaskFiles(db: Db, taskId: string): (r: seq<StoredFile>)
    ensures forall f :: f in r <==> f in db.files && f.taskId == Some(taskId)
  {
    Seqs.Filter(db.files, (f: StoredFile) => f.taskId == Some(taskId))
  }

  function FileViews(files: seq<StoredFile>, host: string, bucket: string): (r: seq<FileView>)
    ensures |r| == |files|
    ensures forall i :: 0 <= i < |r| ==>
              r[i] == FileView(files[i].id, files[i].name, PublicUrl(host, bucket, files[i].path), files[i].uploadedAt)
  {
    seq(|files|, i requires 0 <= i < |files| =>
      FileView(files[i].id, files[i].name, PublicUrl(host, bucket, files[i].path), files[i].uploadedAt))
  }

  /** One entry of the answer. */
  function ViewOf(db: Db, t: Task, project: Project, user: User, host: string, bucket: string): (v: TaskView)
    ensures v.id == t.id && v.title == t.title && v.description == t.description
    ensures v.status == StatusLabel(t.status) && v.priority == PriorityLabel(t.priority)
    ensures v.projectId == t.projectId && v.projectName == project.name
    ensures v.createdAt == t.createdAt && v.updatedAt == t.updatedAt
    ensures v.user == UserRef(user.id, user.name, user.profilePictureUrl)
    ensures |v.files| == |TaskFiles(db, t.id)|
    ensures forall i :: 0 <= i < |v.files| ==>
              v.files[i].id == TaskFiles(db, t.id)[i].id &&
              v.files[i].path == PublicUrl(host, bucket, TaskFiles(db, t.id)[i].path)
  {
    TaskView(t.id, t.title, t.description, StatusLabel(t.status), PriorityLabel(t.priority), t.projectId, project.name,
             t.createdAt, t.updatedAt, UserRef(user.id, user.name, user.profilePictureUrl),
             FileViews(TaskFiles(db, t.id), host, bucket))
  }

  function TaskCreatedAt(t: Task): int {
    t.createdAt
  }

  /** The view of every task in order, or `None` when one of them names a
      user that does not exist (reading `task.user.id` then throws). */
  function ViewAll(db: Db, tasks: seq<Task>, host: string, bucket: string): (r: Option<seq<TaskView>>)
    requires forall i :: 0 <= i < |tasks| ==> FindProjectById(db.projects, tasks[i].projectId).Some?
    ensures r.Some? <==> forall i :: 0 <= i < |tasks| ==> FindUserById(db.users, tasks[i].userId).Some?
    ensures r.Some? ==> |r.value| == |tasks|
    ensures r.Some? ==> forall i :: 0 <= i < |tasks| ==>
              r.value[i] == ViewOf(db, tasks[i], FindProjectById(db.projects, tasks[i].projectId).value,
                                   FindUserById(db.users, tasks[i].userId).value, host, bucket)
  {
    if forall i :: 0 <= i < |tasks| ==> FindUserById(db.users, tasks[i].userId).Some? then
      Some(seq(|tasks|, i requires 0 <= i < |tasks| && FindUserById(db.users, tasks[i].userId).Some?
                                    && FindProjectById(db.projects, tasks[i].projectId).Some? =>
        ViewOf(db, tasks[i], FindProjectById(db.projects, tasks[i].projectId).value,
               FindUserById(db.users, tasks[i].userId).value, host, bucket)))
    else None
  }

  /** The user's tasks, newest first. */
  function SortedTasks(db: Db, userId: string): (r: seq<Task>)
    ensures |r| == |OwnedTasks(db, userId)|
    ensures multiset(r) == multiset(OwnedTasks(db, userId))
    ensures forall i :: 0 <= i < |r| ==> r[i] in OwnedTasks(db, userId)
    ensures forall i :: 0 <= i < |r| ==> FindProjectById(db.projects, r[i].projectId).Some?
    ensures Seqs.SortedDesc(r, TaskCreatedAt)
  {
    var owned := OwnedTasks(db, userId);
    var sorted := Seqs.SortDesc(owned, TaskCreatedAt);
    SortedAreOwned(db, userId, sorted);
    sorted
  }

  lemma SortedAreOwned(db: Db, userId: string, sorted: seq<Task>)
    requires multiset(sorted) == multiset(OwnedTasks(db, userId))
    ensures forall i :: 0 <= i < |sorted| ==> sorted[i] in OwnedTasks(db, userId)
    ensures forall i :: 0 <= i < |sorted| ==> FindProjectById(db.projects, sorted[i].projectId).Some?
  {
    forall i | 0 <= i < |sorted|
      ensures sorted[i] in OwnedTasks(db, userId) && FindProjectById(db.projects, sorted[i].projectId).Some?
    {
      assert sorted[i] in multiset(OwnedTasks(db, userId));
      assert OwnerOf(db, sorted[i]) == Some(userId);
    }
  }

  /** The view of a task with its project and its user, or `None` when
      either row is missing. */
  function ViewOfTask(db: Db, t: Task, host: string, bucket: string): (r: Option<TaskView>)
    ensures r.Some? <==> FindProjectById(db.projects, t.projectId).Some? && FindUserById(db.users, t.userId).Some?
  {
    match (FindProjectById(db.projects, t.projectId), FindUserById(db.users, t.userId))
    case (Some(p), Some(u)) => Some(ViewOf(db, t, p, u, host, bucket))
    case _ => None
  }

  /** `views[i]` is the view of `tasks[i]`, for every i. */
  ghost predicate ViewsOf(db: Db, views: seq<TaskView>, tasks: seq<Task>, host: string, bucket: string) {
    && |views| == |tasks|
    && forall i :: 0 <= i < |tasks| ==> ViewOfTask(db, tasks[i], host, bucket) == Some(views[i])
  }

  /** The answer describes the owned tasks one to one: as many views as
      tasks, newest first, every owned task shown by its view, and every
      view the view of an owned task. */
  ghost predicate DescribesOwned(db: Db, views: seq<TaskView>, owned: seq<Task>, host: string, bucket: string) {
    && |views| == |owned|
    && (forall i, j :: 0 <= i < j < |views| ==> views[i].createdAt >= views[j].createdAt)
    && (forall t :: t in owned ==> exists i :: 0 <= i < |views| && ViewOfTask(db, t, host, bucket) == Some(views[i]))
    && (forall i :: 0 <= i < |views| ==> exists t :: t in owned && ViewOfTask(db, t, host, bucket) == Some(views[i]))
  }

  /** Every task of a permutation is shown by the view at its position. */
  lemma EveryTaskShown(db: Db, views: seq<TaskView>, sorted: seq<Task>, owned: seq<Task>, host: string, bucket: string, t: Task)
    requires ViewsOf(db, views, sorted, host, bucket)
    requires multiset(sorted) == multiset(owned) && t in owned
    ensures exists i :: 0 <= i < |views| && ViewOfTask(db, t, host, bucket) == Some(views[i])
  {
    assert t in multiset(sorted);
    var i :| 0 <= i < |sorted| && sorted[i] == t;
    assert ViewOfTask(db, sorted[i], host, bucket) == Some(views[i]);
  }

  /** The views of tasks ordered newest first are ordered newest first. */
  lemma ViewsKeepOrder(db: Db, views: seq<TaskView>, sorted: seq<Task>, host: string, bucket: string)
    requires ViewsOf(db, views, sorted, host, bucket)
    requires Seqs.SortedDesc(sorted, TaskCreatedAt)
    ensures forall i, j :: 0 <= i < j < |views| ==> views[i].createdAt >= views[j].createdAt
  {
    forall i, j | 0 <= i < j < |views|
      ensures views[i].createdAt >= views[j].createdAt
    {
      assert ViewOfTask(db, sorted[i], host, bucket) == Some(views[i]);
      assert ViewOfTask(db, sorted[j], host, bucket) == Some(views[j]);
      assert TaskCreatedAt(sorted[i]) >= TaskCreatedAt(sorted[j]);
    }
  }

  /** Views of the user's tasks in sorted order describe the owned tasks one
      to one. */
  lemma ViewsDescribeOwnedTasks(db: Db, userId: string, host: string, bucket: string, views: seq<TaskView>)
    requires ViewsOf(db, views, SortedTasks(db, userId), host, bucket)
    ensures DescribesOwned(db, views, OwnedTasks(db, userId), host, bucket)
  {
    var sorted := SortedTasks(db, userId);
    var owned := OwnedTasks(db, userId);
    forall t | t in owned
      ensures exists i :: 0 <= i < |views| && ViewOfTask(db, t, host, bucket) == Some(views[i])
    {
      EveryTaskShown(db, views, sorted, owned, host, bucket, t);
    }
    forall i | 0 <= i < |views|
      ensures exists t :: t in owned && ViewOfTask(db, t, host, bucket) == Some(views[i])
    {
      assert sorted[i] in owned && ViewOfTask(db, sorted[i], host, bucket) == Some(views[i]);
    }
    ViewsKeepOrder(db, views, sorted, host, bucket);
  }

  /** Sorting neither adds nor drops a task. */
  lemma SortedHasTheOwned(db: Db, userId: string)
    ensures forall t :: t in OwnedTasks(db, userId) <==> t in SortedTasks(db, userId)
  {
    var sorted := SortedTasks(db, userId);
    assert forall t :: t in sorted <==> t in multiset(sorted);
  }

  /** What `ViewAll` builds is the view of each task in turn. */
  lemma ViewAllIsViewsOf(db: Db, tasks: seq<Task>, host: string, bucket: string)
    requires forall i :: 0 <= i < |tasks| ==> FindProjectById(db.projects, tasks[i].projectId).Some?
    ensures ViewAll(db, tasks, host, bucket).Some? ==> ViewsOf(db, ViewAll(db, tasks, host, bucket).value, tasks, host, bucket)
  {
  }

  /** `GET(locals)`: 401 without a user; a 500 when one of the user's tasks
      names a user that does not exist; otherwise the view of every task of
      the user's projects, newest first: `payload[i]` is the view of the
      i-th of the sorted owned tasks, a permutation of them. */
  function ListTasks(db: Db, actor: Option<User>, host: string, bucket: string): (r: Reply<seq<TaskView>>)
    ensures actor.None? ==> r == Error(401, "Unauthorized")
    ensures actor.Some? ==>
              (r.Success? <==> forall t :: t in OwnedTasks(db, actor.value.id) ==> FindUserById(db.users, t.userId).Some?)
    ensures actor.Some? && !r.Success? ==> r == Error(500, "Internal server error")
    ensures r.Success? ==> r.status == 200 && ViewsOf(db, r.payload, SortedTasks(db, actor.value.id), host, bucket)
  {
    match actor
    case None => Error(401, "Unauthorized")
    case Some(u) =>
      var sorted := SortedTasks(db, u.id);
      SortedHasTheOwned(db, u.id);
      ViewAllIsViewsOf(db, sorted, host, bucket);
      match ViewAll(db, sorted, host, bucket)
      case None => Error(500, "Internal server error")
      case Some(views) => Success(200, views)
  }
}

=== FILE: text.dfy ===
/** String operations with the JavaScript semantics the application relies on:
    `split` on a one-character separator, `parseInt`, `trim`, ASCII case
    mapping, `padEnd`, `startsWith` and `replace` of the first occurrence.
    Strings are sequences of Unicode scalar values; where JavaScript counts
    UTF-16 code units (`length`, and so zod's `.min`), `Utf16Length` does. */
module Text {
  import opened Wrappers

  /** JavaScript's `s.length`: the number of UTF-16 code units, two for a
      character outside the Basic Multilingual Plane, one otherwise. */
  function Utf16Length(s: string): (n: nat)
    ensures |s| <= n <= 2 * |s|
    ensures n == |s| <==> forall i :: 0 <= i < |s| ==> (s[i] as int) < 0x1_0000
  {
    if |s| == 0 then 0
    else
      var rest := Utf16Length(s[1..]);
      assert forall i :: 1 <= i < |s| ==> s[i] == s[1..][i - 1];
      (if (s[0] as int) < 0x1_0000 then 1 else 2) + rest
  }

  /** Three emoji are three characters but six code units. */
  lemma ThreeEmojiAreSixUnits()
    ensures var s := "\U{1F600}\U{1F600}\U{1F600}";
            |s| == 3 && Utf16Length(s) == 6
  {
    var s := "\U{1F600}\U{1F600}\U{1F600}";
    assert s[1..][1..][1..] == [];
  }

  predicate StartsWith(s: string, prefix: string) {
    |prefix| <= |s| && s[..|prefix|] == prefix
  }

  // ---------------------------------------------------------------------------
  // Scanning

  /** Length of the longest prefix of `s` whose characters all satisfy `p`. */
  function LeadingCount(s: string, p: char -> bool): (k: nat)
    ensures k <= |s|
    ensures forall i :: 0 <= i < k ==> p(s[i])
    ensures k < |s| ==> !p(s[k])
  {
    if |s| == 0 || !p(s[0]) then 0 else 1 + LeadingCount(s[1..], p)
  }

  /** Length of the longest suffix of `s` whose characters all satisfy `p`. */
  function TrailingCount(s: string, p: char -> bool): (k: nat)
    ensures k <= |s|
    ensures forall i :: |s| - k <= i < |s| ==> p(s[i])
    ensures k < |s| ==> !p(s[|s| - k - 1])
  {
    if |s| == 0 || !p(s[|s| - 1]) then 0 else 1 + TrailingCount(s[..|s| - 1], p)
  }

  /** Position of the first occurrence of `c` in `s`, like `indexOf`. */
  function IndexOfChar(s: string, c: char): (r: Option<nat>)
    ensures r.None? <==> c !in s
    ensures r.Some? ==> r.value < |s| && s[r.value] == c
    ensures r.Some? ==> forall j :: 0 <= j < r.value ==> s[j] != c
  {
    var k := LeadingCount(s, x => x != c);
    assert forall i :: 0 <= i < k ==> s[i] != c;
    if k == |s| then None else Some(k)
  }

  /** The first occurrence of `c` in `a + [c] + b`, when `a` has none, is at `|a|`. */
  lemma IndexOfCharAfter(a: string, c: char, b: string)
    requires c !in a
    ensures IndexOfChar(a + [c] + b, c) == Some(|a|)
  {
    var s := a + [c] + b;
    assert s[|a|] == c;
    assert forall j :: 0 <= j < |a| ==> s[j] == a[j];
  }

  // ---------------------------------------------------------------------------
  // split / join on a one-character separator

  /** `parts.join(sep)`. */
  function Join(parts: seq<string>, sep: char): string
    requires |parts| >= 1
  {
    if |parts| == 1 then parts[0] else parts[0] + [sep] + Join(parts[1..], sep)
  }

  /** `s.split(sep)` for a one-character separator: the maximal separator-free
      segments of `s`, which joined back with the separator give `s`. */
  function Split(s: string, sep: char): (parts: seq<string>)
    ensures |parts| >= 1
    ensures forall i :: 0 <= i < |parts| ==> sep !in parts[i]
    ensures Join(parts, sep) == s
    decreases |s|
  {
    match IndexOfChar(s, sep)
    case None => [s]
    case Some(i) =>
      var rest := Split(s[i + 1..], sep);
      var parts := [s[..i]] + rest;
      assert parts[1..] == rest;
      assert s == s[..i] + [sep] + s[i + 1..];
      parts
  }

  /** Splitting a separator-free head followed by the separator peels off the head. */
  lemma {:induction false} SplitCons(head: string, sep: char, tail: string)
    requires sep !in head
    ensures Split(head + [sep] + tail, sep) == [head] + Split(tail, sep)
  {
    var s := head + [sep] + tail;
    assert s[|head|] == sep;
    assert s[..|head|] == head;
    assert s[|head| + 1..] == tail;
    assert forall j :: 0 <= j < |head| ==> s[j] == head[j];
    assert IndexOfChar(s, sep) == Some(|head|);
  }

  /** A separator-free string splits into itself alone. */
  lemma SplitNoSeparator(s: string, sep: char)
    requires sep !in s
    ensures Split(s, sep) == [s]
  {
  }

  /** A string splits into a single part exactly when it has no separator,
      and that part is then the whole string. */
  lemma SplitSingle(s: string, sep: char)
    ensures |Split(s, sep)| == 1 <==> sep !in s
    ensures |Split(s, sep)| == 1 ==> Split(s, sep)[0] == s
  {
    if sep in s {
      assert IndexOfChar(s, sep).Some?;
    }
  }

  /** The first segment of a split is the text before the first separator,
      or all of it when there is none. */
  lemma SplitHead(s: string, sep: char)
    ensures var head := Split(s, sep)[0];
            && |head| <= |s| && s[..|head|] == head
            && (|head| < |s| ==> s[|head|] == sep)
  {
    var parts := Split(s, sep);
    if |parts| > 1 {
      assert s == parts[0] + [sep] + Join(parts[1..], sep);
    }
  }

  /** Splitting undoes joining, provided no part contains the separator. */
  lemma {:induction false} SplitJoin(parts: seq<string>, sep: char)
    requires |parts| >= 1
    requires forall i :: 0 <= i < |parts| ==> sep !in parts[i]
    ensures Split(Join(parts, sep), sep) == parts
    decreases |parts|
  {
    if |parts| == 1 {
      SplitNoSeparator(parts[0], sep);
    } else {
      SplitJoin(parts[1..], sep);
      SplitCons(parts[0], sep, Join(parts[1..], sep));
      assert parts == [parts[0]] + parts[1..];
    }
  }

  // ---------------------------------------------------------------------------
  // Decimal numbers

  predicate IsDigit(c: char) {
    '0' <= c <= '9'
  }

  predicate AllDigits(s: string) {
    forall i :: 0 <= i < |s| ==> IsDigit(s[i])
  }

  function DigitChar(d: nat): (c: char)
    requires d < 10
    ensures IsDigit(c) && c as int - '0' as int == d
  {
    ('0' as int + d) as char
  }

  /** Decimal rendering of a natural number, as a template literal prints it:
      digits only, and a leading zero only for zero itself. */
  function NatToString(n: nat): (s: string)
    ensures |s| >= 1 && AllDigits(s)
    ensures s[0] == '0' <==> n == 0
    ensures n == 0 ==> s == "0"
    decreases n
  {
    if n < 10 then [DigitChar(n)] else NatToString(n / 10) + [DigitChar(n % 10)]
  }

  /** The value of a string of decimal digits. */
  function DigitsValue(s: string): nat
    requires AllDigits(s)
  {
    if |s| == 0 then 0 else 10 * DigitsValue(s[..|s| - 1]) + (s[|s| - 1] as int - '0' as int)
  }

  lemma {:induction false} DigitsValueOfNatToString(n: nat)
    ensures DigitsValue(NatToString(n)) == n
    decreases n
  {
    if n >= 10 {
      var s := NatToString(n);
      assert s[..|s| - 1] == NatToString(n / 10);
      DigitsValueOfNatToString(n / 10);
    }
  }

  // ---------------------------------------------------------------------------
  // parseInt

  /** JavaScript's `parseInt` result: an integer or NaN. */
  datatype ParsedInt = Int(value: int) | NotANumber

  function HexValue(c: char): nat {
    if '0' <= c <= '9' then c as int - '0' as int
    else if 'a' <= c <= 'f' then c as int - 'a' as int + 10
    else if 'A' <= c <= 'F' then c as int - 'A' as int + 10
    else 16
  }

  predicate IsHexDigit(c: char) {
    HexValue(c) < 16
  }

  /** The value of a string of digits in radix 10 or 16. */
  function RadixValue(s: string, radix: nat): nat
    requires radix == 10 || radix == 16
  {
    if |s| == 0 then 0
    else radix * RadixValue(s[..|s| - 1], radix) + (var d := HexValue(s[|s| - 1]); if d < radix then d else 0)
  }

  /** The digits after an optional sign: a `0x`/`0X` prefix selects radix 16,
      and the longest run of digits that follows is read; none gives NaN. */
  function ParseMagnitude(u: string): Option<nat> {
    var hex := |u| >= 2 && u[0] == '0' && (u[1] == 'x' || u[1] == 'X');
    var body := if hex then u[2..] else u;
    var digits := body[..LeadingCount(body, if hex then IsHexDigit else IsDigit)];
    if |digits| == 0 then None else Some(RadixValue(digits, if hex then 16 else 10))
  }

  lemma ParseMagnitudeOfDigits(u: string)
    requires AllDigits(u) && |u| > 0 && !(|u| >= 2 && u[0] == '0')
    ensures ParseMagnitude(u) == Some(DigitsValue(u))
  {
    LeadingCountAll(u, IsDigit);
    assert u[..|u|] == u;
    RadixValueOfDigits(u);
  }

  /** `parseInt(s)` with no radix argument: leading white space is skipped and
      one sign is accepted before the magnitude. */
  function ParseInt(s: string): ParsedInt {
    var t := TrimStart(s);
    var negative := |t| > 0 && t[0] == '-';
    var u := if |t| > 0 && (t[0] == '-' || t[0] == '+') then t[1..] else t;
    match ParseMagnitude(u)
    case None => NotANumber
    case Some(m) => Int(if negative then -(m as int) else m)
  }

  /** A string whose characters all satisfy `p` is its own longest `p`-prefix. */
  lemma LeadingCountAll(s: string, p: char -> bool)
    requires forall i :: 0 <= i < |s| ==> p(s[i])
    ensures LeadingCount(s, p) == |s|
  {
  }

  lemma {:induction false} RadixValueOfDigits(s: string)
    requires AllDigits(s)
    ensures RadixValue(s, 10) == DigitsValue(s)
  {
    if |s| > 0 {
      RadixValueOfDigits(s[..|s| - 1]);
    }
  }

  /** `parseInt` of decimal digits without a redundant leading zero is their
      value. */
  lemma ParseIntOfDigits(s: string)
    requires AllDigits(s) && |s| > 0 && !(|s| >= 2 && s[0] == '0')
    ensures ParseInt(s) == Int(DigitsValue(s))
  {
    assert IsDigit(s[0]) && !IsWhitespace(s[0]);
    assert TrimStart(s) == s;
    ParseMagnitudeOfDigits(s);
  }

  /** `parseInt` reads back every decimal rendering of a natural number. */
  lemma ParseIntOfNatToString(n: nat)
    ensures ParseInt(NatToString(n)) == Int(n)
  {
    var s := NatToString(n);
    ParseIntOfDigits(s);
    DigitsValueOfNatToString(n);
  }

  // ---------------------------------------------------------------------------
  // trim

  /** ECMAScript WhiteSpace and LineTerminator code points, which `trim` removes. */
  predicate IsWhitespace(c: char) {
    var x := c as int;
    x == 0x09 || x == 0x0A || x == 0x0B || x == 0x0C || x == 0x0D || x == 0x20
    || x == 0xA0 || x == 0x1680 || (0x2000 <= x <= 0x200A) || x == 0x2028 || x == 0x2029
    || x == 0x202F || x == 0x205F || x == 0x3000 || x == 0xFEFF
  }

  /** `s.trimStart()`: the suffix of `s` after its leading white space. */
  function TrimStart(s: string): (r: string)
    ensures |r| <= |s| && r == s[|s| - |r|..]
    ensures |r| > 0 ==> !IsWhitespace(r[0])
    ensures forall i :: 0 <= i < |s| - |r| ==> IsWhitespace(s[i])
  {
    s[LeadingCount(s, IsWhitespace)..]
  }

  /** `s.trimEnd()`: the prefix of `s` before its trailing white space. */
  function TrimEnd(s: string): (r: string)
    ensures |r| <= |s| && r == s[..|r|]
    ensures |r| > 0 ==> !IsWhitespace(r[|r| - 1])
    ensures forall i :: |r| <= i < |s| ==> IsWhitespace(s[i])
  {
    s[..|s| - TrailingCount(s, IsWhitespace)]
  }

  /** `s.trim()`: `s` without its leading and trailing white space; it is empty
      exactly when `s` is all white space. */
  function Trim(s: string): (r: string)
    ensures |r| <= |s|
    ensures |r| > 0 ==> !IsWhitespace(r[0]) && !IsWhitespace(r[|r| - 1])
    ensures r == "" <==> forall i :: 0 <= i < |s| ==> IsWhitespace(s[i])
  {
    var t := TrimStart(s);
    var r := TrimEnd(t);
    assert r == "" ==> t == "";
    assert forall i :: |s| - |t| <= i < |s| ==> s[i] == t[i - (|s| - |t|)];
    r
  }

  /** Trimming is idempotent. */
  lemma TrimIdempotent(s: string)
    ensures Trim(Trim(s)) == Trim(s)
  {
    var r := Trim(s);
    if |r| > 0 {
      assert LeadingCount(r, IsWhitespace) == 0;
      assert TrailingCount(r, IsWhitespace) == 0;
      assert r[..|r|] == r;
    }
  }

  // ---------------------------------------------------------------------------
  // Case mapping and padding

  function LowerChar(c: char): char {
    if 'A' <= c <= 'Z' then (c as int + 32) as char else c
  }

  function UpperChar(c: char): char {
    if 'a' <= c <= 'z' then (c as int - 32) as char else c
  }

  /** `s.toLowerCase()` over ASCII letters. */
  function ToLower(s: string): (r: string)
    ensures |r| == |s|
    ensures forall i :: 0 <= i < |s| ==> r[i] == LowerChar(s[i])
  {
    seq(|s|, i requires 0 <= i < |s| => LowerChar(s[i]))
  }

  /** `s.toUpperCase()` over ASCII letters. */
  function ToUpper(s: string): (r: string)
    ensures |r| == |s|
    ensures forall i :: 0 <= i < |s| ==> r[i] == UpperChar(s[i])
  {
    seq(|s|, i requires 0 <= i < |s| => UpperChar(s[i]))
  }

  /** `s.padEnd(width)`: `s` followed by spaces up to `width` characters. */
  function PadEnd(s: string, width: nat): (r: string)
    ensures |r| == if |s| >= width then |s| else width
    ensures r[..|s|] == s
    ensures forall i :: |s| <= i < |r| ==> r[i] == ' '
  {
    if |s| >= width then s else s + seq(width - |s|, _ => ' ')
  }

  // ---------------------------------------------------------------------------
  // Substring search and replace-first

  predicate OccursAt(s: string, pattern: string, i: nat) {
    i + |pattern| <= |s| && s[i..i + |pattern|] == pattern
  }

  function IndexOfFrom(s: string, pattern: string, from: nat): (r: Option<nat>)
    requires from <= |s| + 1
    ensures r.Some? ==> from <= r.value && OccursAt(s, pattern, r.value)
    ensures r.Some? ==> forall j :: from <= j < r.value ==> !OccursAt(s, pattern, j)
    ensures r.None? ==> forall j :: from <= j <= |s| ==> !OccursAt(s, pattern, j)
    decreases |s| + 1 - from
  {
    if from + |pattern| > |s| then None
    else if s[from..from + |pattern|] == pattern then Some(from)
    else IndexOfFrom(s, pattern, from + 1)
  }

  /** `s.indexOf(pattern)`: the first position where `pattern` occurs. */
  function IndexOf(s: string, pattern: string): (r: Option<nat>)
    ensures r.Some? ==> OccursAt(s, pattern, r.value)
    ensures r.Some? ==> forall j :: 0 <= j < r.value ==> !OccursAt(s, pattern, j)
    ensures r.None? ==> forall j :: 0 <= j <= |s| ==> !OccursAt(s, pattern, j)
  {
    IndexOfFrom(s, pattern, 0)
  }

  /** `s.replace(pattern, replacement)` with a string pattern (and a
      replacement without `$` patterns): only the first occurrence is replaced. */
  function ReplaceFirst(s: string, pattern: string, replacement: string): (r: string)
    ensures IndexOf(s, pattern).None? ==> r == s
    ensures IndexOf(s, pattern).Some? ==>
              var i := IndexOf(s, pattern).value;
              |r| == |s| - |pattern| + |replacement| &&
              r[..i] == s[..i] && r[i..i + |replacement|] == replacement && r[i + |replacement|..] == s[i + |pattern|..]
  {
    match IndexOf(s, pattern)
    case None => s
    case Some(i) => s[..i] + replacement + s[i + |pattern|..]
  }

  /** Whether `pattern` occurs in `s` with ASCII letter case ignored, as the
      database's case-insensitive `contains` filter matches. */
  predicate ContainsIgnoringCase(s: string, pattern: string) {
    IndexOf(ToLower(s), ToLower(pattern)).Some?
  }
}

=== FILE: verify.dfy ===
/** GET /auth/verify (src/routes/auth/verify/+server.ts): consumes a
    verification token, marks its user verified and redirects to the login
    page.

    The handler signals success by throwing the framework's redirect, and its
    catch block re-throws only values that are a `Response`. The framework's
    redirect is a plain object with `status` and `location`, not a
    `Response`, so as written every successful verification is answered with
    500 'Verification failed' after the user has been marked verified.
    `AsWritten` models that catch block; `Corrected` tests the thrown value
    with `isSvelteKitRedirect`, as src/routes/(auth)/auth/verify/+server.ts
    does. */
module VerifyRoute {
  import opened Wrappers
  import opened Js
  import opened Db
  import opened Http
  import Redirect

  datatype Variant = AsWritten | Corrected

  const LoginLocation: string := "/auth/login?verified=true"

  /** `user.findFirst({ where: { verificationToken: token, emailVerified: false } })`. */
  function PendingUser(users: seq<User>, token: string): (r: Option<User>)
    ensures r.Some? ==> r.value in users && r.value.verificationToken == Some(token) && !r.value.emailVerified
    ensures r.None? <==> forall i :: 0 <= i < |users| ==> users[i].verificationToken != Some(token) || users[i].emailVerified
  {
    FindFirst(users, (u: User) => u.verificationToken == Some(token) && !u.emailVerified)
  }

  /** The update: verified, token cleared, every other column kept. */
  function MarkVerified(u: User): (v: User)
    ensures v.emailVerified && v.verificationToken.None?
    ensures v.(emailVerified := u.emailVerified, verificationToken := u.verificationToken) == u
  {
    u.(emailVerified := true, verificationToken := None)
  }

  /** Whether the catch block re-throws the value the handler threw. */
  predicate Rethrows(v: Variant, thrown: JsValue) {
    match v
    case AsWritten => thrown.Object? && thrown.isResponse
    case Corrected => Redirect.IsSvelteKitRedirect(thrown)
  }

  /** `GET(url)` with `token` the query parameter (`None` when absent).

      A missing or empty token, and a token no unverified user holds, are
      refused with 400 and change nothing. Otherwise the matched user, and no
      other, becomes verified with its token cleared; the corrected handler
      then redirects to the login page. */
  function VerifyEmail(v: Variant, users: seq<User>, token: Option<string>): (r: (Reply<()>, seq<User>))
    ensures r.0.Status() == 400 <==> token.None? || token.value == "" || PendingUser(users, token.value).None?
    ensures r.0.Status() == 400 ==> r.1 == users
    ensures r.0.Status() != 400 ==>
              var u := PendingUser(users, token.value).value;
              && |r.1| == |users|
              && (forall i :: 0 <= i < |users| ==> r.1[i] == if users[i].id == u.id then MarkVerified(users[i]) else users[i])
    ensures v == Corrected && r.0.Status() != 400 ==> r.0 == Redirect(302, LoginLocation)
  {
    if token.None? || token.value == "" then (Error(400, "Verification token is required"), users)
    else match PendingUser(users, token.value)
      case None => (Error(400, "Invalid or expired verification token"), users)
      case Some(u) =>
        var users' := UpdateUser(users, u.id, MarkVerified);
        var thrown := Redirect.FrameworkRedirect(302, LoginLocation);
        Redirect.FrameworkRedirectRecognised(302, LoginLocation);
        if Rethrows(v, thrown) then (Redirect(302, LoginLocation), users')
        else (Error(500, "Verification failed"), users')
  }

  /** As written, a successful verification is reported as a failure: the
      user is verified, yet the answer is 500 'Verification failed'. */
  lemma AsWrittenSuccessIsReportedAs500(users: seq<User>, token: string)
    requires token != "" && PendingUser(users, token).Some?
    ensures var (reply, users') := VerifyEmail(AsWritten, users, Some(token));
            && reply == Failure(500, ["Verification failed"])
            && exists i :: 0 <= i < |users'| && users'[i].id == PendingUser(users, token).value.id && users'[i].emailVerified
  {
    var u := PendingUser(users, token).value;
    var users' := VerifyEmail(AsWritten, users, Some(token)).1;
    var i :| 0 <= i < |users| && users[i] == u;
    assert users'[i].emailVerified;
  }

  /** A token is good for one verification: once it has verified its user,
      presenting it again is refused, provided no other user holds it. */
  lemma {:induction false} TokenIsSingleUse(v: Variant, users: seq<User>, token: string)
    requires token != ""
    requires forall i, j :: 0 <= i < j < |users| ==>
               users[i].verificationToken != Some(token) || users[j].verificationToken != Some(token)
    requires VerifyEmail(v, users, Some(token)).0.Status() != 400
    ensures var users' := VerifyEmail(v, users, Some(token)).1;
            VerifyEmail(v, users', Some(token)) == (Failure(400, ["Invalid or expired verification token"]), users')
  {
    var u := PendingUser(users, token).value;
    var users' := VerifyEmail(v, users, Some(token)).1;
    var k :| 0 <= k < |users| && users[k] == u;
    forall i | 0 <= i < |users'|
      ensures users'[i].verificationToken != Some(token) || users'[i].emailVerified
    {
      if users[i].verificationToken == Some(token) {
        assert i == k;
      }
    }
  }
}

=== FILE: wrappers.dfy ===
/** Optional values and fallible results, used across the model in place of
    JavaScript's `null`/`undefined` and thrown exceptions. */
module Wrappers {

  /** A value that may be absent (`null` or `undefined` in the source). */
  datatype Option<+T> = None | Some(value: T) {
    function GetOr(default: T): T {
      match this
      case Some(v) => v
      case None => default
    }
  }

  /** The outcome of an operation that may throw. */
  datatype Result<+T, +E> = Ok(value: T) | Err(error: E)
}
